=== FILE: README.md ===
# cino — a Dafny model of the test matrix, device matching and serial test protocol

cino is a CI system for Arduino hardware tests. A test is a directory with a
`cino.yml` that lists one or more sketches and, for each, the board (FQBN),
architecture and features the device running it must have, plus the wiring
the whole test needs. The server expands every test into a job matrix: one
job per architecture (for libraries) or per board (for cores), tuple by
tuple, merging jobs that end up asking for the same thing. A runner assigns
its attached devices to the sketches of a job, uploads them, and reads what
each board prints over serial. The board side is the `cino.h` header, whose
`TEST_PLAN`, `REQUIRE`, `CHECK` and `TEST_DONE` macros print one JSON record
per line. The runner counts passed and failed checks, then settles the test
status. Finally the server reports the job back as a GitHub check run.

The model covers those pure parts:

- `perm.dfy` (`Permutations`): `Perm`, every k-tuple over a value list in
  odometer order, with a closed form for entry t (`Tuple`).
- `requirements.dfy` (`Requirements`): the `cino.yml` data model, sketch-list
  normalisation in `NewTest`, `GetRequirements`, `Clone`, and `Equals` (equal
  after sorting wiring and features).
- `strorder.dfy` (`StringOrder`): Go's string order and the sort that `Equals`
  uses.
- `uniq.dfy` (`Classes`): deduplication up to an equivalence, in the shape of
  the `uniqRequirements` loop.
- `scanner.dfy` (`Scanner`): the `boards.txt` key filter, `RepeatByArchitectures`,
  `RepeatByFQBNs` and `uniqRequirements`.
- `devices.dfy` (`Devices`, `DeviceScenarios`): `MatchDevice` and the greedy
  `AssignDevices`.
- `job.dfy` (`Jobs`): the job name, the status fold, the device list and the
  report text.
- `results.dfy` (`CheckRuns`): how the result sweep settles a job and what
  check-run state, title and summary it sends.
- `runner.dfy` (`Runner`): the device-count guard, the per-sketch log prefix,
  and the loop that reads a board's output.
- `emitter.dfy` (`Emitter`): what `cino.h` prints.
- `protocol.dfy` (`Protocol`): a decoder for those records and the end-to-end
  results. A sketch made of `TEST_PLAN(n)`, checks and `TEST_DONE()` makes the
  runner count exactly the checks that ran and the ones that failed.
- `text.dfy` (`Text`) and `wrappers.dfy` (`Wrappers`): shared string helpers
  (join, split, decimal numerals, basename) and `Option`/`Result`.

Two behaviours of the code are easy to misread. The model follows the code.

- `REQUIRE`/`CHECK` pass `_quote(#expr)`, which stringises the expression
  twice. The text printed for `expr` is therefore a quoted, escaped JSON string
  (`"expr":"2 + 2 == 4"`), not the bare expression text. `Emitter.RequireMacro`
  records this, and `Protocol.DecodeRecord` proves that the runner decodes it
  back to the original expression.
- `TEST_NOPLAN()` prints `{"plan":-1}`. The runner only counts `plan > 0` as a
  declaration, so the first check after `TEST_NOPLAN()` ends the session with
  "Error: no test plan declared" and status "success" (`Protocol.NoPlanSession`).

## Model

| member | source | states |
|---|---|---|
| Permutations.Perm | cino-server/server/scanner.go:217-234 | `Perm(set, k)` has `len(set)^k` entries, and entry t is the k-tuple whose digits in base `len(set)` are the indices of t, most significant first |
| Permutations.Tuple | cino-server/server/scanner.go:221-234 | every tuple has length k and takes all its elements from the value list |
| Permutations.PermFromIndex | cino-server/server/scanner.go:221-234 | the recursive `perm(set, prefix, k)` yields `len(set)^k` entries, each `prefix` followed by the t-th tuple |
| Permutations.PermLoopIndex | cino-server/server/scanner.go:228-233 | the loop over `set[i..]` appends the blocks for the first elements `set[i]`, `set[i+1]`, … in order |
| Permutations.TupleCons | cino-server/server/scanner.go:229-231 | the entry at `i * len^(k-1) + t` is `set[i]` followed by tuple t of length k-1 |
| Permutations.PermShape | cino-server/server/scanner.go:217-234 | every entry has length k and draws from the value list |
| Permutations.PermEdgeCases | cino-server/server/scanner.go:222-227 | k = 0 gives exactly one empty tuple, and an empty value list with k > 0 gives none |
| Permutations.PermEnds | cino-server/server/scanner.go:217-234 | the first entry repeats the first value k times and the last entry repeats the last value k times |
| Permutations.TupleAtRank | cino-server/server/scanner.go:217-234 | any choice of value indices is produced at the position given by its base-n rank |
| Permutations.PermComplete | cino-server/server/scanner.go:217-234 | every k-tuple over the value list occurs in `Perm` (completeness) |
| Requirements.NormalizeSketches | lib/test.go:80-95 | no sketch gives one default sketch in "."; one sketch is moved to "."; with several, the list is kept when every sketch names a directory that exists, and otherwise the first offending sketch's error is returned |
| Requirements.CheckSketchDirs | lib/test.go:86-94 | no error exactly when every sketch names an existing directory; otherwise the first offending sketch decides the error: an empty `dir` gives the missing-directory error, and a directory that does not exist gives the not-found error naming it |
| Requirements.GetRequirements | lib/test.go:106-112 | built, like the Go loop, by appending each sketch's requirements to an empty list: the result has the test's own wiring and exactly one sketch requirement per `cino.yml` sketch, the k-th being the k-th sketch's |
| Requirements.Clone | lib/test.go:114-124 | the clone holds the same wiring, FQBNs, architectures and features as the original |
| Requirements.EqualsIffSameUpToOrder | lib/test.go:126-137 | `Equals` holds exactly when the sketches agree pairwise on FQBN and architecture, their feature lists are equal as multisets, and the wiring lists are equal as multisets |
| Requirements.EqualsTransitive | lib/test.go:126-137 | `Equals` is transitive, which makes it an equivalence usable for deduplication |
| Requirements.EqualsSymmetric | lib/test.go:126-137 | `Equals` is symmetric |
| Requirements.CloneEquals | lib/test.go:114-137 | a clone `Equals` its original |
| Requirements.EqualsIgnoresOrder | lib/test.go:126-137 | reordering the wiring or any sketch's features keeps `Equals` |
| Requirements.EqualsNeedsSameShape | lib/test.go:126-137 | a different sketch count or a different wiring multiset makes `Equals` false, whatever the sketches hold |
| Requirements.EqualsStrict | lib/test.go:126-137 | for a sketch index both sides have, a different FQBN, architecture or feature multiset there makes `Equals` false |
| StringOrder.Sort | lib/test.go:128-134 | `sort.Strings` yields a sorted permutation of its input |
| StringOrder.SortedUnique | lib/test.go:128-137 | two sorted lists with the same elements are identical, so the sorted form is canonical |
| StringOrder.SortEqualIffSameElements | lib/test.go:128-137 | two lists sort to the same list exactly when they hold the same multiset of strings |
| Classes.UniqIsFirsts | cino-server/server/scanner.go:201-215 | for an equivalence, the labelled loop keeps exactly the entries that have no equivalent entry before them, in input order |
| Classes.UniqProperties | cino-server/server/scanner.go:201-215 | the loop's result is an order-preserving selection with no two equivalent entries, and every input entry has an equivalent in it |
| Classes.UniqIdempotent | cino-server/server/scanner.go:201-215 | deduplicating a second time changes nothing |
| Classes.FirstsDistinct | cino-server/server/scanner.go:201-215 | no two first-of-class entries are equivalent |
| Classes.FirstsCover | cino-server/server/scanner.go:201-215 | every entry is equivalent to some first-of-class entry |
| Scanner.BoardsFromKeys | cino-server/server/scanner.go:150-157 | each returned board id is non-empty, contains no dot, and comes from an `<id>.name` key; every key of that form contributes its id |
| Scanner.BoardsFromNameKeys | cino-server/server/scanner.go:150-157 | keys `<id>.name` built from dot-free ids give back exactly those ids, in order |
| Scanner.BoardsIgnoreOtherKeys | cino-server/server/scanner.go:151-156 | a key that is not `<id>.name` (such as `uno.build.mcu`) adds no board |
| Scanner.BoardsFromNameKey | cino-server/server/scanner.go:151-156 | a single `<id>.name` key with a non-empty, dot-free id gives exactly that id |
| Scanner.BoardsFromKeysAppend | cino-server/server/scanner.go:150-157 | keys are read in order: the boards of two key lists in a row are the boards of the first, then those of the second |
| Scanner.FillSketch | cino-server/server/scanner.go:167-174 | an empty field takes the tuple value; `*` and concrete values stay; the other field and the features are unchanged |
| Scanner.Fill | cino-server/server/scanner.go:166-174 | the effective requirements keep the wiring and fill sketch j from element j of the tuple |
| Scanner.RepeatOne | cino-server/server/scanner.go:164-176 | a template contributes `len(values)^(sketch count)` matrix entries |
| Scanner.RepeatSize | cino-server/server/scanner.go:161-199 | the matrix size is the sum over templates of `len(values)^(sketch count)` |
| Scanner.RepeatAppend | cino-server/server/scanner.go:163-177 | templates are expanded one after the other, so expanding a concatenation concatenates the expansions |
| Scanner.RepeatOneEntry | cino-server/server/scanner.go:164-176 | entry t of a template's block has that template as original; sketch j's field is `Perm`'s tuple t at j when it was empty and otherwise unchanged, and nothing else changes |
| Scanner.RepeatEntriesFromTemplates | cino-server/server/scanner.go:161-199 | every matrix entry comes from a template: an empty field is filled from the value list, a set field is kept, and wiring and features are unchanged |
| Scanner.SameEffectiveIsEquivalence | cino-server/server/scanner.go:207 | comparing effective requirements with `Equals` is an equivalence |
| Scanner.UniqIsFirsts | cino-server/server/scanner.go:201-215 | `uniqRequirements` keeps exactly the entries whose effective requirements `Equals` those of no earlier entry |
| Scanner.UniqProperties | cino-server/server/scanner.go:201-215 | the result is an order-preserving selection with pairwise non-`Equals` effective requirements, it covers every input entry up to `Equals`, and it is idempotent |
| Devices.SecondFieldIsSplit | cino-runner/runner/devices.go:18-19 | the architecture read from an FQBN is field 1 of the FQBN split on `:` |
| Devices.MatchDevice | cino-runner/runner/devices.go:12-29 | a device matches exactly when a concrete FQBN requirement equals its FQBN, a concrete architecture requirement equals the second FQBN field, and every required feature is among its features |
| Devices.WildcardMatchesAll | cino-runner/runner/devices.go:12-29 | a sketch with empty or `*` FQBN and architecture and no features matches every device |
| Devices.ArchitectureMatch | cino-runner/runner/devices.go:17-22 | with only an architecture constraint, a `packager:arch:board` device matches exactly when arch is the required one |
| Devices.MissingFeatureNoMatch | cino-runner/runner/devices.go:24-26 | a device lacking one required feature never matches |
| Devices.CandidatesMembers | cino-runner/runner/devices.go:47-56 | a sketch's candidate list holds exactly the indices of the matching devices, in increasing order |
| Devices.OrderByCount | cino-runner/runner/devices.go:61-72 | the visiting order is a permutation of the sketch indices, sorted by candidate count |
| Devices.WithdrawMembers | cino-runner/runner/devices.go:83-86 | after an assignment, each candidate list loses exactly the assigned device and nothing else |
| Devices.WithdrawIncreasing | cino-runner/runner/devices.go:80-86 | withdrawing the assigned device keeps every candidate list in ascending device order, so the head taken at line 80 is always the lowest-numbered device still free |
| Devices.HeadIsLeast | cino-runner/runner/devices.go:80 | the head of an ascending candidate list is its least element |
| Devices.GreedySound | cino-runner/runner/devices.go:74-87 | for any visiting order, a successful greedy pass gives every sketch one of its own candidates, and no device goes to two sketches |
| Devices.GreedyFailsWithoutCandidate | cino-runner/runner/devices.go:75-79 | a sketch left without candidates makes the whole assignment fail |
| Devices.AssignIndices | cino-runner/runner/devices.go:32-90 | missing wiring or more sketches than devices give no assignment; a result picks, for each sketch, a distinct device matching it |
| Devices.GreedyLoop | cino-runner/runner/devices.go:74-87 | the imperative loop computes the greedy pass |
| Devices.AssignDevices | cino-runner/runner/devices.go:32-90 | same guards as `AssignIndices`; the result is one matching device per sketch, in sketch order |
| DeviceScenarios.FiveDevices | cino-runner/runner/devices_test.go:70-93 | with five devices and sketches needing foo, bar and baz, the assignment is devices one, three and zero |
| Jobs.SketchToken | lib/job.go:80-89 | a sketch contributes no token exactly when it has no tag and no features; otherwise the token is tag and features joined by commas |
| Jobs.NameTokens | lib/job.go:77-95 | the name is "Hardware test: " followed by the tokens (one per sketch with a tag or features, in sketch order, then the comma-joined wiring when there is any) joined by spaces; when no requirement contains a space, splitting what follows the prefix on spaces gives exactly those tokens back |
| Jobs.SketchTokenTags | lib/job.go:80-89 | when no requirement contains a comma, splitting a sketch's token on commas gives back its tag (a concrete FQBN, otherwise a concrete architecture; `*` and empty are not concrete) followed by its features |
| Jobs.StatusFoldIsWorst | lib/job.go:104-114 | the fold ends in failure if any test failed, otherwise in success if any test succeeded, otherwise in its start value |
| Jobs.StatusFromResults | lib/job.go:104-114 | the status is "failure" exactly when some test failed, "success" exactly when none failed and some succeeded, and "skipped" otherwise |
| Jobs.DeviceFQBNs | lib/job.go:97-102 | the list holds exactly the FQBNs used by some test, without duplicates, and is the first occurrence of each FQBN in the tests' concatenated lists, in that order |
| Jobs.AllDeviceFQBNsMembers | lib/job.go:98-100 | the concatenated list holds exactly the FQBNs of the tests |
| Jobs.Report | lib/job.go:116-126 | no tests give the empty report; otherwise it starts with the first test's section |
| Jobs.ReportSections | lib/job.go:120-124 | the report is the concatenation, in order, of "Running test in <path>:\n", the output and a newline, for each test |
| Jobs.ReportAppend | lib/job.go:120-124 | the report of two test lists is the concatenation of their reports |
| CheckRuns.Settle | cino-server/server/results.go:38-41 | a queued job becomes skipped, other statuses stay, the GitHub status mirrors the status, and nothing else changes |
| CheckRuns.SettleIdempotent | cino-server/server/results.go:38-41 | settling twice equals settling once |
| CheckRuns.StateOf | cino-server/server/results.go:54-59 | a status is sent exactly for "in_progress" and terminal job statuses, and is "in_progress" or "completed"; a conclusion is sent exactly with "completed" and is a terminal status; the job status can be read back from what is sent (the conclusion, else "in_progress") |
| CheckRuns.StateShape | cino-server/server/results.go:54-59 | a conclusion is sent exactly when the status is "completed", and it is the job's status |
| CheckRuns.StateInjective | cino-server/server/results.go:54-59 | distinct statuses that send a state send distinct states |
| CheckRuns.OutputOf | cino-server/server/results.go:60-97 | a skipped job gets the "No suitable device" title and the summary of its effective requirements; a job with tests gets "All tests passed" exactly on success, "Tests failed" otherwise, the summary of its tests, its runner and its boards, and the job report as text; any other job gets no output |
| CheckRuns.SkippedSummaryLines | cino-server/server/results.go:63-78 | the skipped summary has 2 header lines, one wiring line when wiring is required, and per sketch one "Device" line plus one line per non-empty field |
| CheckRuns.ResultsSummaryLines | cino-server/server/results.go:87-94 | the results summary has 5 fixed lines, plus one per test and one per board |
| CheckRuns.FieldLine | cino-server/server/results.go:69-77 | a field line is printed exactly when its value is present, and it is a whole line |
| Runner.CheckDeviceCount | cino-runner/runner/run.go:37-40 | no error exactly when the device and sketch counts agree; otherwise the message names the device count |
| Runner.CountErrorInjective | cino-runner/runner/run.go:37-40 | the count-mismatch message determines both counts |
| Runner.Tagged | cino-runner/runner/run.go:45-50 | a log line gets the "[dir] " prefix exactly when the test has several sketches and the index is a sketch's, and it always ends with the original text |
| Runner.UntagTagged | cino-runner/runner/run.go:45-50 | a prefixed line gives back the sketch directory and the original text |
| Runner.Step | cino-runner/runner/run.go:273-301 | one message counts a run, or a failed run, exactly when a plan was declared and the message is a result; the loop stops on done, fatal, a duplicate plan, or a result without a plan |
| Runner.Consume | cino-runner/runner/run.go:251-302 | the loop keeps the counters consistent and never decreases them |
| Runner.Finish | cino-runner/runner/run.go:304-315 | the status is "failure" exactly when a check failed; a declared plan that differs from the count adds the mismatch error; the status line comes last |
| Runner.ReadSession | cino-runner/runner/run.go:246-315 | the imperative loop computes the session, and the test fails exactly when a check failed |
| Runner.NoiseIgnored | cino-runner/runner/run.go:260-263 | dropping every line that does not start with `{` does not change the outcome |
| Runner.ConsumeAppend | cino-runner/runner/run.go:251-302 | once the loop has stopped, later lines are never read; otherwise reading continues where it left off |
| Runner.StopsAtDoneOrFatal | cino-runner/runner/run.go:299-301 | a done or fatal message is the last one read |
| Emitter.FileField | cino-library/src/cino.h:25-27 | the printed file name contains no double quote and no slash, and a plain base name is printed unchanged |
| Emitter.CinoCheck | cino-library/src/cino.h:18-40 | one record per check, closed by the `fatal` member when the check failed; the board halts exactly when that member reads `,"fatal":true` |
| Emitter.Record | cino-library/src/cino.h:20-35 | the record is one JSON object starting with the result key |
| Emitter.RequireMacro | cino-library/src/cino.h:42-43 | `REQUIRE` makes a fatal check whose expression text is stringised twice |
| Emitter.CheckMacro | cino-library/src/cino.h:42-44 | `CHECK` makes a non-fatal check whose expression text is stringised twice |
| Emitter.UnescapedEscape | cino-library/src/cino.h:42 | unescaping undoes the escaping of stringisation |
| Emitter.LiteralContentStringize | cino-library/src/cino.h:42 | the content of a stringised literal is the original text |
| Emitter.Plan | cino-library/src/cino.h:4-11 | the plan record is `{"plan":` followed by the count and a closing brace |
| Emitter.NoPlan | cino-library/src/cino.h:13 | `TEST_NOPLAN()` prints exactly `{"plan":-1}` |
| Protocol.DecodeRecord | cino-library/src/cino.h:18-44 | decoding a printed check record gives back the result, the original expression text, the base name, the line, and "fatal" exactly when the check was fatal and failed, when the expression text has no control character, the printed name has neither a backslash nor a control character, and the line fits Go's `int` |
| Protocol.DecodePlan | cino-library/src/cino.h:4-11 | decoding a plan record gives back its count when the count fits Go's 64-bit `int`, and is a decoding error otherwise |
| Protocol.LeadingZeroPlanRejected | cino-runner/runner/run.go:266-271 | the line `{"plan":007}` is not JSON, because a number may not have a leading zero, so decoding it is an error |
| Protocol.DecodeDone | cino-library/src/cino.h:15-16 | decoding the done record gives the done message |
| Protocol.LocationRoundTrip | cino-library/src/cino.h:24-34 | the file, line and fatal fields parse back to what was printed, when the printed name has neither a backslash nor a control character and the line fits Go's `int` |
| Protocol.ParseStringStringize | cino-library/src/cino.h:42-44 | a JSON string parser reads a stringised literal back to its text |
| Protocol.ParseNumberDecimal | cino-library/src/cino.h:29 | a printed decimal integer parses back to itself when it fits Go's 64-bit `int`, and is rejected otherwise |
| Protocol.DecodeStmt | cino-runner/runner/run.go:260-271 | every readable `REQUIRE`/`CHECK` line is a JSON line that decodes to the check's message; readable means no control character in the expression text, neither a backslash nor a control character in the printed name, and a line number that fits Go's `int` |
| Protocol.OutputLines | cino-library/src/cino.h:36-39 | a sketch prints one line per statement, up to and including the first failing `REQUIRE` |
| Protocol.OutputReads | cino-runner/runner/run.go:260-271 | each printed line of a program of readable statements is read by the runner as the message its statement means |
| Protocol.CountsMeanings | cino-runner/runner/run.go:282-296 | the results a sketch body means count the checks that ran and failed, and log one PASS/FAIL line each |
| Protocol.ConsumeResults | cino-runner/runner/run.go:251-302 | after a declared plan, reading result lines followed by done counts exactly those results and stops |
| Protocol.PlannedSession | cino-runner/runner/run.go:246-302 | reading the output of `TEST_PLAN(n)` (n fitting Go's `int`), a body of readable statements and `TEST_DONE()` leaves the runner with plan n and exactly the body's run and failed counts |
| Protocol.PlannedOutcome | cino-runner/runner/run.go:246-315 | that session fails exactly when a check in the body failed; its log is the PASS/FAIL lines, then the mismatch error when n differs from the run count, then the status line |
| Protocol.NoPlanSession | cino-runner/runner/run.go:282-288 | after `TEST_NOPLAN()` the first readable check ends the session with "no test plan declared" and status "success" |
| Protocol.UnescapeEscape | cino-runner/runner/run.go:266-271 | the JSON string reader reads a text with `"` and `\` escaped back as the text, when it has no control character |
| Protocol.UnescapeBadEscape | cino-runner/runner/run.go:266-271 | a backslash followed by a character that names no JSON escape makes the string unreadable, whatever follows |
| Protocol.BadEscapeRecord | cino-library/src/cino.h:24-27 | a check record whose printed name holds a backslash that starts no JSON escape does not decode, and `Json` reports the decoding error |
| Protocol.WindowsCheckRejected | cino-runner/runner/run.go:266-271 | the line of `CHECK(x)` compiled from `C:\Users\me\t.ino` does not decode, because "\U" is no JSON escape |
| Protocol.WindowsPathSession | cino-runner/runner/run.go:266-271 | a sketch built from that file that plans one check ends in the decoding error after the plan, with no status |
| Protocol.DuplicatePlanSession | cino-runner/runner/run.go:274-279 | a second `TEST_PLAN` ends the session with the duplicate-plan error, the mismatch error for zero runs, and status "success", for plan counts that fit Go's `int` |
| Text.JoinSplit | lib/job.go:88 | splitting a joined string on the separator character gives the parts back |
| Text.IntDecimalRoundTrip | cino-library/src/cino.h:29 | decimal printing of an integer parses back to it |
| Text.SubtractEmptyIffSubset | cino-runner/runner/devices.go:24 | `funk.SubtractString` is empty exactly when every element is in the other list |
| Text.Dedup | lib/job.go:101 | `funk.UniqString` keeps exactly the same elements, without duplicates, and leaves a duplicate-free list as is |
| Classes.DedupIsFirsts | lib/job.go:101 | `funk.UniqString` keeps exactly the first occurrence of each element, in input order |
| Text.AfterLastSuffix | cino-library/src/cino.h:27 | the base name is the suffix after the last separator |

## Left out

- I/O: serial ports, compiling and uploading sketches, reading `cino.yml` and `boards.txt`, the database, GitHub API calls and the web socket. Their results become parameters or fixed inputs.
- Concurrency: the per-sketch goroutines and the output channel. Each board's loop is modelled on its own, and the log is a list of lines.
- Timeouts and `readln`: the loop takes the lines already read, up to end of input or timeout. Every line `readln` returns ends in a newline, so none is empty. The model treats an empty line as noise instead of indexing it.
- JSON decoding: `Runner` takes the decoder as a parameter. `Protocol.Json` reads strings as `json.Unmarshal` does (every escape, surrogate pairs, control characters rejected), but reads only the member order and spacing `cino.h` prints. Other JSON layouts are treated as a decode error, which ends the session with that error. Numbers follow the JSON grammar and Go's `int` fields. A leading zero, a fraction or an exponent, or a value outside the 64-bit range of `int` on the runner's host, is a decode error, as it is for `json.Unmarshal`. `Protocol.LeadingZeroPlanRejected` and `Protocol.DecodePlan` show this.
- Protocol.DecodeRecord: holds only when the expression text has no control character, the printed name has neither a backslash nor a control character, and the line fits Go's 64-bit `int`. `cino.h` prints the name without escaping, so a backslash starts a JSON escape. `Protocol.BadEscapeRecord` and `Protocol.WindowsPathSession` show the failing case. A name with a valid escape such as "\b" decodes to a different name, which the model does not characterise. A line number wider than Go's `int` fails to decode (`Protocol.ParseNumberDecimal`). On the board `line` is a C `int`, so every real line number fits.
- Protocol.LocationRoundTrip: holds only for printed names with neither a backslash nor a control character, and a line that fits Go's `int`, for the same reasons.
- Protocol.DecodeStmt: holds only for readable statements, for the same reasons.
- Protocol.OutputReads: holds only for programs of readable statements, for the same reasons. A readable `TEST_PLAN` has a count that fits Go's `int`. Otherwise the plan line fails to decode (`Protocol.DecodePlan`).
- Protocol.PlannedSession: holds only for bodies of readable statements and a plan count that fits Go's `int`, for the same reasons.
- Protocol.PlannedOutcome: holds only for bodies of readable statements and a plan count that fits Go's `int`, for the same reasons.
- Protocol.NoPlanSession: holds only for a readable first check, for the same reasons.
- Protocol.DuplicatePlanSession: holds only for plan counts that fit Go's `int`. A wider count makes its plan line fail to decode (`Protocol.DecodePlan`).
- CheckRuns.OutputOf: requires a runner for a job that is neither skipped nor empty. The Go code dereferences `job.Runner` there (results.go:91) and panics on a nil pointer, which the model does not represent.
- `Requirements.NormalizeSketches`: the `os.Stat` probe is the parameter `dirExists`; read and parse errors of `cino.yml` are not modelled.
- `Requirements.Equals`: the Go method also sorts the caller's slices in place, and that side effect is not modelled. `cmp.Equal` tells a nil slice from an empty one, while the model compares sequences, where both are the empty sequence.
- Scanner.UniqIsFirsts: the kept entries are stated as the input entries, unchanged. In Go, each `Equals` call in `uniqRequirements` (cino-server/server/scanner.go:207) sorts the wiring and feature slices of both effective requirements in place, because the slices share their backing arrays with the caller's. So every entry that takes part in a comparison comes back with those slices sorted, which is every entry except a lone first one. The model keeps the order as written. Its entries are `Equals` to Go's, and equal up to the order of those lists.
- `Requirements.Clone`: Go's clone of an empty slice is nil; the model does not distinguish nil from empty.
- `Devices.AssignDevices`: the order in which sketches with equal candidate counts are visited comes from map iteration and an unstable sort, so it is unspecified. The model sorts stably by count and then index. `Devices.GreedySound` holds for every visiting order.
- `Devices.MatchDevice`: the Go code panics on an FQBN without `:` when an architecture is required and the FQBN check passed. The model's precondition excludes exactly that case.
- `Test.RelPath` (`filepath.Rel`): test paths are plain strings in the model.
- Line terminators: `Serial.println` ends lines in "\r\n". Lines are modelled without their terminator, as the JSON decoder ignores the whitespace.
- The whitespace the C preprocessor puts into a stringised expression is taken as given: the expression text is a parameter.
- `CompletedAt`, timestamps and job ids of the check-run update are not modelled.
- Scanning the repository, architectures from `library.properties`, and the queueing of jobs are not modelled, because only the matrix expansion and deduplication they feed are in scope.

=== FILE: devices.dfy ===
/**
 * Device matching and assignment of cino-runner/runner/devices.go. The
 * runner's configured wiring and devices are parameters. A device matches a
 * sketch when the FQBN, the architecture (the second `:` field of the FQBN)
 * and the features agree; sketches are then served greedily, those with the
 * fewest matching devices first.
 */
module Devices {

  import opened Wrappers
  import opened Requirements
  import Text

  /** A configured device (cino-runner/runner/config.go). */
  datatype Device = Device(fqbn: string, port: string, features: seq<string>)

  /** Go's zero `Device{}`. */
  const NoDevice := Device("", "", [])

  // ---------------------------------------------------------------------------
  // The architecture field of an FQBN
  // ---------------------------------------------------------------------------

  /** The text before the first `:`, or all of `s` when it has none. */
  function UpToColon(s: string): (r: string)
    ensures ':' !in r
    ensures |r| <= |s| && r == s[..|r|]
  {
    var j := Text.IndexOf(s, ':');
    if j < 0 then s else s[..j]
  }

  /**
   * `strings.SplitN(fqbn, ":", 3)[1]`: the text between the first `:` and
   * the next one (or the end).
   */
  function SecondField(fqbn: string): (r: string)
    requires ':' in fqbn
    ensures ':' !in r
  {
    UpToColon(fqbn[Text.IndexOf(fqbn, ':') + 1..])
  }

  /** A colon-free field ended by a colon or by the end of the text. */
  lemma UpToColonOf(field: string, post: string)
    requires ':' !in field
    requires post == "" || post[0] == ':'
    ensures UpToColon(field + post) == field
  {
    if post == "" {
      assert field + post == field;
    } else {
      Text.IndexAfterFree(field, post, ':');
      assert (field + post)[..|field|] == field;
    }
  }

  /** `packager:arch[:rest]` has architecture `arch`. */
  lemma SecondFieldBetweenColons(pre: string, field: string, post: string)
    requires ':' !in pre && ':' !in field
    requires post == "" || post[0] == ':'
    ensures ':' in pre + ":" + field + post
    ensures SecondField(pre + ":" + field + post) == field
  {
    var s := pre + ":" + field + post;
    var rest := field + post;
    assert s == pre + (":" + rest);
    assert Text.IndexOf(s, ':') == |pre| by {
      Text.IndexAfterFree(pre, ":" + rest, ':');
    }
    assert s[|pre| + 1..] == rest;
    UpToColonOf(field, post);
  }

  /** The same field as `strings.Split(fqbn, ":")[1]`. */
  lemma SecondFieldIsSplit(fqbn: string)
    requires ':' in fqbn
    ensures |Text.Split(fqbn, ':')| >= 2
    ensures Text.Split(fqbn, ':')[1] == SecondField(fqbn)
  {
    var i := Text.IndexOf(fqbn, ':');
    var rest := fqbn[i + 1..];
    var tail := Text.Split(rest, ':');
    assert Text.Split(fqbn, ':') == [fqbn[..i]] + tail;
    assert tail[0] == UpToColon(rest);
  }

  // ---------------------------------------------------------------------------
  // MatchDevice
  // ---------------------------------------------------------------------------

  /** The sketch's FQBN requirement is a wildcard or names the device's FQBN. */
  predicate FqbnAllows(s: SketchRequirements, dev: Device)
  {
    s.requireFQBN == "" || s.requireFQBN == "*" || s.requireFQBN == dev.fqbn
  }

  predicate ArchConstrained(s: SketchRequirements)
  {
    s.requireArchitecture != "" && s.requireArchitecture != "*"
  }

  /**
   * `MatchDevice` does not panic: the architecture is only read from FQBNs
   * that have a `:` (the check is reached only after the FQBN check passed).
   */
  predicate MatchDefined(s: SketchRequirements, dev: Device)
  {
    FqbnAllows(s, dev) && ArchConstrained(s) ==> ':' in dev.fqbn
  }

  /** `MatchDevice(skreq, dev)`. */
  function MatchDevice(s: SketchRequirements, dev: Device): (r: bool)
    requires MatchDefined(s, dev)
    ensures r <==>
      && FqbnAllows(s, dev)
      && (ArchConstrained(s) ==> ':' in dev.fqbn && s.requireArchitecture == SecondField(dev.fqbn))
      && (forall f :: f in s.requireFeatures ==> f in dev.features)
  {
    Text.SubtractEmptyIffSubset(s.requireFeatures, dev.features);
    if s.requireFQBN != "" && s.requireFQBN != "*" && s.requireFQBN != dev.fqbn then false
    else if s.requireArchitecture != "" && s.requireArchitecture != "*" && s.requireArchitecture != SecondField(dev.fqbn) then false
    else if |Text.Subtract(s.requireFeatures, dev.features)| > 0 then false
    else true
  }

  /** A sketch with wildcards only and no features runs on any device. */
  lemma WildcardMatchesAll(s: SketchRequirements, dev: Device)
    requires s.requireFQBN in {"", "*"} && s.requireArchitecture in {"", "*"} && s.requireFeatures == []
    ensures MatchDefined(s, dev) && MatchDevice(s, dev)
  {
  }

  /**
   * With a concrete architecture, a device `packager:arch:board` matches
   * exactly when the architecture is `arch` (other things being allowed).
   */
  lemma ArchitectureMatch(s: SketchRequirements, packager: string, arch: string, board: string, port: string, features: seq<string>)
    requires ArchConstrained(s) && s.requireFQBN in {"", "*"}
    requires ':' !in packager && ':' !in arch
    requires forall f :: f in s.requireFeatures ==> f in features
    ensures MatchDefined(s, Device(packager + ":" + arch + ":" + board, port, features))
    ensures MatchDevice(s, Device(packager + ":" + arch + ":" + board, port, features)) <==> s.requireArchitecture == arch
  {
    SecondFieldBetweenColons(packager, arch, ":" + board);
    assert packager + ":" + arch + (":" + board) == packager + ":" + arch + ":" + board;
  }

  /** A missing feature rules a device out, whatever else matches. */
  lemma MissingFeatureNoMatch(s: SketchRequirements, dev: Device, f: string)
    requires MatchDefined(s, dev)
    requires f in s.requireFeatures && f !in dev.features
    ensures !MatchDevice(s, dev)
  {
  }

  // ---------------------------------------------------------------------------
  // Candidates
  // ---------------------------------------------------------------------------

  /** Every sketch can be tested against every device without a panic. */
  predicate AllDefined(sketches: seq<SketchRequirements>, devices: seq<Device>)
  {
    forall i, j :: 0 <= i < |sketches| && 0 <= j < |devices| ==> MatchDefined(sketches[i], devices[j])
  }

  predicate Increasing(s: seq<nat>)
  {
    forall i, j :: 0 <= i < j < |s| ==> s[i] < s[j]
  }

  /** `matchingDevices[i]`: the indices of the devices matching `s`, ascending. */
  function Candidates(s: SketchRequirements, devices: seq<Device>): (c: seq<nat>)
    requires forall j :: 0 <= j < |devices| ==> MatchDefined(s, devices[j])
    ensures Increasing(c)
    ensures forall p :: 0 <= p < |c| ==> c[p] < |devices|
  {
    CandidatesFrom(s, devices, 0)
  }

  /** The inner loop of the candidate search, from device `j` on. */
  function CandidatesFrom(s: SketchRequirements, devices: seq<Device>, j: nat): (c: seq<nat>)
    requires j <= |devices|
    requires forall j :: 0 <= j < |devices| ==> MatchDefined(s, devices[j])
    ensures Increasing(c)
    ensures forall p :: 0 <= p < |c| ==> j <= c[p] < |devices|
    decreases |devices| - j
  {
    if j == |devices| then []
    else
      var rest := CandidatesFrom(s, devices, j + 1);
      if MatchDevice(s, devices[j]) then [j] + rest else rest
  }

  /** The candidates are exactly the matching devices. */
  lemma CandidatesMembers(s: SketchRequirements, devices: seq<Device>)
    requires forall j :: 0 <= j < |devices| ==> MatchDefined(s, devices[j])
    ensures forall x: nat :: x in Candidates(s, devices) <==> x < |devices| && MatchDevice(s, devices[x])
  {
    CandidatesFromMembers(s, devices, 0);
  }

  lemma {:induction false} CandidatesFromMembers(s: SketchRequirements, devices: seq<Device>, j: nat)
    requires j <= |devices|
    requires forall j :: 0 <= j < |devices| ==> MatchDefined(s, devices[j])
    ensures forall x: nat :: x in CandidatesFrom(s, devices, j) <==> j <= x < |devices| && MatchDevice(s, devices[x])
    decreases |devices| - j
  {
    if j < |devices| {
      var rest := CandidatesFrom(s, devices, j + 1);
      CandidatesFromMembers(s, devices, j + 1);
      if MatchDevice(s, devices[j]) {
        assert CandidatesFrom(s, devices, j) == [j] + rest;
      } else {
        assert CandidatesFrom(s, devices, j) == rest;
      }
    }
  }

  // ---------------------------------------------------------------------------
  // Ordering sketches by candidate count
  // ---------------------------------------------------------------------------

  /** Nondecreasing in `counts`. */
  predicate SortedByCount(order: seq<nat>, counts: seq<nat>)
  {
    && (forall p :: 0 <= p < |order| ==> order[p] < |counts|)
    && (forall p, q :: 0 <= p < q < |order| ==> counts[order[p]] <= counts[order[q]])
  }

  /** Every index below n exactly once. */
  predicate IsPermutationOf(order: seq<nat>, n: nat)
  {
    && |order| == n
    && Text.NoDuplicates(order)
    && (forall p :: 0 <= p < |order| ==> order[p] < n)
    && (forall x: nat :: x < n ==> x in order)
  }

  /** Inserts `i` after every index whose count is not larger. */
  function InsertByCount(i: nat, order: seq<nat>, counts: seq<nat>): (r: seq<nat>)
    requires i < |counts| && SortedByCount(order, counts)
    ensures SortedByCount(r, counts)
    ensures |r| == |order| + 1
    ensures forall x :: x in r <==> x == i || x in order
    ensures Text.NoDuplicates(order) && i !in order ==> Text.NoDuplicates(r)
    decreases |order|
  {
    if |order| == 0 then [i]
    else if counts[i] < counts[order[0]] then
      assert forall q :: 0 <= q < |order| ==> counts[i] <= counts[order[q]];
      SortedCons(i, order, counts);
      ConsNew(i, order);
      [i] + order
    else
      var rest := InsertByCount(i, order[1..], counts);
      HeadBelowRest(order, rest, i, counts);
      SortedCons(order[0], rest, counts);
      ConsNoDuplicates(order[0], rest, order[1..], i);
      [order[0]] + rest
  }

  /** A sorted list stays sorted under a head whose count is no larger. */
  lemma SortedCons(x: nat, rest: seq<nat>, counts: seq<nat>)
    requires x < |counts| && SortedByCount(rest, counts)
    requires forall q :: 0 <= q < |rest| ==> counts[x] <= counts[rest[q]]
    ensures SortedByCount([x] + rest, counts)
  {
    var r := [x] + rest;
    forall p, q | 0 <= p < q < |r| ensures counts[r[p]] <= counts[r[q]] {
      assert r[q] == rest[q - 1];
      if p > 0 {
        assert r[p] == rest[p - 1];
      }
    }
  }

  /** A new head keeps a list duplicate-free. */
  lemma ConsNew(x: nat, rest: seq<nat>)
    ensures Text.NoDuplicates(rest) && x !in rest ==> Text.NoDuplicates([x] + rest)
  {
    if Text.NoDuplicates(rest) && x !in rest {
      var r := [x] + rest;
      forall p, q | 0 <= p < q < |r| ensures r[p] != r[q] {
        assert r[q] == rest[q - 1];
        if p > 0 {
          assert r[p] == rest[p - 1];
        }
      }
    }
  }

  /** The head of a sorted list has no larger count than the rest with `i` inserted. */
  lemma HeadBelowRest(order: seq<nat>, rest: seq<nat>, i: nat, counts: seq<nat>)
    requires |order| > 0 && i < |counts| && SortedByCount(order, counts)
    requires counts[order[0]] <= counts[i]
    requires forall x :: x in rest <==> x == i || x in order[1..]
    requires forall q :: 0 <= q < |rest| ==> rest[q] < |counts|
    ensures forall q :: 0 <= q < |rest| ==> counts[order[0]] <= counts[rest[q]]
  {
    forall q | 0 <= q < |rest| ensures counts[order[0]] <= counts[rest[q]] {
      assert rest[q] in rest;
      if rest[q] != i {
        var t :| 0 <= t < |order[1..]| && order[1..][t] == rest[q];
        assert order[t + 1] == rest[q];
      }
    }
  }

  /** Prepending an element that is new keeps a list duplicate-free. */
  lemma ConsNoDuplicates(x: nat, rest: seq<nat>, tail: seq<nat>, i: nat)
    requires forall y :: y in rest <==> y == i || y in tail
    requires Text.NoDuplicates(tail) && i !in tail ==> Text.NoDuplicates(rest)
    ensures Text.NoDuplicates([x] + tail) && i !in [x] + tail ==> Text.NoDuplicates([x] + rest)
  {
    if Text.NoDuplicates([x] + tail) && i !in [x] + tail {
      assert tail == ([x] + tail)[1..];
      assert x in [x] + tail;
      forall q | 0 <= q < |tail| ensures tail[q] != x {
        assert ([x] + tail)[0] != ([x] + tail)[q + 1];
      }
      var r := [x] + rest;
      forall p, q | 0 <= p < q < |r| ensures r[p] != r[q] {
        if p == 0 {
          assert r[q] in rest;
        } else {
          assert r[p] == rest[p - 1] && r[q] == rest[q - 1];
        }
      }
    }
  }

  /**
   * The sketch indices 0..n-1 in order of candidate count; equal counts keep
   * index order (Go leaves ties to map iteration and an unstable sort).
   */
  function OrderByCount(counts: seq<nat>, n: nat): (order: seq<nat>)
    requires n <= |counts|
    ensures SortedByCount(order, counts)
    ensures IsPermutationOf(order, n)
  {
    if n == 0 then []
    else
      var init := OrderByCount(counts, n - 1);
      assert n - 1 !in init;
      var r := InsertByCount(n - 1, init, counts);
      assert forall x: nat :: x < n ==> x in r;
      assert forall p :: 0 <= p < |r| ==> r[p] < n by {
        forall p | 0 <= p < |r| ensures r[p] < n {
          assert r[p] in r;
        }
      }
      r
  }

  // ---------------------------------------------------------------------------
  // The greedy loop
  // ---------------------------------------------------------------------------

  /** `funk.Subtract(v, []int{d})` applied to every candidate list. */
  function Withdraw(rem: seq<seq<nat>>, d: nat): (r: seq<seq<nat>>)
    ensures |r| == |rem|
    ensures forall j :: 0 <= j < |rem| ==> |r[j]| <= |rem[j]|
  {
    seq(|rem|, j requires 0 <= j < |rem| => Text.Subtract(rem[j], [d]))
  }

  /** Only `d` is withdrawn, and from every list. */
  lemma WithdrawMembers(rem: seq<seq<nat>>, d: nat)
    ensures forall j :: 0 <= j < |rem| ==> forall x :: x in Withdraw(rem, d)[j] <==> x in rem[j] && x != d
  {
    forall j | 0 <= j < |rem| {
      Text.SubtractMembers(rem[j], [d]);
    }
  }

  /**
   * Withdrawing keeps every list ascending, so a list that starts as
   * `Candidates` gives, at its head, the lowest-numbered device still free.
   */
  lemma WithdrawIncreasing(rem: seq<seq<nat>>, d: nat)
    requires forall j :: 0 <= j < |rem| ==> Increasing(rem[j])
    ensures forall j :: 0 <= j < |rem| ==> Increasing(Withdraw(rem, d)[j])
  {
    forall j | 0 <= j < |rem| ensures Increasing(Withdraw(rem, d)[j]) {
      SubtractIncreasing(rem[j], [d]);
    }
  }

  lemma {:induction false} SubtractIncreasing(a: seq<nat>, b: seq<nat>)
    requires Increasing(a)
    ensures Increasing(Text.Subtract(a, b))
    decreases |a|
  {
    if |a| > 0 {
      var rest := Text.Subtract(a[1..], b);
      SubtractIncreasing(a[1..], b);
      Text.SubtractMembers(a[1..], b);
      if a[0] !in b {
        var r := [a[0]] + rest;
        forall i, j | 0 <= i < j < |r| ensures r[i] < r[j] {
          assert r[j] == rest[j - 1] && rest[j - 1] in rest;
          if i > 0 {
            assert r[i] == rest[i - 1];
          } else {
            var t :| 0 <= t < |a[1..]| && a[1..][t] == rest[j - 1];
            assert a[t + 1] == rest[j - 1];
          }
        }
      }
    }
  }

  /** The head of an ascending list is its least element. */
  lemma HeadIsLeast(s: seq<nat>)
    requires |s| > 0 && Increasing(s)
    ensures forall x :: x in s ==> s[0] <= x
  {
  }

  /**
   * The loop over the sorted sketch indices: sketch `order[0]` takes the first
   * of its remaining candidates, which is withdrawn from every list; no
   * remaining candidate ends the assignment with nothing.
   */
  function Greedy(rem: seq<seq<nat>>, order: seq<nat>, picks: seq<nat>): Option<seq<nat>>
    requires |picks| == |rem|
    requires forall p :: 0 <= p < |order| ==> order[p] < |rem|
    decreases |order|
  {
    if |order| == 0 then Some(picks)
    else
      var k := order[0];
      if |rem[k]| == 0 then None
      else
        var d := rem[k][0];
        Greedy(Withdraw(rem, d), order[1..], picks[k := d])
  }

  /** What holds of the sketches served so far (those not in `order`). */
  predicate GreedyInvariant(cands: seq<seq<nat>>, rem: seq<seq<nat>>, order: seq<nat>, picks: seq<nat>)
  {
    && |rem| == |cands| && |picks| == |cands|
    && (forall p :: 0 <= p < |order| ==> order[p] < |cands|)
    && Text.NoDuplicates(order)
    && (forall j :: 0 <= j < |rem| ==> forall x :: x in rem[j] ==> x in cands[j])
    && (forall i :: 0 <= i < |cands| && i !in order ==>
          picks[i] in cands[i] && forall j :: 0 <= j < |rem| ==> picks[i] !in rem[j])
    && (forall i, j :: 0 <= i < j < |cands| && i !in order && j !in order ==> picks[i] != picks[j])
  }

  /** Each served sketch has one of its candidates, and no two share one. */
  predicate SoundPicks(cands: seq<seq<nat>>, picks: seq<nat>)
  {
    && |picks| == |cands|
    && (forall i :: 0 <= i < |cands| ==> picks[i] in cands[i])
    && (forall i, j :: 0 <= i < j < |cands| ==> picks[i] != picks[j])
  }

  lemma {:induction false} GreedyKeepsInvariant(cands: seq<seq<nat>>, rem: seq<seq<nat>>, order: seq<nat>, picks: seq<nat>)
    requires GreedyInvariant(cands, rem, order, picks)
    ensures Greedy(rem, order, picks).Some? ==> SoundPicks(cands, Greedy(rem, order, picks).value)
    decreases |order|
  {
    if |order| > 0 {
      var k := order[0];
      if |rem[k]| > 0 {
        var d := rem[k][0];
        var rem', order', picks' := Withdraw(rem, d), order[1..], picks[k := d];
        WithdrawMembers(rem, d);
        assert k !in order' by {
          forall p | 0 <= p < |order'| ensures order'[p] != k {
            assert order[p + 1] == order'[p];
          }
        }
        assert forall x :: x in order' ==> x in order;
        forall i | 0 <= i < |cands| && i !in order'
          ensures picks'[i] in cands[i] && forall j :: 0 <= j < |rem'| ==> picks'[i] !in rem'[j]
        {
          if i != k {
            NotInTail(order, i);
          }
        }
        forall i, j | 0 <= i < j < |cands| && i !in order' && j !in order' ensures picks'[i] != picks'[j] {
          if i != k && j != k {
            NotInTail(order, i);
            NotInTail(order, j);
          } else if i == k {
            NotInTail(order, j);
            assert d in rem[k];
          } else {
            NotInTail(order, i);
            assert d in rem[k];
          }
        }
        assert GreedyInvariant(cands, rem', order', picks');
        GreedyKeepsInvariant(cands, rem', order', picks');
      }
    }
  }

  /** An index neither first nor in the tail is not in the list. */
  lemma NotInTail(order: seq<nat>, i: nat)
    requires |order| > 0 && i != order[0] && i !in order[1..]
    ensures i !in order
  {
    assert order == [order[0]] + order[1..];
  }

  /**
   * Soundness for any processing order: started from the full candidate lists
   * with every sketch to serve, a successful greedy run gives each sketch one
   * of its own candidates and no candidate twice.
   */
  lemma GreedySound(cands: seq<seq<nat>>, order: seq<nat>, picks: seq<nat>)
    requires IsPermutationOf(order, |cands|) && |picks| == |cands|
    ensures Greedy(cands, order, picks).Some? ==> SoundPicks(cands, Greedy(cands, order, picks).value)
  {
    GreedyKeepsInvariant(cands, cands, order, picks);
  }

  /** A sketch with no candidate at all makes the whole assignment fail. */
  lemma {:induction false} GreedyFailsWithoutCandidate(rem: seq<seq<nat>>, order: seq<nat>, picks: seq<nat>, i: nat)
    requires |picks| == |rem| && forall p :: 0 <= p < |order| ==> order[p] < |rem|
    requires i in order && |rem[i]| == 0
    ensures Greedy(rem, order, picks).None?
    decreases |order|
  {
    if order[0] != i && |rem[order[0]]| > 0 {
      var d := rem[order[0]][0];
      var rem' := Withdraw(rem, d);
      GreedyFailsWithoutCandidate(rem', order[1..], picks[order[0] := d], i);
    }
  }

  // ---------------------------------------------------------------------------
  // AssignDevices
  // ---------------------------------------------------------------------------

  function CandidateLists(sketches: seq<SketchRequirements>, devices: seq<Device>): (cands: seq<seq<nat>>)
    requires AllDefined(sketches, devices)
    ensures |cands| == |sketches|
    ensures forall i :: 0 <= i < |sketches| ==> cands[i] == Candidates(sketches[i], devices)
  {
    seq(|sketches|, i requires 0 <= i < |sketches| => Candidates(sketches[i], devices))
  }

  function Counts(cands: seq<seq<nat>>): (counts: seq<nat>)
    ensures |counts| == |cands|
    ensures forall i :: 0 <= i < |cands| ==> counts[i] == |cands[i]|
  {
    seq(|cands|, i requires 0 <= i < |cands| => |cands[i]|)
  }

  /** The wiring the test requires is all configured. */
  predicate WiringAvailable(test: TestRequirements, wiring: seq<string>)
  {
    forall w :: w in test.requireWiring ==> w in wiring
  }

  /** The device indices `AssignDevices` picks, one per sketch, or None. */
  function AssignIndices(test: TestRequirements, wiring: seq<string>, devices: seq<Device>): (r: Option<seq<nat>>)
    requires WiringAvailable(test, wiring) && |test.sketches| <= |devices| ==> AllDefined(test.sketches, devices)
    ensures !WiringAvailable(test, wiring) ==> r.None?
    ensures |test.sketches| > |devices| ==> r.None?
    ensures r.Some? ==> |r.value| == |test.sketches|
    ensures r.Some? ==> forall i :: 0 <= i < |test.sketches| ==>
      r.value[i] < |devices| && MatchDevice(test.sketches[i], devices[r.value[i]])
    ensures r.Some? ==> forall i, j :: 0 <= i < j < |test.sketches| ==> r.value[i] != r.value[j]
  {
    if !WiringAvailable(test, wiring) || |test.sketches| > |devices| then None
    else
      var cands := CandidateLists(test.sketches, devices);
      var order := OrderByCount(Counts(cands), |cands|);
      var r := Greedy(cands, order, seq(|cands|, _ => 0));
      GreedySound(cands, order, seq(|cands|, _ => 0));
      forall i | 0 <= i < |cands| {
        CandidatesMembers(test.sketches[i], devices);
      }
      r
  }

  /** The devices at the given indices. */
  function DevicesAt(devices: seq<Device>, picks: seq<nat>): (r: seq<Device>)
    requires forall i :: 0 <= i < |picks| ==> picks[i] < |devices|
    ensures |r| == |picks|
    ensures forall i :: 0 <= i < |picks| ==> r[i] == devices[picks[i]]
  {
    seq(|picks|, i requires 0 <= i < |picks| => devices[picks[i]])
  }

  /** The loop of `AssignDevices` over the sorted sketch indices. */
  method GreedyLoop(cands: seq<seq<nat>>, order: seq<nat>) returns (r: Option<seq<nat>>)
    requires forall p :: 0 <= p < |order| ==> order[p] < |cands|
    ensures r == Greedy(cands, order, seq(|cands|, _ => 0))
  {
    var matching := cands;
    var picks := seq(|cands|, _ => 0);
    var p := 0;
    while p < |order|
      invariant 0 <= p <= |order|
      invariant |matching| == |cands| && |picks| == |cands|
      invariant Greedy(matching, order[p..], picks) == Greedy(cands, order, seq(|cands|, _ => 0))
    {
      var k := order[p];
      assert order[p..][0] == k && order[p..][1..] == order[p + 1..];
      if |matching[k]| == 0 {
        return None;
      }
      var d := matching[k][0];
      picks := picks[k := d];
      matching := Withdraw(matching, d);
      p := p + 1;
    }
    assert order[p..] == [];
    return Some(picks);
  }

  /**
   * `AssignDevices(test)`: the devices for the sketches, in sketch order, or
   * None when the wiring is missing, there are too few devices, or some
   * sketch finds no remaining candidate on its turn.
   */
  method AssignDevices(test: TestRequirements, wiring: seq<string>, devices: seq<Device>) returns (r: Option<seq<Device>>)
    requires WiringAvailable(test, wiring) && |test.sketches| <= |devices| ==> AllDefined(test.sketches, devices)
    ensures !WiringAvailable(test, wiring) ==> r.None?
    ensures WiringAvailable(test, wiring) && |test.sketches| > |devices| ==> r.None?
    ensures r.Some? <==> AssignIndices(test, wiring, devices).Some?
    ensures r.Some? ==> r.value == DevicesAt(devices, AssignIndices(test, wiring, devices).value)
    ensures r.Some? ==> |r.value| == |test.sketches|
    ensures r.Some? ==> forall i :: 0 <= i < |test.sketches| ==> MatchDevice(test.sketches[i], r.value[i])
  {
    Text.SubtractEmptyIffSubset(test.requireWiring, wiring);
    if |Text.Subtract(test.requireWiring, wiring)| > 0 {
      return None;
    }
    if |test.sketches| > |devices| {
      return None;
    }
    var matching := CandidateLists(test.sketches, devices);
    var order := OrderByCount(Counts(matching), |matching|);
    var picks := GreedyLoop(matching, order);
    assert picks == AssignIndices(test, wiring, devices);
    if picks.None? {
      return None;
    }
    r := Some(DevicesAt(devices, picks.value));
  }
}

module DeviceScenarios {

  import opened Wrappers
  import opened Requirements
  import opened Devices

  function Needs(features: seq<string>): SketchRequirements
  {
    SketchRequirements("", "", features)
  }

  const Zero := Device("zero", "", ["foo", "bar", "baz"])
  const One := Device("one", "", ["foo"])
  const Two := Device("two", "", ["foo"])
  const Three := Device("three", "", ["foo", "bar", "baz"])
  const Four := Device("four", "", ["foo", "bar"])

  function FiveDeviceList(): seq<Device>
  {
    [Zero, One, Two, Three, Four]
  }

  /** Every device offers foo. */
  lemma FooCandidates()
    ensures Candidates(Needs(["foo"]), FiveDeviceList()) == [0, 1, 2, 3, 4]
  {
    var s, l := Needs(["foo"]), FiveDeviceList();
    assert MatchDevice(s, Four);
    assert CandidatesFrom(s, l, 4) == [4];
    assert MatchDevice(s, Three);
    assert CandidatesFrom(s, l, 3) == [3, 4];
    assert MatchDevice(s, Two);
    assert CandidatesFrom(s, l, 2) == [2, 3, 4];
    assert MatchDevice(s, One);
    assert CandidatesFrom(s, l, 1) == [1, 2, 3, 4];
    assert MatchDevice(s, Zero);
  }

  /** zero, three and four offer bar. */
  lemma BarCandidates()
    ensures Candidates(Needs(["bar"]), FiveDeviceList()) == [0, 3, 4]
  {
    var s, l := Needs(["bar"]), FiveDeviceList();
    assert MatchDevice(s, Four);
    assert CandidatesFrom(s, l, 4) == [4];
    assert MatchDevice(s, Three);
    assert CandidatesFrom(s, l, 3) == [3, 4];
    assert !MatchDevice(s, Two);
    assert CandidatesFrom(s, l, 2) == [3, 4];
    assert !MatchDevice(s, One);
    assert CandidatesFrom(s, l, 1) == [3, 4];
    assert MatchDevice(s, Zero);
  }

  /** Only zero and three offer baz. */
  lemma BazCandidates()
    ensures Candidates(Needs(["baz"]), FiveDeviceList()) == [0, 3]
  {
    var s, l := Needs(["baz"]), FiveDeviceList();
    assert !MatchDevice(s, Four);
    assert CandidatesFrom(s, l, 4) == [];
    assert MatchDevice(s, Three);
    assert CandidatesFrom(s, l, 3) == [3];
    assert !MatchDevice(s, Two);
    assert CandidatesFrom(s, l, 2) == [3];
    assert !MatchDevice(s, One);
    assert CandidatesFrom(s, l, 1) == [3];
    assert MatchDevice(s, Zero);
  }

  lemma FirstWithdrawal()
    ensures Withdraw([[0, 1, 2, 3, 4], [0, 3, 4], [0, 3]], 0) == [[1, 2, 3, 4], [3, 4], [3]]
  {
    var w := Withdraw([[0, 1, 2, 3, 4], [0, 3, 4], [0, 3]], 0);
    assert w[0] == [1, 2, 3, 4];
    assert w[1] == [3, 4];
    assert w[2] == [3];
  }

  lemma SecondWithdrawal()
    ensures Withdraw([[1, 2, 3, 4], [3, 4], [3]], 3) == [[1, 2, 4], [4], []]
  {
    var w := Withdraw([[1, 2, 3, 4], [3, 4], [3]], 3);
    assert w[0] == [1, 2, 4];
    assert w[1] == [4];
    assert w[2] == [];
  }

  lemma ThirdWithdrawal()
    ensures Withdraw([[1, 2, 4], [4], []], 1) == [[2, 4], [4], []]
  {
    var w := Withdraw([[1, 2, 4], [4], []], 1);
    assert w[0] == [2, 4];
    assert w[1] == [4];
    assert w[2] == [];
  }

  /** baz, then bar, then foo; each takes its first remaining candidate. */
  lemma FiveGreedy()
    ensures Greedy([[0, 1, 2, 3, 4], [0, 3, 4], [0, 3]], [2, 1, 0], [0, 0, 0]) == Some([1, 3, 0])
  {
    FirstWithdrawal();
    SecondWithdrawal();
    ThirdWithdrawal();
    assert [0, 3, 0][0 := 1] == [1, 3, 0];
    assert Greedy([[1, 2, 4], [4], []], [0], [0, 3, 0]) == Some([1, 3, 0]);
    assert [0, 0, 0][1 := 3] == [0, 3, 0];
    assert Greedy([[1, 2, 3, 4], [3, 4], [3]], [1, 0], [0, 0, 0]) == Some([1, 3, 0]);
    assert [0, 0, 0][2 := 0] == [0, 0, 0];
  }

  /** Candidate counts 5, 3, 2 put the sketches in the order 2, 1, 0. */
  lemma FiveOrder()
    ensures OrderByCount([5, 3, 2], 3) == [2, 1, 0]
  {
    var c := [5, 3, 2];
    assert OrderByCount(c, 1) == [0];
    assert InsertByCount(1, [0], c) == [1, 0];
    assert OrderByCount(c, 2) == [1, 0];
    assert InsertByCount(2, [1, 0], c) == [2, 1, 0];
  }

  lemma FiveCounts()
    ensures Counts([[0, 1, 2, 3, 4], [0, 3, 4], [0, 3]]) == [5, 3, 2]
  {
    var counts := Counts([[0, 1, 2, 3, 4], [0, 3, 4], [0, 3]]);
    assert counts[0] == 5 && counts[1] == 3 && counts[2] == 2;
  }

  lemma ThreeZeros()
    ensures seq(3, _ => 0) == [0, 0, 0]
  {
  }

  /** Sketches without an architecture constraint can be matched against any device. */
  lemma UnconstrainedDefined(sketches: seq<SketchRequirements>, devices: seq<Device>)
    requires forall i :: 0 <= i < |sketches| ==> sketches[i].requireArchitecture == ""
    ensures AllDefined(sketches, devices)
  {
  }

  /** Sketches needing foo, bar and baz, with no board or architecture constraint. */
  const FiveSketches := [Needs(["foo"]), Needs(["bar"]), Needs(["baz"])]

  const FiveCandidates: seq<seq<nat>> := [[0, 1, 2, 3, 4], [0, 3, 4], [0, 3]]

  lemma FiveDefined(sketches: seq<SketchRequirements>, devices: seq<Device>)
    requires sketches == FiveSketches && devices == FiveDeviceList()
    ensures AllDefined(sketches, devices)
  {
    assert forall i :: 0 <= i < |sketches| ==> sketches[i].requireArchitecture == "";
    UnconstrainedDefined(sketches, devices);
  }

  /** Sketch k of the scenario has the candidates of the lemmas above. */
  lemma FiveCandidateList(sketches: seq<SketchRequirements>, devices: seq<Device>, k: nat)
    requires sketches == FiveSketches && devices == FiveDeviceList() && k < 3
    ensures AllDefined(sketches, devices)
    ensures CandidateLists(sketches, devices)[k] == FiveCandidates[k]
  {
    FiveDefined(sketches, devices);
    if k == 0 {
      FooCandidates();
    } else if k == 1 {
      BarCandidates();
    } else {
      BazCandidates();
    }
  }

  lemma FiveCandidateLists(sketches: seq<SketchRequirements>, devices: seq<Device>)
    requires sketches == FiveSketches && devices == FiveDeviceList()
    ensures AllDefined(sketches, devices)
    ensures CandidateLists(sketches, devices) == FiveCandidates
  {
    FiveCandidateList(sketches, devices, 0);
    FiveCandidateList(sketches, devices, 1);
    FiveCandidateList(sketches, devices, 2);
  }

  /**
   * Five devices and sketches needing foo, bar and baz: baz (two candidates)
   * goes first and takes zero, bar takes three, foo takes one.
   */
  lemma FiveDevices(sketches: seq<SketchRequirements>, devices: seq<Device>)
    requires sketches == FiveSketches && devices == FiveDeviceList()
    ensures AssignIndices(TestRequirements([], sketches), [], devices) == Some([1, 3, 0])
  {
    var cands := FiveCandidates;
    FiveCandidateLists(sketches, devices);
    assert AssignIndices(TestRequirements([], sketches), [], devices)
      == Greedy(cands, OrderByCount(Counts(cands), |cands|), seq(|cands|, _ => 0));
    assert OrderByCount(Counts(cands), |cands|) == [2, 1, 0] by {
      FiveCounts();
      FiveOrder();
    }
    ThreeZeros();
    FiveGreedy();
  }
}

=== FILE: emitter.dfy ===
/**
 * The on-device side of the test protocol, cino-library/src/cino.h: each
 * check writes one single-line JSON object to the serial port, and a failed
 * fatal check then halts the board. `TEST_PLAN`, `TEST_NOPLAN` and
 * `TEST_DONE` write the plan and end-of-test records.
 */
module Emitter {

  import Text

  /** The arguments of one `_cino_check` call. */
  datatype Check = Check(result: bool, quotedExpr: string, file: string, line: int, fatal: bool)

  /** What a call does: the record it writes, and whether it then loops forever. */
  datatype Emission = Emission(record: string, halted: bool)

  const ResultKey := "{\"result\":"
  const ExprKey := ",\"expr\":"
  const FileKey := ",\"file\":\""
  const LineKey := "\",\"line\":"
  const FatalKey := ",\"fatal\":"
  const PlanKey := "{\"plan\":"
  const DoneRecord := "{\"done\":true}"

  function BoolText(b: bool): string
  {
    if b then "true" else "false"
  }

  /** The file as printed: every '"' removed, then only what follows the last '/'. */
  function FileField(file: string): (name: string)
    ensures '"' !in name && '/' !in name
    ensures '"' !in file && '/' !in file ==> name == file
    ensures |name| <= |file|
  {
    Text.AfterLastSuffix(Text.RemoveChar(file, '"'), '/');
    Text.AfterLast(Text.RemoveChar(file, '"'), '/')
  }

  /** The `fatal` member, written only for a failed check. */
  function FatalField(result: bool, fatal: bool): (text: string)
    ensures result <==> text == ""
  {
    if result then "" else FatalKey + BoolText(fatal)
  }

  /** The members of a check record after the expression, and the closing brace. */
  function Location(c: Check): (text: string)
    ensures |text| > 0 && text[|text| - 1] == '}'
  {
    FileKey + (FileField(c.file) + (LineKey + (Text.IntToDecimal(c.line) + (FatalField(c.result, c.fatal) + "}"))))
  }

  /** The record `_cino_check` prints (the line terminator aside). */
  function Record(c: Check): (record: string)
    ensures Text.StartsWith(record, ResultKey)
    ensures record[0] == '{' && record[|record| - 1] == '}'
  {
    var body := BoolText(c.result) + (ExprKey + (c.quotedExpr + Location(c)));
    assert (ResultKey + body)[..|ResultKey|] == ResultKey;
    ResultKey + body
  }

  /**
   * `_cino_check`: one record, closed by the `fatal` member when the check
   * failed; the board halts exactly when that member says `true`.
   */
  function CinoCheck(c: Check): (e: Emission)
    ensures e.record == Record(c)
    ensures Text.EndsWith(e.record, FatalField(c.result, c.fatal) + "}")
    ensures e.halted <==> FatalField(c.result, c.fatal) == FatalKey + "true"
  {
    RecordEndsWithFatal(c);
    Emission(Record(c), c.fatal && !c.result)
  }

  /** The last member of a record is the `fatal` member, if any. */
  lemma RecordEndsWithFatal(c: Check)
    ensures Text.EndsWith(Record(c), FatalField(c.result, c.fatal) + "}")
  {
  }

  // ---------------------------------------------------------------------------
  // The macros
  // ---------------------------------------------------------------------------

  /** Backslash before every '"' and '\' (what `#` does inside a string literal). */
  function Escape(text: string): (e: string)
    ensures |e| >= |text|
    decreases |text|
  {
    if |text| == 0 then ""
    else (if text[0] == '"' || text[0] == '\\' then ['\\', text[0]] else [text[0]]) + Escape(text[1..])
  }

  /** A string literal spelling `text`. */
  function Stringize(text: string): (lit: string)
    ensures |lit| >= 2 && lit[0] == '"' && lit[|lit| - 1] == '"'
  {
    "\"" + Escape(text) + "\""
  }

  /**
   * `REQUIRE(expr)`: `_quote(#expr)` stringises twice, so the runtime text
   * handed over is the spelling of the literal `#expr`, i.e. a quoted and
   * escaped copy of the expression text.
   */
  function RequireMacro(value: bool, exprText: string, file: string, line: int): (c: Check)
    ensures c.fatal && c.result == value && c.quotedExpr == Stringize(exprText)
    ensures c.file == file && c.line == line
  {
    LiteralContentStringize(Stringize(exprText));
    Check(value, LiteralContent(Stringize(Stringize(exprText))), file, line, true)
  }

  /** `CHECK(expr)`: the same with `fatal` = 0. */
  function CheckMacro(value: bool, exprText: string, file: string, line: int): (c: Check)
    ensures !c.fatal && c.result == value && c.quotedExpr == Stringize(exprText)
    ensures c.file == file && c.line == line
  {
    LiteralContentStringize(Stringize(exprText));
    Check(value, LiteralContent(Stringize(Stringize(exprText))), file, line, false)
  }

  /** The runtime content of a C string literal is its spelling between the quotes, unescaped. */
  function LiteralContent(lit: string): string
    requires |lit| >= 2
  {
    Unescaped(lit[1..|lit| - 1])
  }

  /** Drops the escaping backslashes. */
  function Unescaped(e: string): string
    decreases |e|
  {
    if |e| == 0 then ""
    else if e[0] == '\\' && |e| >= 2 then [e[1]] + Unescaped(e[2..])
    else [e[0]] + Unescaped(e[1..])
  }

  lemma {:induction false} UnescapedEscape(text: string)
    ensures Unescaped(Escape(text)) == text
    decreases |text|
  {
    if |text| > 0 {
      UnescapedEscape(text[1..]);
      var e := Escape(text);
      var head := if text[0] == '"' || text[0] == '\\' then ['\\', text[0]] else [text[0]];
      assert e == head + Escape(text[1..]);
      if text[0] == '"' || text[0] == '\\' {
        assert e[2..] == Escape(text[1..]);
      } else {
        assert e[1..] == Escape(text[1..]);
      }
      assert text == [text[0]] + text[1..];
    }
  }

  /** The literal spelling `text` holds `text` at run time. */
  lemma LiteralContentStringize(text: string)
    ensures LiteralContent(Stringize(text)) == text
  {
    var lit := Stringize(text);
    assert lit[1..|lit| - 1] == Escape(text);
    UnescapedEscape(text);
  }

  /** `TEST_PLAN(n)`. */
  function Plan(n: int): (record: string)
    ensures Text.StartsWith(record, PlanKey) && record[|record| - 1] == '}'
  {
    assert (PlanKey + Text.IntToDecimal(n) + "}")[..|PlanKey|] == PlanKey;
    PlanKey + Text.IntToDecimal(n) + "}"
  }

  /** `TEST_NOPLAN()` is `TEST_PLAN(-1)`. */
  function NoPlan(): (record: string)
    ensures record == "{\"plan\":-1}"
  {
    assert Text.IntToDecimal(-1) == "-1";
    Plan(-1)
  }
}

=== FILE: job.dfy ===
/**
 * The pure parts of `Job` in lib/job.go: the check-run name built from the
 * effective requirements, the overall status folded from the test results,
 * the de-duplicated list of boards used, and the textual report.
 */
module Jobs {

  import opened Wrappers
  import opened Requirements
  import Text
  import Classes

  /**
   * A test as it comes back from a runner. `relPath` stands for
   * `Test.RelPath()`, the test directory relative to its package.
   */
  datatype TestRun = TestRun(relPath: string, status: string, output: string, deviceFQBNs: seq<string>)

  /** A job of the CI workflow; only the fields the pure logic reads. */
  datatype Job = Job(
    status: string,
    githubStatus: Option<string>,
    runner: Option<string>,
    requirements: TestRequirementsMatrix,
    tests: seq<TestRun>)

  const StatusSkipped := "skipped"
  const StatusSuccess := "success"
  const StatusFailure := "failure"

  // ---------------------------------------------------------------------------
  // Name
  // ---------------------------------------------------------------------------

  const NamePrefix := "Hardware test: "

  /** A requirement that names one value: neither unconstrained nor "*". */
  predicate Concrete(v: string)
  {
    v != "" && v != "*"
  }

  /** The board or architecture a sketch is tagged with, FQBN first. */
  function SketchTag(s: SketchRequirements): (tag: Option<string>)
    ensures Concrete(s.requireFQBN) ==> tag == Some(s.requireFQBN)
    ensures !Concrete(s.requireFQBN) && Concrete(s.requireArchitecture) ==> tag == Some(s.requireArchitecture)
    ensures tag.None? <==> !Concrete(s.requireFQBN) && !Concrete(s.requireArchitecture)
  {
    if Concrete(s.requireFQBN) then Some(s.requireFQBN)
    else if Concrete(s.requireArchitecture) then Some(s.requireArchitecture)
    else None
  }

  /** The tag, if any, followed by the required features. */
  function SketchTags(s: SketchRequirements): (tags: seq<string>)
    ensures |tags| == |s.requireFeatures| + (if SketchTag(s).Some? then 1 else 0)
    ensures SketchTag(s).Some? ==> tags[0] == SketchTag(s).value && tags[1..] == s.requireFeatures
    ensures SketchTag(s).None? ==> tags == s.requireFeatures
  {
    (if SketchTag(s).Some? then [SketchTag(s).value] else []) + s.requireFeatures
  }

  /** A sketch's name token: its tags joined by ","; none when it has no tag. */
  function SketchToken(s: SketchRequirements): (token: Option<string>)
    ensures token.None? <==> !Concrete(s.requireFQBN) && !Concrete(s.requireArchitecture) && |s.requireFeatures| == 0
    ensures token.Some? ==> token.value == Text.Join(SketchTags(s), ",")
  {
    var tags := SketchTags(s);
    if |tags| > 0 then Some(Text.Join(tags, ",")) else None
  }

  /** The tokens of the sketches that have one, in sketch order. */
  function SketchTokens(sketches: seq<SketchRequirements>): (tokens: seq<string>)
    ensures |tokens| <= |sketches|
    decreases |sketches|
  {
    if |sketches| == 0 then []
    else
      var rest := SketchTokens(sketches[1..]);
      match SketchToken(sketches[0])
      case Some(t) => [t] + rest
      case None => rest
  }

  /** The sketch tokens, then the wiring joined by "," when there is wiring. */
  function Tokens(tr: TestRequirements): (tokens: seq<string>)
    ensures |tr.requireWiring| > 0 ==> |tokens| > 0 && tokens[|tokens| - 1] == Text.Join(tr.requireWiring, ",")
    ensures |tr.requireWiring| > 0 ==> tokens[..|tokens| - 1] == SketchTokens(tr.sketches)
    ensures |tr.requireWiring| == 0 ==> tokens == SketchTokens(tr.sketches)
  {
    SketchTokens(tr.sketches) + (if |tr.requireWiring| > 0 then [Text.Join(tr.requireWiring, ",")] else [])
  }

  /** `Job.Name`. */
  function Name(j: Job): (name: string)
    ensures Text.StartsWith(name, NamePrefix)
    ensures name[|NamePrefix|..] == Text.Join(Tokens(j.requirements.effective), " ")
  {
    var rest := Text.Join(Tokens(j.requirements.effective), " ");
    assert (NamePrefix + rest)[..|NamePrefix|] == NamePrefix;
    assert (NamePrefix + rest)[|NamePrefix|..] == rest;
    NamePrefix + rest
  }

  /** No board, architecture, feature or wiring name contains `c`. */
  predicate Avoids(tr: TestRequirements, c: char)
  {
    && (forall k :: 0 <= k < |tr.requireWiring| ==> c !in tr.requireWiring[k])
    && forall i :: 0 <= i < |tr.sketches| ==>
      && c !in tr.sketches[i].requireFQBN
      && c !in tr.sketches[i].requireArchitecture
      && forall k :: 0 <= k < |tr.sketches[i].requireFeatures| ==> c !in tr.sketches[i].requireFeatures[k]
  }

  lemma SketchTagsAvoid(s: SketchRequirements, c: char)
    requires c !in s.requireFQBN && c !in s.requireArchitecture
    requires forall k :: 0 <= k < |s.requireFeatures| ==> c !in s.requireFeatures[k]
    ensures forall k :: 0 <= k < |SketchTags(s)| ==> c !in SketchTags(s)[k]
  {
    var tags := SketchTags(s);
    forall k | 0 <= k < |tags| ensures c !in tags[k] {
      if SketchTag(s).Some? && k > 0 {
        assert tags[k] == tags[1..][k - 1];
      }
    }
  }

  lemma {:induction false} SketchTokensAvoid(sketches: seq<SketchRequirements>, c: char)
    requires c != ','
    requires forall i :: 0 <= i < |sketches| ==>
      && c !in sketches[i].requireFQBN
      && c !in sketches[i].requireArchitecture
      && forall k :: 0 <= k < |sketches[i].requireFeatures| ==> c !in sketches[i].requireFeatures[k]
    ensures forall k :: 0 <= k < |SketchTokens(sketches)| ==> c !in SketchTokens(sketches)[k]
    decreases |sketches|
  {
    if |sketches| > 0 {
      SketchTokensAvoid(sketches[1..], c);
      SketchTagsAvoid(sketches[0], c);
      Text.JoinAvoids(SketchTags(sketches[0]), ",", c);
    }
  }

  /**
   * When no name contains a space, the name's tokens are recovered by
   * splitting what follows the prefix at spaces.
   */
  lemma NameTokens(j: Job)
    requires Avoids(j.requirements.effective, ' ')
    requires |Tokens(j.requirements.effective)| > 0
    ensures Text.StartsWith(Name(j), NamePrefix)
    ensures Text.Split(Name(j)[|NamePrefix|..], ' ') == Tokens(j.requirements.effective)
  {
    var tr := j.requirements.effective;
    var tokens := Tokens(tr);
    SketchTokensAvoid(tr.sketches, ' ');
    Text.JoinAvoids(tr.requireWiring, ",", ' ');
    forall k | 0 <= k < |tokens| ensures ' ' !in tokens[k] {
      if k < |SketchTokens(tr.sketches)| {
        assert tokens[k] == SketchTokens(tr.sketches)[k];
      }
    }
    Text.SplitJoin(tokens, ' ');
  }

  /**
   * When no name contains a comma, a sketch token splits back into the tag
   * followed by the features.
   */
  lemma SketchTokenTags(s: SketchRequirements)
    requires ',' !in s.requireFQBN && ',' !in s.requireArchitecture
    requires forall k :: 0 <= k < |s.requireFeatures| ==> ',' !in s.requireFeatures[k]
    requires SketchToken(s).Some?
    ensures Text.Split(SketchToken(s).value, ',') == SketchTags(s)
  {
    SketchTagsAvoid(s, ',');
    Text.SplitJoin(SketchTags(s), ',');
  }

  /** A sketch with a token contributes exactly one, in sketch order. */
  lemma {:induction false} SketchTokensAppend(a: seq<SketchRequirements>, b: seq<SketchRequirements>)
    ensures SketchTokens(a + b) == SketchTokens(a) + SketchTokens(b)
    decreases |a|
  {
    if |a| == 0 {
      assert a + b == b;
    } else {
      assert (a + b)[0] == a[0] && (a + b)[1..] == a[1..] + b;
      SketchTokensAppend(a[1..], b);
    }
  }

  // ---------------------------------------------------------------------------
  // StatusFromResults
  // ---------------------------------------------------------------------------

  /** One iteration of the loop in `StatusFromResults`. */
  function StatusStep(status: string, t: TestRun): string
  {
    if status == StatusSkipped && t.status == StatusSuccess then StatusSuccess
    else if t.status == StatusFailure then StatusFailure
    else status
  }

  /** The loop from `status` over `tests`. */
  function StatusFold(status: string, tests: seq<TestRun>): string
    decreases |tests|
  {
    if |tests| == 0 then status else StatusFold(StatusStep(status, tests[0]), tests[1..])
  }

  /** Some test reports `status`. */
  predicate AnyStatus(tests: seq<TestRun>, status: string)
  {
    exists i :: 0 <= i < |tests| && tests[i].status == status
  }

  /** Reference: the worst of `status` and the tests' statuses, failure over success over skipped. */
  function Worst(status: string, tests: seq<TestRun>): string
  {
    if status == StatusFailure || AnyStatus(tests, StatusFailure) then StatusFailure
    else if status == StatusSuccess || AnyStatus(tests, StatusSuccess) then StatusSuccess
    else StatusSkipped
  }

  lemma {:induction false} StatusFoldIsWorst(status: string, tests: seq<TestRun>)
    requires status == StatusSkipped || status == StatusSuccess || status == StatusFailure
    ensures StatusFold(status, tests) == Worst(status, tests)
    decreases |tests|
  {
    if |tests| > 0 {
      var next := StatusStep(status, tests[0]);
      StatusFoldIsWorst(next, tests[1..]);
      forall s ensures AnyStatus(tests, s) <==> tests[0].status == s || AnyStatus(tests[1..], s) {
        if AnyStatus(tests, s) {
          var i :| 0 <= i < |tests| && tests[i].status == s;
          if i > 0 {
            assert tests[1..][i - 1] == tests[i];
          }
        }
        if AnyStatus(tests[1..], s) {
          var i :| 0 <= i < |tests[1..]| && tests[1..][i].status == s;
          assert tests[i + 1] == tests[1..][i];
        }
      }
    }
  }

  /**
   * `StatusFromResults`: "failure" exactly when some test failed, otherwise
   * "success" exactly when some test succeeded, otherwise (no tests
   * included) "skipped".
   */
  function StatusFromResults(tests: seq<TestRun>): (status: string)
    ensures status == StatusFailure <==> AnyStatus(tests, StatusFailure)
    ensures status == StatusSuccess <==> !AnyStatus(tests, StatusFailure) && AnyStatus(tests, StatusSuccess)
    ensures status == StatusSkipped <==> !AnyStatus(tests, StatusFailure) && !AnyStatus(tests, StatusSuccess)
  {
    StatusFoldIsWorst(StatusSkipped, tests);
    StatusFold(StatusSkipped, tests)
  }

  // ---------------------------------------------------------------------------
  // DeviceFQBNs
  // ---------------------------------------------------------------------------

  /** The device FQBNs of all tests, in test order, duplicates kept. */
  function AllDeviceFQBNs(tests: seq<TestRun>): (all: seq<string>)
    decreases |tests|
  {
    if |tests| == 0 then [] else tests[0].deviceFQBNs + AllDeviceFQBNs(tests[1..])
  }

  lemma {:induction false} AllDeviceFQBNsMembers(tests: seq<TestRun>)
    ensures forall x :: x in AllDeviceFQBNs(tests) <==> exists i :: 0 <= i < |tests| && x in tests[i].deviceFQBNs
    decreases |tests|
  {
    if |tests| > 0 {
      AllDeviceFQBNsMembers(tests[1..]);
      forall x | x in AllDeviceFQBNs(tests) ensures exists i :: 0 <= i < |tests| && x in tests[i].deviceFQBNs {
        if x !in tests[0].deviceFQBNs {
          assert AllDeviceFQBNs(tests) == tests[0].deviceFQBNs + AllDeviceFQBNs(tests[1..]);
          assert x in AllDeviceFQBNs(tests[1..]);
          var i :| 0 <= i < |tests[1..]| && x in tests[1..][i].deviceFQBNs;
          assert tests[i + 1] == tests[1..][i];
        }
      }
      forall x, i | 0 <= i < |tests| && x in tests[i].deviceFQBNs ensures x in AllDeviceFQBNs(tests) {
        if i > 0 {
          assert tests[1..][i - 1] == tests[i];
        }
      }
    }
  }

  /** `Job.DeviceFQBNs`: every board any test ran on, each once, first use first. */
  function DeviceFQBNs(j: Job): (out: seq<string>)
    ensures forall x :: x in out <==> exists i :: 0 <= i < |j.tests| && x in j.tests[i].deviceFQBNs
    ensures Text.NoDuplicates(out)
    ensures out == Classes.Firsts(AllDeviceFQBNs(j.tests), Classes.Same)
  {
    AllDeviceFQBNsMembers(j.tests);
    Classes.DedupIsFirsts(AllDeviceFQBNs(j.tests));
    Text.Dedup(AllDeviceFQBNs(j.tests))
  }

  // ---------------------------------------------------------------------------
  // Report
  // ---------------------------------------------------------------------------

  /** The part of the report one test contributes. */
  function Section(t: TestRun): (section: string)
    ensures Text.StartsWith(section, "Running test in " + t.relPath + ":\n")
    ensures section[|section| - 1] == '\n'
  {
    var head := "Running test in " + t.relPath + ":\n";
    assert (head + t.output + "\n")[..|head|] == head;
    head + t.output + "\n"
  }

  /** `Job.Report` over a list of tests. */
  function Report(tests: seq<TestRun>): (out: string)
    ensures |tests| == 0 ==> out == ""
    ensures |tests| > 0 ==> Text.StartsWith(out, Section(tests[0]))
    decreases |tests|
  {
    if |tests| == 0 then ""
    else
      var rest := Report(tests[1..]);
      assert (Section(tests[0]) + rest)[..|Section(tests[0])|] == Section(tests[0]);
      Section(tests[0]) + rest
  }

  /** The report of a list is the reports of its parts, one after the other. */
  lemma {:induction false} ReportAppend(a: seq<TestRun>, b: seq<TestRun>)
    ensures Report(a + b) == Report(a) + Report(b)
    decreases |a|
  {
    if |a| == 0 {
      assert a + b == b;
    } else {
      assert (a + b)[0] == a[0] && (a + b)[1..] == a[1..] + b;
      ReportAppend(a[1..], b);
    }
  }

  /** The report has exactly one section per test, in test order. */
  lemma {:induction false} ReportSections(tests: seq<TestRun>)
    ensures Report(tests) == Text.Concat(seq(|tests|, i requires 0 <= i < |tests| => Section(tests[i])))
    decreases |tests|
  {
    if |tests| > 0 {
      ReportSections(tests[1..]);
      var all := seq(|tests|, i requires 0 <= i < |tests| => Section(tests[i]));
      assert all[1..] == seq(|tests[1..]|, i requires 0 <= i < |tests[1..]| => Section(tests[1..][i]));
    }
  }
}

=== FILE: perm.dfy ===
/**
 * `Perm(items, k)` of cino-server/server/scanner.go: every k-tuple over a list
 * (repetitions allowed), built by the recursive `perm` that extends a prefix
 * with each element in turn. The tuples come out in index-lexicographic order:
 * tuple number t spells t in base |items|, most significant digit first.
 */
module Permutations {

  /** b to the power e. */
  function Pow(b: nat, e: nat): (r: nat)
    ensures b > 0 ==> r > 0
    ensures e > 0 && b == 0 ==> r == 0
  {
    if e == 0 then 1 else b * Pow(b, e - 1)
  }

  // ---------------------------------------------------------------------------
  // The algorithm as written
  // ---------------------------------------------------------------------------

  /** `perm(items, prefix, k)`: the prefix extended by every (k)-tuple. */
  function PermFrom(items: seq<string>, prefix: seq<string>, k: nat): seq<seq<string>>
    decreases k, |items| + 1
  {
    if k == 0 then [prefix] else PermLoop(items, prefix, k, 0)
  }

  /** The `for i := ...` loop of `perm`, from iteration `i` on. */
  function PermLoop(items: seq<string>, prefix: seq<string>, k: nat, i: nat): seq<seq<string>>
    requires k > 0 && i <= |items|
    decreases k, |items| - i
  {
    if i == |items| then []
    else PermFrom(items, prefix + [items[i]], k - 1) + PermLoop(items, prefix, k, i + 1)
  }

  /** `Perm(items, k)`. */
  function Perm(items: seq<string>, k: nat): (r: seq<seq<string>>)
    ensures |r| == Pow(|items|, k)
    ensures forall t :: 0 <= t < |r| ==> r[t] == Tuple(items, k, t)
  {
    PermFromIndex(items, [], k);
    PermFrom(items, [], k)
  }

  // ---------------------------------------------------------------------------
  // Reference: the t-th tuple in index-lexicographic order
  // ---------------------------------------------------------------------------

  /**
   * The tuple whose element indices are the last k base-|items| digits of t,
   * most significant first.
   */
  function Tuple(items: seq<string>, k: nat, t: nat): (r: seq<string>)
    requires |items| > 0 || k == 0
    ensures |r| == k
    ensures forall j :: 0 <= j < k ==> r[j] in items
    decreases k
  {
    if k == 0 then []
    else
      var m := Pow(|items|, k - 1);
      [items[(t / m) % |items|]] + Tuple(items, k - 1, t % m)
  }

  lemma MulMono(m: nat, a: nat, b: nat)
    requires a <= b
    ensures m * a <= m * b
  {
  }

  /** Division of q*m + r by m, for 0 <= r < m. */
  lemma DivMulAdd(q: nat, m: nat, r: nat)
    requires r < m
    ensures (q * m + r) / m == q && (q * m + r) % m == r
  {
    var x := q * m + r;
    var d, e := x / m, x % m;
    assert x == d * m + e;
    MulSucc(q, m);
    MulSucc(d, m);
    MulMonoIf(m, q + 1, d);
    MulMonoIf(m, d + 1, q);
  }

  lemma MulMonoIf(m: nat, a: nat, b: nat)
    ensures a <= b ==> m * a <= m * b
  {
    if a <= b {
      MulMono(m, a, b);
    }
  }

  /** Tuple number `i*m + t` is `items[i]` followed by tuple `t` of one fewer. */
  lemma TupleCons(items: seq<string>, k: nat, i: nat, t: nat)
    requires k > 0 && i < |items| && t < Pow(|items|, k - 1)
    ensures i * Pow(|items|, k - 1) + t < Pow(|items|, k)
    ensures Tuple(items, k, i * Pow(|items|, k - 1) + t) == [items[i]] + Tuple(items, k - 1, t)
  {
    var n, m := |items|, Pow(|items|, k - 1);
    var x := i * m + t;
    assert x < n * m by {
      MulSucc(i, m);
      MulMono(m, i + 1, n);
    }
    assert x / m == i && x % m == t by { DivMulAdd(i, m, t); }
    assert i % n == i by { DivMulAdd(0, n, i); }
    assert Tuple(items, k, x) == [items[(x / m) % n]] + Tuple(items, k - 1, x % m);
  }

  /** `perm(items, prefix, k)` lists `prefix + Tuple(items, k, t)` for t = 0, 1, .... */
  lemma {:induction false} PermFromIndex(items: seq<string>, prefix: seq<string>, k: nat)
    ensures |PermFrom(items, prefix, k)| == Pow(|items|, k)
    ensures forall t :: 0 <= t < Pow(|items|, k) ==> PermFrom(items, prefix, k)[t] == prefix + Tuple(items, k, t)
    decreases k, |items| + 1, 2
  {
    if k > 0 {
      PermLoopIndex(items, prefix, k, 0);
    }
  }

  /** Iterations `i..` of the loop list the tuples whose first index is at least `i`. */
  lemma {:induction false} PermLoopIndex(items: seq<string>, prefix: seq<string>, k: nat, i: nat)
    requires k > 0 && i <= |items|
    ensures |PermLoop(items, prefix, k, i)| == (|items| - i) * Pow(|items|, k - 1)
    ensures forall t :: 0 <= t < (|items| - i) * Pow(|items|, k - 1) ==>
      PermLoop(items, prefix, k, i)[t] == prefix + Tuple(items, k, i * Pow(|items|, k - 1) + t)
    decreases k, |items| - i, 1
  {
    if i < |items| {
      PermLoopLength(items, prefix, k, i);
      forall t | 0 <= t < (|items| - i) * Pow(|items|, k - 1)
        ensures PermLoop(items, prefix, k, i)[t] == prefix + Tuple(items, k, i * Pow(|items|, k - 1) + t)
      {
        PermLoopStep(items, prefix, k, i, t);
      }
    }
  }

  lemma MulSucc(a: nat, m: nat)
    ensures (a + 1) * m == m + a * m
  {
  }

  lemma {:induction false} PermLoopLength(items: seq<string>, prefix: seq<string>, k: nat, i: nat)
    requires k > 0 && i < |items|
    ensures |PermLoop(items, prefix, k, i)| == (|items| - i) * Pow(|items|, k - 1)
    decreases k, |items| - i, 0
  {
    var m := Pow(|items|, k - 1);
    PermFromIndex(items, prefix + [items[i]], k - 1);
    PermLoopIndex(items, prefix, k, i + 1);
    var head, tail := PermFrom(items, prefix + [items[i]], k - 1), PermLoop(items, prefix, k, i + 1);
    assert |PermLoop(items, prefix, k, i)| == |head| + |tail|;
    assert |head| + |tail| == (|items| - i) * m by { MulSucc(|items| - (i + 1), m); }
  }

  /** Entry `t` of iterations `i..` of the loop. */
  lemma {:induction false} PermLoopStep(items: seq<string>, prefix: seq<string>, k: nat, i: nat, t: nat)
    requires k > 0 && i < |items|
    requires t < (|items| - i) * Pow(|items|, k - 1)
    ensures t < |PermLoop(items, prefix, k, i)|
    ensures PermLoop(items, prefix, k, i)[t] == prefix + Tuple(items, k, i * Pow(|items|, k - 1) + t)
    decreases k, |items| - i, 0
  {
    var m := Pow(|items|, k - 1);
    var head := PermFrom(items, prefix + [items[i]], k - 1);
    var tail := PermLoop(items, prefix, k, i + 1);
    PermFromIndex(items, prefix + [items[i]], k - 1);
    PermLoopIndex(items, prefix, k, i + 1);
    assert |tail| + m == (|items| - i) * m by { MulSucc(|items| - (i + 1), m); }
    assert PermLoop(items, prefix, k, i) == head + tail;
    if t < m {
      var rest := Tuple(items, k - 1, t);
      TupleCons(items, k, i, t);
      assert head[t] == (prefix + [items[i]]) + rest;
      assert (prefix + [items[i]]) + rest == prefix + ([items[i]] + rest);
      assert (head + tail)[t] == head[t];
    } else {
      var u := t - m;
      assert (i + 1) * m + u == i * m + t by { MulSucc(i, m); }
      assert u < |tail|;
      assert tail[u] == prefix + Tuple(items, k, i * m + t);
      assert (head + tail)[t] == tail[u];
    }
  }

  // ---------------------------------------------------------------------------
  // Properties
  // ---------------------------------------------------------------------------

  /** There are |items|^k tuples, each of length k with elements from `items`. */
  lemma PermShape(items: seq<string>, k: nat)
    ensures |Perm(items, k)| == Pow(|items|, k)
    ensures forall t :: 0 <= t < |Perm(items, k)| ==>
      |Perm(items, k)[t]| == k && forall j :: 0 <= j < k ==> Perm(items, k)[t][j] in items
  {
  }

  /** No tuple is asked for: one empty tuple. Tuples over an empty list: none. */
  lemma PermEdgeCases(items: seq<string>, k: nat)
    ensures Perm(items, 0) == [[]]
    ensures |items| == 0 && k > 0 ==> Perm(items, k) == []
  {
    assert |Perm(items, 0)| == 1;
  }

  /** k copies of `x`. */
  function Copies(x: string, k: nat): (r: seq<string>)
    ensures |r| == k && forall j :: 0 <= j < k ==> r[j] == x
  {
    seq(k, _ => x)
  }

  /** The first tuple repeats the first element, the last one the last element. */
  lemma PermEnds(items: seq<string>, k: nat)
    requires |items| > 0
    ensures Perm(items, k)[0] == Copies(items[0], k)
    ensures Perm(items, k)[|Perm(items, k)| - 1] == Copies(items[|items| - 1], k)
  {
    TupleFirst(items, k);
    TupleLast(items, k);
  }

  lemma {:induction false} TupleFirst(items: seq<string>, k: nat)
    requires |items| > 0
    ensures Tuple(items, k, 0) == Copies(items[0], k)
  {
    if k > 0 {
      TupleFirst(items, k - 1);
      TupleCons(items, k, 0, 0);
    }
  }

  lemma {:induction false} TupleLast(items: seq<string>, k: nat)
    requires |items| > 0
    ensures Tuple(items, k, Pow(|items|, k) - 1) == Copies(items[|items| - 1], k)
  {
    if k > 0 {
      var n, m := |items|, Pow(|items|, k - 1);
      TupleLast(items, k - 1);
      TupleCons(items, k, n - 1, m - 1);
      assert (n - 1) * m + (m - 1) == n * m - 1;
    }
  }

  /** The rank of an index tuple: its digits read in base `n`. */
  function Rank(n: nat, idx: seq<nat>): (t: nat)
    requires forall j :: 0 <= j < |idx| ==> idx[j] < n
    ensures t < Pow(n, |idx|)
    decreases |idx|
  {
    if |idx| == 0 then 0
    else
      var m := Pow(n, |idx| - 1);
      var rest := Rank(n, idx[1..]);
      assert idx[0] * m + rest < (idx[0] + 1) * m <= n * m by { MulMono(m, idx[0] + 1, n); }
      idx[0] * m + rest
  }

  /** The tuple at the rank of `idx` picks `items[idx[j]]` in position j. */
  lemma {:induction false} TupleAtRank(items: seq<string>, idx: seq<nat>)
    requires forall j :: 0 <= j < |idx| ==> idx[j] < |items|
    ensures Tuple(items, |idx|, Rank(|items|, idx)) == seq(|idx|, j requires 0 <= j < |idx| => items[idx[j]])
    decreases |idx|
  {
    if |idx| > 0 {
      TupleAtRank(items, idx[1..]);
      TupleCons(items, |idx|, idx[0], Rank(|items|, idx[1..]));
    }
  }

  /** Every k-tuple of elements of `items` is among the `Perm` tuples. */
  lemma PermComplete(items: seq<string>, w: seq<string>)
    requires forall j :: 0 <= j < |w| ==> w[j] in items
    ensures w in Perm(items, |w|)
  {
    var idx := seq(|w|, j requires 0 <= j < |w| => IndexIn(items, w[j]));
    TupleAtRank(items, idx);
    var t := Rank(|items|, idx);
    assert Perm(items, |w|)[t] == w;
  }

  /** Some position of `x` in `items`. */
  function IndexIn(items: seq<string>, x: string): (i: nat)
    requires x in items
    ensures i < |items| && items[i] == x
  {
    if items[0] == x then 0 else 1 + IndexIn(items[1..], x)
  }
}

=== FILE: protocol.dfy ===
/**
 * The serial test protocol end to end: a decoder for the records the board
 * writes (the JSON subset cino.h produces, read as `json.Unmarshal` reads it
 * into `testMsg`), its round trips with the emitter, and what the runner's
 * loop concludes from the output of a whole test sketch.
 */
module Protocol {

  import opened Wrappers
  import Text
  import opened Emitter
  import opened Runner

  // ---------------------------------------------------------------------------
  // Decoding
  // ---------------------------------------------------------------------------

  /** `rest` after `key`, when `s` starts with `key`. */
  function Expect(s: string, key: string): (r: Option<string>)
    ensures r.Some? <==> Text.StartsWith(s, key)
    ensures r.Some? ==> s == key + r.value
  {
    if Text.StartsWith(s, key) then
      assert s == s[..|key|] + s[|key|..];
      Some(s[|key|..])
    else None
  }

  lemma ExpectKey(key: string, rest: string)
    ensures Expect(key + rest, key) == Some(rest)
  {
    assert (key + rest)[..|key|] == key && (key + rest)[|key|..] == rest;
  }

  /** A JSON boolean, and what follows it. */
  function ParseBool(s: string): Option<(bool, string)>
  {
    if Text.StartsWith(s, "true") then Some((true, s[4..]))
    else if Text.StartsWith(s, "false") then Some((false, s[5..]))
    else None
  }

  lemma ParseBoolText(b: bool, rest: string)
    ensures ParseBool(BoolText(b) + rest) == Some((b, rest))
  {
    var s := BoolText(b) + rest;
    if b {
      assert s[..4] == "true" && s[4..] == rest;
    } else {
      assert s[0] == 'f';
      assert s[..5] == "false" && s[5..] == rest;
    }
  }

  /** What the one-letter JSON escape `\c` stands for; None when `c` names none. */
  function SimpleEscape(c: char): Option<char>
  {
    match c
    case '"' => Some('"')
    case '\\' => Some('\\')
    case '/' => Some('/')
    case 'b' => Some(8 as char)
    case 'f' => Some(12 as char)
    case 'n' => Some('\n')
    case 'r' => Some('\r')
    case 't' => Some('\t')
    case _ => None
  }

  /** The value of a hexadecimal digit, or -1. */
  function HexDigit(c: char): (v: int)
    ensures -1 <= v < 16
  {
    if '0' <= c <= '9' then c as int - '0' as int
    else if 'a' <= c <= 'f' then c as int - 'a' as int + 10
    else if 'A' <= c <= 'F' then c as int - 'A' as int + 10
    else -1
  }

  /** The code unit of a `\uXXXX` at the start of `s`, or -1 when there is none. */
  function U4(s: string): (v: int)
    ensures -1 <= v < 0x10000
    ensures v >= 0 ==> |s| >= 6 && s[0] == '\\' && s[1] == 'u'
  {
    if |s| < 6 || s[0] != '\\' || s[1] != 'u' then -1
    else
      var d0, d1, d2, d3 := HexDigit(s[2]), HexDigit(s[3]), HexDigit(s[4]), HexDigit(s[5]);
      if d0 < 0 || d1 < 0 || d2 < 0 || d3 < 0 then -1
      else ((d0 * 16 + d1) * 16 + d2) * 16 + d3
  }

  /**
   * A `\u` escape at the start of `s`: the character and the length of its
   * spelling. A high surrogate followed by an escaped low surrogate is one
   * character; any other surrogate reads as U+FFFD.
   */
  function UnicodeEscape(s: string): (r: Option<(char, nat)>)
    ensures r.Some? <==> U4(s) >= 0
    ensures r.Some? ==> 6 <= r.value.1 <= |s|
  {
    var v := U4(s);
    if v < 0 then None
    else if v < 0xD800 || 0xE000 <= v then Some((v as char, 6))
    else
      var w := U4(s[6..]);
      if v < 0xDC00 && 0xDC00 <= w < 0xE000 then
        Some(((0x10000 + (v - 0xD800) * 0x400 + (w - 0xDC00)) as char, 12))
      else Some((0xFFFD as char, 6))
  }

  function Prepend(c: char, r: Option<(string, string)>): Option<(string, string)>
  {
    match r
    case None => None
    case Some((t, rest)) => Some(([c] + t, rest))
  }

  /**
   * The body of a JSON string up to its closing quote, and what follows the
   * quote. A raw control character or a backslash that starts no escape is
   * an error.
   */
  function Unescape(s: string): Option<(string, string)>
    decreases |s|
  {
    if |s| == 0 then None
    else if s[0] == '"' then Some(("", s[1..]))
    else if s[0] < ' ' then None
    else if s[0] != '\\' then Prepend(s[0], Unescape(s[1..]))
    else if |s| >= 2 && SimpleEscape(s[1]).Some? then Prepend(SimpleEscape(s[1]).value, Unescape(s[2..]))
    else
      match UnicodeEscape(s)
      case None => None
      case Some((c, n)) => Prepend(c, Unescape(s[n..]))
  }

  /** No control character: JSON carries every other character in a string as is. */
  predicate NoControl(text: string)
  {
    forall k :: 0 <= k < |text| ==> text[k] >= ' '
  }

  /** A printed file name the runner reads back unchanged: nothing JSON would unescape or reject. */
  predicate PlainName(name: string)
  {
    '\\' !in name && NoControl(name)
  }

  /** A character JSON carries as is, then the rest of the string. */
  lemma UnescapeCons(c: char, tail: string)
    requires c >= ' ' && c != '"' && c != '\\'
    ensures Unescape([c] + tail) == Prepend(c, Unescape(tail))
  {
    assert ([c] + tail)[1..] == tail;
  }

  /** An escaped quote or backslash, then the rest of the string. */
  lemma UnescapeQuoted(c: char, tail: string)
    requires c == '"' || c == '\\'
    ensures Unescape(['\\', c] + tail) == Prepend(c, Unescape(tail))
  {
    assert (['\\', c] + tail)[2..] == tail;
  }

  lemma {:induction false} UnescapeEscape(text: string, rest: string)
    requires NoControl(text)
    ensures Unescape(Escape(text) + "\"" + rest) == Some((text, rest))
    decreases |text|
  {
    var s := Escape(text) + "\"" + rest;
    if |text| == 0 {
      assert s == "\"" + rest;
    } else {
      assert NoControl(text[1..]) by {
        forall k | 0 <= k < |text[1..]| ensures text[1..][k] >= ' ' {
          assert text[1..][k] == text[k + 1];
        }
      }
      UnescapeEscape(text[1..], rest);
      var tail := Escape(text[1..]) + "\"" + rest;
      var head := if text[0] == '"' || text[0] == '\\' then ['\\', text[0]] else [text[0]];
      assert Escape(text) == head + Escape(text[1..]);
      assert s == head + tail;
      if text[0] == '"' || text[0] == '\\' {
        UnescapeQuoted(text[0], tail);
      } else {
        UnescapeCons(text[0], tail);
      }
      assert [text[0]] + text[1..] == text;
    }
  }

  /** Escaping leaves a text without quotes and backslashes alone. */
  lemma {:induction false} EscapePlain(text: string)
    requires '"' !in text && '\\' !in text
    ensures Escape(text) == text
    decreases |text|
  {
    if |text| > 0 {
      assert text[0] in text && forall c :: c in text[1..] ==> c in text;
      EscapePlain(text[1..]);
      assert [text[0]] + text[1..] == text;
    }
  }

  /** A plain name and its closing quote read back as the name. */
  lemma UnescapePlain(name: string, rest: string)
    requires '"' !in name && PlainName(name)
    ensures Unescape(name + "\"" + rest) == Some((name, rest))
  {
    EscapePlain(name);
    UnescapeEscape(name, rest);
  }

  /** A JSON string, and what follows it. */
  function ParseString(s: string): Option<(string, string)>
  {
    if |s| > 0 && s[0] == '"' then Unescape(s[1..]) else None
  }

  lemma ParseStringStringize(text: string, rest: string)
    requires NoControl(text)
    ensures ParseString(Stringize(text) + rest) == Some((text, rest))
  {
    var s := Stringize(text) + rest;
    assert s[1..] == Escape(text) + "\"" + rest;
    UnescapeEscape(text, rest);
  }

  predicate NumeralChar(c: char)
  {
    Text.IsDigit(c) || c == '-'
  }

  /** The number of leading sign and digit characters. */
  function NumeralLength(s: string): (n: nat)
    ensures n <= |s|
    decreases |s|
  {
    if |s| == 0 || !NumeralChar(s[0]) then 0 else 1 + NumeralLength(s[1..])
  }

  /** The range of Go's `int` on the 64-bit host the runner runs on. */
  predicate GoInt(v: int)
  {
    -0x8000_0000_0000_0000 <= v < 0x8000_0000_0000_0000
  }

  /** A numeral with a superfluous leading zero, which the JSON grammar forbids. */
  predicate LeadingZero(d: string)
  {
    var magnitude := if |d| > 0 && d[0] == '-' then d[1..] else d;
    |magnitude| > 1 && magnitude[0] == '0'
  }

  /**
   * A JSON integer stored into an `int` field, and what follows it: a numeral
   * with a leading zero is a syntax error, and a value outside Go's `int` is a
   * type error, both of which make `json.Unmarshal` fail.
   */
  function ParseNumber(s: string): (r: Option<(int, string)>)
    ensures r.Some? ==> GoInt(r.value.0)
    ensures LeadingZero(s[..NumeralLength(s)]) ==> r.None?
  {
    var n := NumeralLength(s);
    if LeadingZero(s[..n]) then None
    else
      match Text.ParseInt(s[..n])
      case None => None
      case Some(v) => if GoInt(v) then Some((v, s[n..])) else None
  }

  lemma {:induction false} NumeralLengthOf(d: string, rest: string)
    requires forall k :: 0 <= k < |d| ==> NumeralChar(d[k])
    requires |rest| > 0 && !NumeralChar(rest[0])
    ensures NumeralLength(d + rest) == |d|
    decreases |d|
  {
    if |d| == 0 {
      assert d + rest == rest;
    } else {
      assert (d + rest)[0] == d[0] && (d + rest)[1..] == d[1..] + rest;
      NumeralLengthOf(d[1..], rest);
    }
  }

  lemma DecimalChars(i: int)
    ensures forall k :: 0 <= k < |Text.IntToDecimal(i)| ==> NumeralChar(Text.IntToDecimal(i)[k])
  {
    var s := Text.IntToDecimal(i);
    if i < 0 {
      var digits := Text.NatToDecimal(-i);
      assert s == "-" + digits;
      forall k | 0 <= k < |s| ensures NumeralChar(s[k]) {
        if k > 0 {
          assert s[k] == digits[k - 1];
        }
      }
    }
  }

  /** A printed integer reads back as itself when Go's `int` holds it, and is rejected otherwise. */
  lemma ParseNumberDecimal(i: int, rest: string)
    requires |rest| > 0 && !NumeralChar(rest[0])
    ensures GoInt(i) ==> ParseNumber(Text.IntToDecimal(i) + rest) == Some((i, rest))
    ensures !GoInt(i) ==> ParseNumber(Text.IntToDecimal(i) + rest) == None
  {
    var d := Text.IntToDecimal(i);
    assert !LeadingZero(d) by {
      if i < 0 {
        assert d[1..] == Text.NatToDecimal(-i);
      }
    }
    DecimalChars(i);
    NumeralLengthOf(d, rest);
    assert (d + rest)[..|d|] == d && (d + rest)[|d|..] == rest;
    Text.IntDecimalRoundTrip(i);
  }

  /** What a check record decodes to. */
  function CheckMsg(result: bool, expr: string, file: string, line: int, fatal: bool): TestMsg
  {
    TestMsg(0, result, expr, file, line, fatal, false)
  }

  /** The end of a check record: "}" or the `fatal` member and "}". */
  function ParseCheckEnd(s: string): Option<Option<bool>>
  {
    if s == "}" then Some(None)
    else match Expect(s, FatalKey)
      case None => None
      case Some(s1) =>
        match ParseBool(s1)
        case Some((fatal, s2)) => if s2 == "}" then Some(Some(fatal)) else None
        case None => None
  }

  /** The members after the file name's closing quote start so. */
  const LineMember := ",\"line\":"

  /**
   * The file, line and optional `fatal` of a check record, after its
   * `,"file":"`: the file name is the rest of a JSON string.
   */
  function ParseLocation(s: string): Option<(string, int, Option<bool>)>
  {
    match Unescape(s)
    case None => None
    case Some((file, s0)) =>
      match Expect(s0, LineMember)
      case None => None
      case Some(s1) =>
        match ParseNumber(s1)
        case None => None
        case Some((line, s2)) =>
          match ParseCheckEnd(s2)
          case None => None
          case Some(fatal) => Some((file, line, fatal))
  }

  /** A check record after its `{"result":`. */
  function ParseCheck(s: string): Option<TestMsg>
  {
    match ParseBool(s)
    case None => None
    case Some((result, s1)) =>
      match Expect(s1, ExprKey)
      case None => None
      case Some(s2) =>
        match ParseString(s2)
        case None => None
        case Some((expr, s3)) =>
          match Expect(s3, FileKey)
          case None => None
          case Some(s4) =>
            match ParseLocation(s4)
            case None => None
            case Some((file, line, fatal)) => Some(CheckMsg(result, expr, file, line, fatal == Some(true)))
  }

  /** The message a record means, as `json.Unmarshal` fills `testMsg`; None when not a record. */
  function Decode(s: string): Option<TestMsg>
  {
    if Text.StartsWith(s, ResultKey) then ParseCheck(s[|ResultKey|..])
    else if Text.StartsWith(s, PlanKey) then
      match ParseNumber(s[|PlanKey|..])
      case Some((n, rest)) => if rest == "}" then Some(PlanMsg(n)) else None
      case None => None
    else if s == DoneRecord then Some(DoneMsg)
    else None
  }

  const DecodeError := "invalid character in JSON"

  /** `Decode` as the runner's decoding step. */
  function Json(s: string): Result<TestMsg>
  {
    match Decode(s)
    case Some(m) => Success(m)
    case None => Failure(DecodeError)
  }

  // ---------------------------------------------------------------------------
  // Round trips
  // ---------------------------------------------------------------------------

  lemma CheckEndRoundTrip(result: bool, fatal: bool)
    ensures ParseCheckEnd(FatalField(result, fatal) + "}") == Some(if result then None else Some(fatal))
  {
    if !result {
      var s := FatalField(result, fatal) + "}";
      assert s == FatalKey + (BoolText(fatal) + "}");
      assert s != "}";
      ExpectKey(FatalKey, BoolText(fatal) + "}");
      ParseBoolText(fatal, "}");
    } else {
      assert FatalField(result, fatal) + "}" == "}";
    }
  }

  lemma {:induction false} ParseLocationOf(name: string, line: int, end: string, fatal: Option<bool>)
    requires '"' !in name && PlainName(name)
    requires GoInt(line)
    requires |end| > 0 && !NumeralChar(end[0])
    requires ParseCheckEnd(end) == Some(fatal)
    ensures ParseLocation(name + (LineKey + (Text.IntToDecimal(line) + end))) == Some((name, line, fatal))
  {
    var s2 := Text.IntToDecimal(line) + end;
    var s1 := LineMember + s2;
    var s := name + (LineKey + s2);
    assert Unescape(s) == Some((name, s1)) by {
      assert LineKey == "\"" + LineMember;
      assert s == name + "\"" + s1;
      UnescapePlain(name, s1);
    }
    assert Expect(s1, LineMember) == Some(s2) by { ExpectKey(LineMember, s2); }
    assert ParseNumber(s2) == Some((line, end)) by { ParseNumberDecimal(line, end); }
  }

  lemma LocationRoundTrip(c: Check)
    requires PlainName(FileField(c.file)) && GoInt(c.line)
    ensures Expect(Location(c), FileKey)
      == Some(FileField(c.file) + (LineKey + (Text.IntToDecimal(c.line) + (FatalField(c.result, c.fatal) + "}"))))
    ensures ParseLocation(Expect(Location(c), FileKey).value)
      == Some((FileField(c.file), c.line, if c.result then None else Some(c.fatal)))
  {
    var end := FatalField(c.result, c.fatal) + "}";
    var rest := FileField(c.file) + (LineKey + (Text.IntToDecimal(c.line) + end));
    ExpectKey(FileKey, rest);
    assert end[0] == ',' || end[0] == '}';
    CheckEndRoundTrip(c.result, c.fatal);
    ParseLocationOf(FileField(c.file), c.line, end, if c.result then None else Some(c.fatal));
  }

  /** Whatever follows `{"result":` is parsed as a check record. */
  lemma DecodeResultKey(body: string)
    ensures Decode(ResultKey + body) == ParseCheck(body)
  {
    ExpectKey(ResultKey, body);
  }

  lemma ParseCheckOf(result: bool, exprText: string, loc: string, location: (string, int, Option<bool>))
    requires NoControl(exprText)
    requires Expect(loc, FileKey).Some? && ParseLocation(Expect(loc, FileKey).value) == Some(location)
    ensures ParseCheck(BoolText(result) + (ExprKey + (Stringize(exprText) + loc)))
      == Some(CheckMsg(result, exprText, location.0, location.1, location.2 == Some(true)))
  {
    var s2 := Stringize(exprText) + loc;
    var s1 := ExprKey + s2;
    assert ParseBool(BoolText(result) + s1) == Some((result, s1)) by { ParseBoolText(result, s1); }
    assert Expect(s1, ExprKey) == Some(s2) by { ExpectKey(ExprKey, s2); }
    assert ParseString(s2) == Some((exprText, loc)) by { ParseStringStringize(exprText, loc); }
  }

  /**
   * A check record decodes to its result, the expression text, the printed
   * file name and the line, with `fatal` set exactly for a failed fatal check,
   * provided JSON carries the expression text and the printed name as they are.
   */
  lemma DecodeRecord(c: Check, exprText: string)
    requires c.quotedExpr == Stringize(exprText) && NoControl(exprText)
    requires PlainName(FileField(c.file)) && GoInt(c.line)
    ensures Decode(Record(c)) == Some(CheckMsg(c.result, exprText, FileField(c.file), c.line, c.fatal && !c.result))
  {
    var body := BoolText(c.result) + (ExprKey + (c.quotedExpr + Location(c)));
    assert Record(c) == ResultKey + body;
    DecodeResultKey(body);
    LocationRoundTrip(c);
    ParseCheckOf(c.result, exprText, Location(c), (FileField(c.file), c.line, if c.result then None else Some(c.fatal)));
  }

  /** A backslash that starts no JSON escape makes the string unreadable, whatever follows. */
  lemma {:induction false} UnescapeBadEscape(a: string, e: char, rest: string)
    requires '"' !in a && PlainName(a)
    requires SimpleEscape(e).None? && e != 'u'
    ensures Unescape(a + ['\\', e] + rest) == None
    decreases |a|
  {
    if |a| == 0 {
      assert a + ['\\', e] + rest == ['\\', e] + rest;
    } else {
      var t := a[1..] + ['\\', e] + rest;
      assert a + ['\\', e] + rest == [a[0]] + t;
      assert a[0] in a && forall ch :: ch in a[1..] ==> ch in a;
      assert PlainName(a[1..]) by {
        forall k | 0 <= k < |a[1..]| ensures a[1..][k] >= ' ' {
          assert a[1..][k] == a[k + 1];
        }
      }
      UnescapeBadEscape(a[1..], e, rest);
      UnescapeCons(a[0], t);
    }
  }

  /** A file name with a backslash that starts no escape does not parse, whatever follows it. */
  lemma ParseLocationBadEscape(a: string, e: char, rest: string)
    requires '"' !in a && PlainName(a) && SimpleEscape(e).None? && e != 'u'
    ensures ParseLocation(a + ['\\', e] + rest).None?
  {
    UnescapeBadEscape(a, e, rest);
  }

  /** A location whose file name holds a backslash that starts no escape does not parse. */
  lemma LocationBadEscape(c: Check, a: string, e: char, b: string)
    requires FileField(c.file) == a + ['\\', e] + b
    requires '"' !in a && PlainName(a) && SimpleEscape(e).None? && e != 'u'
    ensures Expect(Location(c), FileKey).Some? && ParseLocation(Expect(Location(c), FileKey).value).None?
  {
    var name := FileField(c.file);
    var after := LineKey + (Text.IntToDecimal(c.line) + (FatalField(c.result, c.fatal) + "}"));
    assert Location(c) == FileKey + (name + after);
    ExpectKey(FileKey, name + after);
    Text.AppendAssoc(a + ['\\', e], b, after);
    ParseLocationBadEscape(a, e, b + after);
  }

  /** A check record whose location does not parse does not decode. */
  lemma ParseCheckRejects(result: bool, exprText: string, loc: string)
    requires NoControl(exprText)
    requires Expect(loc, FileKey).Some? && ParseLocation(Expect(loc, FileKey).value).None?
    ensures ParseCheck(BoolText(result) + (ExprKey + (Stringize(exprText) + loc))) == None
  {
    var s2 := Stringize(exprText) + loc;
    var s1 := ExprKey + s2;
    assert ParseBool(BoolText(result) + s1) == Some((result, s1)) by { ParseBoolText(result, s1); }
    assert Expect(s1, ExprKey) == Some(s2) by { ExpectKey(ExprKey, s2); }
    assert ParseString(s2) == Some((exprText, loc)) by { ParseStringStringize(exprText, loc); }
  }

  /**
   * A printed file name with a backslash that starts no JSON escape, as a
   * Windows path has: the record is not valid JSON, and decoding it fails.
   */
  lemma BadEscapeRecord(c: Check, exprText: string, a: string, e: char, b: string)
    requires c.quotedExpr == Stringize(exprText) && NoControl(exprText)
    requires FileField(c.file) == a + ['\\', e] + b
    requires '"' !in a && PlainName(a) && SimpleEscape(e).None? && e != 'u'
    ensures Json(Record(c)) == Failure(DecodeError)
  {
    var body := BoolText(c.result) + (ExprKey + (c.quotedExpr + Location(c)));
    assert Record(c) == ResultKey + body;
    DecodeResultKey(body);
    LocationBadEscape(c, a, e, b);
    ParseCheckRejects(c.result, exprText, Location(c));
  }

  /** A file compiled on Windows, whose `__FILE__` holds backslashes and no '/'. */
  const WindowsFile := "C:\\Users\\me\\t.ino"

  /** `WindowsFile` is printed as is. */
  lemma WindowsFileField()
    ensures FileField(WindowsFile) == WindowsFile
  {
    assert '"' !in WindowsFile && '/' !in WindowsFile;
  }

  /** The first backslash of `WindowsFile` starts "\U", which is no JSON escape. */
  lemma WindowsFileSplit()
    ensures WindowsFile == "C:" + ['\\', 'U'] + "sers\\me\\t.ino"
  {
  }

  /** What precedes the first backslash of `WindowsFile` reads as is, and "U" names no escape. */
  lemma WindowsPrefix()
    ensures '"' !in "C:" && PlainName("C:") && SimpleEscape('U').None? && NoControl("x")
  {
  }

  /** The line of `CHECK(x)` in a sketch built from `WindowsFile` does not decode. */
  lemma WindowsCheckRejected()
    ensures Json(LineOf(CheckStmt(true, "x", WindowsFile, 3))) == Failure(DecodeError)
  {
    var s := CheckStmt(true, "x", WindowsFile, 3);
    CheckOfFields(s);
    WindowsFileField();
    WindowsFileSplit();
    WindowsPrefix();
    BadEscapeRecord(CheckOf(s), "x", "C:", 'U', "sers\\me\\t.ino");
  }

  /**
   * So a sketch built from `WindowsFile` that plans one check: after the plan
   * the runner stops at a decoding error and settles no status.
   */
  lemma WindowsPathSession()
    ensures Session(Output([TestPlan(1), CheckStmt(true, "x", WindowsFile, 3), TestDone]), Json) == Errored(DecodeError)
  {
    var s := CheckStmt(true, "x", WindowsFile, 3);
    var p := [TestPlan(1), s, TestDone];
    WindowsCheckRejected();
    OutputLines(p);
    assert Span(p) == 3;
    var lines := Output(p);
    assert lines[0] == Plan(1) && lines[1] == LineOf(s);
    assert IsJsonLine(lines[1]) by {
      CheckOfFields(s);
    }
    DecodePlan(1);
    var declared := Reader(true, 1, 0, 0, []);
    ConsumeHead(Initial, lines, Some(PlanMsg(1)), Json);
    assert Step(Initial, PlanMsg(1)) == (declared, false);
    assert lines[1..][0] == lines[1];
    assert Consume(declared, lines[1..], Json) == (declared, Broken(DecodeError));
  }

  /** `TEST_PLAN(n)` decodes to a plan of n, unless n does not fit Go's `int`. */
  lemma DecodePlan(n: int)
    ensures GoInt(n) ==> Decode(Plan(n)) == Some(PlanMsg(n))
    ensures !GoInt(n) ==> Json(Plan(n)) == Failure(DecodeError)
  {
    var rest := Text.IntToDecimal(n) + "}";
    assert Plan(n) == PlanKey + rest;
    assert Plan(n)[2] == 'p' && ResultKey[2] == 'r';
    ExpectKey(PlanKey, rest);
    ParseNumberDecimal(n, "}");
  }

  /**
   * A plan count written with a leading zero, as the line `{"plan":007}`, is
   * not JSON: decoding fails.
   */
  lemma LeadingZeroPlanRejected()
    ensures Json("{\"plan\":007}") == Failure(DecodeError)
  {
    var s := "{\"plan\":007}";
    assert s[2] == 'p' && ResultKey[2] == 'r';
    assert s == PlanKey + ("007" + "}");
    ExpectKey(PlanKey, "007" + "}");
    NumeralLengthOf("007", "}");
    assert ("007" + "}")[..3] == "007";
  }

  /** `TEST_DONE()` decodes to a done message. */
  lemma DecodeDone()
    ensures Decode(DoneRecord) == Some(DoneMsg)
  {
    assert DoneRecord[2] == 'd' && ResultKey[2] == 'r' && PlanKey[2] == 'p';
  }

  // ---------------------------------------------------------------------------
  // A test sketch and what the runner makes of it
  // ---------------------------------------------------------------------------

  /**
   * A statement of a test sketch that talks to the runner: the macros, and
   * any other line printed to the serial port.
   */
  datatype Stmt =
    | TestPlan(n: int)
    | TestNoPlan
    | TestDone
    | Require(value: bool, exprText: string, file: string, line: int)
    | CheckStmt(value: bool, exprText: string, file: string, line: int)
    | Print(text: string)

  /** The check a REQUIRE or CHECK statement makes. */
  function CheckOf(s: Stmt): Check
    requires s.Require? || s.CheckStmt?
  {
    if s.Require? then RequireMacro(s.value, s.exprText, s.file, s.line)
    else CheckMacro(s.value, s.exprText, s.file, s.line)
  }

  /** The line a statement writes. */
  function LineOf(s: Stmt): string
  {
    match s
    case TestPlan(n) => Plan(n)
    case TestNoPlan => NoPlan()
    case TestDone => DoneRecord
    case Require(_, _, _, _) => CinoCheck(CheckOf(s)).record
    case CheckStmt(_, _, _, _) => CinoCheck(CheckOf(s)).record
    case Print(text) => text
  }

  /** The statement halts the board: a failed REQUIRE. */
  predicate Halts(s: Stmt)
  {
    s.Require? && !s.value
  }

  /** `Halts` is the emitter's halt condition. */
  lemma HaltsIsCinoHalt(s: Stmt)
    requires s.Require? || s.CheckStmt?
    ensures Halts(s) <==> CinoCheck(CheckOf(s)).halted
  {
  }

  /** A statement that runs a check. */
  predicate IsCheck(s: Stmt)
  {
    s.Require? || s.CheckStmt?
  }

  /** The number of statements that run: those up to and including the first halt. */
  function Span(program: seq<Stmt>): (n: nat)
    ensures n <= |program|
    ensures |program| > 0 ==> n > 0
    decreases |program|
  {
    if |program| == 0 then 0
    else if Halts(program[0]) then 1
    else 1 + Span(program[1..])
  }

  /** One line per statement, printed by `line`, up to and including the first halt. */
  function Printed(program: seq<Stmt>, line: Stmt -> string): seq<string>
    decreases |program|
  {
    if |program| == 0 then []
    else if Halts(program[0]) then [line(program[0])]
    else [line(program[0])] + Printed(program[1..], line)
  }

  /** The serial output of a sketch: one line per statement, up to a halt. */
  function Output(program: seq<Stmt>): seq<string>
  {
    Printed(program, LineOf)
  }

  lemma OutputCons(s: Stmt, rest: seq<Stmt>)
    ensures Halts(s) ==> Output([s] + rest) == [LineOf(s)]
    ensures !Halts(s) ==> Output([s] + rest) == [LineOf(s)] + Output(rest)
  {
    assert ([s] + rest)[0] == s && ([s] + rest)[1..] == rest;
  }

  /** The printed lines are those of the statements that run, in order. */
  lemma {:induction false} PrintedLines(program: seq<Stmt>, line: Stmt -> string)
    ensures |Printed(program, line)| == Span(program)
    ensures forall k :: 0 <= k < Span(program) ==> Printed(program, line)[k] == line(program[k])
    decreases |program|
  {
    if |program| > 0 && !Halts(program[0]) {
      PrintedLines(program[1..], line);
      forall k | 0 <= k < Span(program) ensures Printed(program, line)[k] == line(program[k]) {
        if k > 0 {
          assert program[1..][k - 1] == program[k];
        }
      }
    }
  }

  /** The output is the lines of the statements that run, in order. */
  lemma OutputLines(program: seq<Stmt>)
    ensures |Output(program)| == Span(program)
    ensures forall k :: 0 <= k < Span(program) ==> Output(program)[k] == LineOf(program[k])
  {
    PrintedLines(program, LineOf);
  }

  /**
   * The message the runner reads for a check statement, `name` being how the
   * record prints the file (`FileField`). The counting lemmas below hold for
   * any such function; the whole-session lemmas apply them to `FileField`.
   */
  function MsgOf(s: Stmt, name: string -> string): TestMsg
    requires IsCheck(s)
  {
    CheckMsg(s.value, s.exprText, name(s.file), s.line, Halts(s))
  }

  function PlanMsg(n: int): TestMsg
  {
    TestMsg(n, false, "", "", 0, false, false)
  }

  const DoneMsg := TestMsg(0, false, "", "", 0, false, true)

  /** What the runner reads from the line of a statement; nothing for a plain print. */
  function Meaning(s: Stmt, name: string -> string): Option<TestMsg>
  {
    match s
    case TestPlan(n) => Some(PlanMsg(n))
    case TestNoPlan => Some(PlanMsg(-1))
    case TestDone => Some(DoneMsg)
    case Require(_, _, _, _) => Some(MsgOf(s, name))
    case CheckStmt(_, _, _, _) => Some(MsgOf(s, name))
    case Print(_) => None
  }

  function Meanings(program: seq<Stmt>, name: string -> string): (ms: seq<Option<TestMsg>>)
    ensures |ms| == |program|
    ensures forall k :: 0 <= k < |program| ==> ms[k] == Meaning(program[k], name)
  {
    seq(|program|, k requires 0 <= k < |program| => Meaning(program[k], name))
  }

  /** `line` is read by `decode` as `m`, or skipped by the loop when `m` is nothing. */
  predicate Reads(decode: string -> Result<TestMsg>, line: string, m: Option<TestMsg>)
  {
    match m
    case None => !IsJsonLine(line)
    case Some(msg) => IsJsonLine(line) && decode(line) == Success(msg)
  }

  /** Each line is read as the message in the same position. */
  predicate ReadsAll(decode: string -> Result<TestMsg>, lines: seq<string>, ms: seq<Option<TestMsg>>)
  {
    && |lines| <= |ms|
    && forall k {:trigger Reads(decode, lines[k], ms[k])} :: 0 <= k < |lines| ==> Reads(decode, lines[k], ms[k])
  }

  /**
   * Statements whose lines are read as meant: a print must not look like a
   * record, a check's expression text and printed file name must reach the
   * runner as they are, and every printed number must fit Go's `int`.
   */
  predicate Readable(s: Stmt)
  {
    && (s.Print? ==> !IsJsonLine(s.text))
    && (IsCheck(s) ==> NoControl(s.exprText) && PlainName(FileField(s.file)) && GoInt(s.line))
    && (s.TestPlan? ==> GoInt(s.n))
  }

  /** The check a statement makes carries the statement's fields, and its record is the line. */
  lemma CheckOfFields(s: Stmt)
    requires IsCheck(s)
    ensures CheckOf(s).quotedExpr == Stringize(s.exprText)
    ensures CheckOf(s).file == s.file && CheckOf(s).line == s.line && CheckOf(s).result == s.value
    ensures CheckOf(s).fatal == s.Require?
    ensures LineOf(s) == Record(CheckOf(s))
  {
  }

  /** A REQUIRE line decodes to its message. */
  lemma DecodeRequire(s: Stmt)
    requires s.Require? && Readable(s)
    ensures Json(LineOf(s)) == Success(MsgOf(s, FileField))
  {
    CheckOfFields(s);
    DecodeRecord(CheckOf(s), s.exprText);
  }

  /** A CHECK line decodes to its message. */
  lemma DecodeCheck(s: Stmt)
    requires s.CheckStmt? && Readable(s)
    ensures Json(LineOf(s)) == Success(MsgOf(s, FileField))
  {
    CheckOfFields(s);
    DecodeRecord(CheckOf(s), s.exprText);
  }

  lemma DecodeStmt(s: Stmt)
    requires IsCheck(s) && Readable(s)
    ensures Json(LineOf(s)) == Success(MsgOf(s, FileField))
    ensures IsJsonLine(LineOf(s))
  {
    CheckOfFields(s);
    if s.Require? {
      DecodeRequire(s);
    } else {
      DecodeCheck(s);
    }
  }

  /** Every line a statement writes is read back as what the statement means. */
  lemma StmtReads(s: Stmt)
    requires Readable(s)
    ensures Reads(Json, LineOf(s), Meaning(s, FileField))
  {
    match s
    case TestPlan(n) =>
      DecodePlan(n);
      assert Plan(n)[0] == PlanKey[0];
    case TestNoPlan =>
      DecodePlan(-1);
      assert Plan(-1)[0] == PlanKey[0];
    case TestDone =>
      DecodeDone();
    case Require(_, _, _, _) =>
      DecodeStmt(s);
    case CheckStmt(_, _, _, _) =>
      DecodeStmt(s);
    case Print(_) =>
  }

  /** The line of each statement that runs is read as what the statement means. */
  lemma OutputReadsAt(program: seq<Stmt>, k: nat)
    requires k < Span(program) && Readable(program[k])
    ensures |Output(program)| == Span(program)
    ensures Reads(Json, Output(program)[k], Meaning(program[k], FileField))
  {
    OutputLines(program);
    StmtReads(program[k]);
  }

  /** Every line of a sketch's output is read as what its statement means. */
  lemma OutputReads(program: seq<Stmt>)
    requires forall k :: 0 <= k < |program| ==> Readable(program[k])
    ensures |Output(program)| == Span(program)
    ensures ReadsAll(Json, Output(program), Meanings(program, FileField))
  {
    OutputLines(program);
    forall k | 0 <= k < |Output(program)| ensures Reads(Json, Output(program)[k], Meanings(program, FileField)[k]) {
      OutputReadsAt(program, k);
    }
  }

  // ---------------------------------------------------------------------------
  // What the runner counts, stated on the sketch
  // ---------------------------------------------------------------------------

  /** A statement between the plan and the end: a check with an expression, or a print. */
  predicate BodyStmt(s: Stmt)
  {
    (IsCheck(s) && s.exprText != "") || s.Print?
  }

  /** Statements the counting loop sees as results or noise. */
  predicate Countable(body: seq<Stmt>)
  {
    forall k :: 0 <= k < |body| ==> BodyStmt(body[k])
  }

  /** The statements between the plan and the end, each read as meant. */
  predicate IsBody(body: seq<Stmt>)
  {
    && Countable(body)
    && forall k :: 0 <= k < |body| ==> Readable(body[k])
  }

  /** Reference: the number of checks a body runs, up to and including the first failed REQUIRE. */
  function Ran(body: seq<Stmt>): nat
    decreases |body|
  {
    if |body| == 0 then 0
    else if !IsCheck(body[0]) then Ran(body[1..])
    else if Halts(body[0]) then 1
    else 1 + Ran(body[1..])
  }

  /** Reference: how many of the checks that ran failed. */
  function Failed(body: seq<Stmt>): nat
    decreases |body|
  {
    if |body| == 0 then 0
    else if !IsCheck(body[0]) then Failed(body[1..])
    else if Halts(body[0]) then 1
    else (if body[0].value then 0 else 1) + Failed(body[1..])
  }

  /** Reference: the log lines of the checks that ran, in order. */
  function Entries(body: seq<Stmt>, name: string -> string): seq<string>
    decreases |body|
  {
    if |body| == 0 then []
    else if !IsCheck(body[0]) then Entries(body[1..], name)
    else if Halts(body[0]) then [ResultLine(MsgOf(body[0], name))]
    else [ResultLine(MsgOf(body[0], name))] + Entries(body[1..], name)
  }

  /** One log line per check that ran, and no more failures than checks. */
  lemma {:induction false} TallyShape(body: seq<Stmt>, name: string -> string)
    ensures |Entries(body, name)| == Ran(body)
    ensures Failed(body) <= Ran(body)
    decreases |body|
  {
    if |body| > 0 {
      TallyShape(body[1..], name);
    }
  }

  // ---------------------------------------------------------------------------
  // What the runner counts, stated on the messages
  // ---------------------------------------------------------------------------

  /** A message the loop counts once a plan is declared. */
  predicate IsResult(m: TestMsg)
  {
    m.plan <= 0 && m.expr != "" && !m.done
  }

  /** Messages between the plan and the end: results, or nothing for a print. */
  predicate IsResults(ms: seq<Option<TestMsg>>)
  {
    forall k :: 0 <= k < |ms| ==> ms[k].None? || IsResult(ms[k].value)
  }

  /** The message stops the board. */
  predicate Fatal(m: Option<TestMsg>)
  {
    m.Some? && m.value.fatal
  }

  /** The number of messages up to and including the first fatal one. */
  function SpanOf(ms: seq<Option<TestMsg>>): nat
    decreases |ms|
  {
    if |ms| == 0 then 0
    else if Fatal(ms[0]) then 1
    else 1 + SpanOf(ms[1..])
  }

  /** The results counted, failed and logged, up to and including the first fatal one. */
  function Counts(ms: seq<Option<TestMsg>>): (c: (nat, nat, seq<string>))
    decreases |ms|
  {
    if |ms| == 0 then (0, 0, [])
    else if ms[0].None? then Counts(ms[1..])
    else
      var m := ms[0].value;
      var here := (1, if m.result then 0 else 1, [ResultLine(m)]);
      if m.fatal then here
      else
        var rest := Counts(ms[1..]);
        (1 + rest.0, here.1 + rest.1, here.2 + rest.2)
  }

  lemma MeaningsTail(program: seq<Stmt>, name: string -> string)
    requires |program| > 0
    ensures Meanings(program, name)[1..] == Meanings(program[1..], name)
  {
  }

  lemma MeaningsAppend(a: seq<Stmt>, b: seq<Stmt>, name: string -> string)
    ensures Meanings(a + b, name) == Meanings(a, name) + Meanings(b, name)
  {
  }

  /** The statements that run are the messages up to the first fatal one. */
  lemma {:induction false} SpanMeanings(program: seq<Stmt>, name: string -> string)
    ensures SpanOf(Meanings(program, name)) == Span(program)
    decreases |program|
  {
    if |program| > 0 {
      MeaningsTail(program, name);
      SpanMeanings(program[1..], name);
    }
  }

  /** What a check of a body means: a result, fatal exactly when it halts the board. */
  lemma MeaningOfCheck(s: Stmt, name: string -> string)
    requires IsCheck(s) && s.exprText != ""
    ensures Meaning(s, name) == Some(MsgOf(s, name))
    ensures IsResult(MsgOf(s, name)) && MsgOf(s, name).fatal == Halts(s) && MsgOf(s, name).result == s.value
  {
  }

  /** Counts of a sequence that starts with a result. */
  lemma CountsCons(m: TestMsg, rest: seq<Option<TestMsg>>)
    ensures var c := Counts([Some(m)] + rest);
      var r := Counts(rest);
      c == if m.fatal then (1, if m.result then 0 else 1, [ResultLine(m)])
           else (1 + r.0, (if m.result then 0 else 1) + r.1, [ResultLine(m)] + r.2)
  {
    assert ([Some(m)] + rest)[1..] == rest;
  }

  /** Counts of a sequence that starts with nothing. */
  lemma CountsSkip(rest: seq<Option<TestMsg>>)
    ensures Counts([None] + rest) == Counts(rest)
  {
    assert ([None] + rest)[1..] == rest;
  }

  /** One statement of a body adds what the reference says to the counts of the rest. */
  lemma CountsStep(s: Stmt, rest: seq<Stmt>, name: string -> string)
    requires BodyStmt(s)
    requires Counts(Meanings(rest, name)) == (Ran(rest), Failed(rest), Entries(rest, name))
    ensures Counts([Meaning(s, name)] + Meanings(rest, name)) == (Ran([s] + rest), Failed([s] + rest), Entries([s] + rest, name))
  {
    var body := [s] + rest;
    assert body[0] == s && body[1..] == rest;
    var tail := Meanings(rest, name);
    var goal := (Ran(body), Failed(body), Entries(body, name));
    if s.Print? {
      CountsSkip(tail);
      assert goal == (Ran(rest), Failed(rest), Entries(rest, name));
    } else {
      var m := MsgOf(s, name);
      MeaningOfCheck(s, name);
      CountsCons(m, tail);
      if Halts(s) {
        assert goal == (1, 1, [ResultLine(m)]);
      } else {
        assert goal == (1 + Ran(rest), (if m.result then 0 else 1) + Failed(rest), [ResultLine(m)] + Entries(rest, name));
      }
    }
  }

  /** A body means results and nothing else. */
  lemma BodyResults(body: seq<Stmt>, name: string -> string)
    requires Countable(body)
    ensures IsResults(Meanings(body, name))
  {
    var ms := Meanings(body, name);
    forall k | 0 <= k < |ms| ensures ms[k].None? || IsResult(ms[k].value) {
      assert BodyStmt(body[k]);
      if !body[k].Print? {
        MeaningOfCheck(body[k], name);
      }
    }
  }

  /** The sketch-level reference agrees with the message-level counts. */
  lemma {:induction false} CountsMeanings(body: seq<Stmt>, name: string -> string)
    requires Countable(body)
    ensures Counts(Meanings(body, name)) == (Ran(body), Failed(body), Entries(body, name))
    decreases |body|
  {
    if |body| > 0 {
      var s, rest := body[0], body[1..];
      assert Countable(rest) by {
        forall k | 0 <= k < |rest| ensures BodyStmt(rest[k]) {
          assert rest[k] == body[k + 1];
        }
      }
      CountsMeanings(rest, name);
      assert body == [s] + rest;
      assert Meanings(body, name) == [Meaning(s, name)] + Meanings(rest, name) by {
        MeaningsAppend([s], rest, name);
      }
      CountsStep(s, rest, name);
    }
  }

  /** Reading a line that is read as `m`. */
  lemma ConsumeHead(r: Reader, lines: seq<string>, m: Option<TestMsg>, decode: string -> Result<TestMsg>)
    requires |lines| > 0 && Reads(decode, lines[0], m)
    ensures m.None? ==> Consume(r, lines, decode) == Consume(r, lines[1..], decode)
    ensures m.Some? ==>
      var (next, stop) := Step(r, m.value);
      Consume(r, lines, decode) == if stop then (next, Stopped) else Consume(next, lines[1..], decode)
  {
  }

  /** Lines read as `ms` are, after the first, read as `ms[1..]`. */
  lemma ReadsTail(ms: seq<Option<TestMsg>>, lines: seq<string>, decode: string -> Result<TestMsg>)
    requires 0 < |lines|
    requires ReadsAll(decode, lines, ms)
    ensures ReadsAll(decode, lines[1..], ms[1..])
  {
    forall k | 0 <= k < |lines[1..]| ensures Reads(decode, lines[1..][k], ms[1..][k]) {
      assert lines[1..][k] == lines[k + 1] && ms[1..][k] == ms[k + 1];
    }
  }

  /** A result with a plan declared: counted, logged, and a stop exactly when fatal. */
  lemma StepResult(r: Reader, m: TestMsg)
    requires r.declared && IsResult(m)
    ensures Step(r, m)
      == (r.(total := r.total + 1, failed := r.failed + (if m.result then 0 else 1), log := r.log + [ResultLine(m)]), m.fatal)
  {
  }

  /** `r` after the counts of `ms`. */
  function Counted(r: Reader, ms: seq<Option<TestMsg>>): Reader
  {
    var c := Counts(ms);
    r.(total := r.total + c.0, failed := r.failed + c.1, log := r.log + c.2)
  }

  /**
   * With a plan declared, lines read as results and skipped lines ended by
   * `done` leave the counts of the results up to the first fatal one, and
   * stop the loop.
   */
  lemma {:induction false} ConsumeResults(r: Reader, ms: seq<Option<TestMsg>>, lines: seq<string>, decode: string -> Result<TestMsg>)
    requires IsResults(ms) && r.declared
    requires |lines| == SpanOf(ms + [Some(DoneMsg)])
    requires ReadsAll(decode, lines, ms + [Some(DoneMsg)])
    ensures Consume(r, lines, decode) == (Counted(r, ms), Stopped)
    decreases |ms|
  {
    var p := ms + [Some(DoneMsg)];
    assert Reads(decode, lines[0], p[0]);
    ConsumeHead(r, lines, p[0], decode);
    if |ms| == 0 {
      assert p[0] == Some(DoneMsg);
      assert r.log + [] == r.log;
    } else {
      var m := ms[0];
      var rest := ms[1..];
      assert p[0] == m && p[1..] == rest + [Some(DoneMsg)];
      assert IsResults(rest) by {
        forall k | 0 <= k < |rest| ensures rest[k].None? || IsResult(rest[k].value) {
          assert rest[k] == ms[k + 1];
        }
      }
      if m.None? {
        ReadsTail(p, lines, decode);
        ConsumeResults(r, rest, lines[1..], decode);
      } else {
        StepResult(r, m.value);
        var next := Step(r, m.value).0;
        if !m.value.fatal {
          ReadsTail(p, lines, decode);
          ConsumeResults(next, rest, lines[1..], decode);
          Text.AppendAssoc(r.log, [ResultLine(m.value)], Counts(rest).2);
        }
      }
    }
  }

  // ---------------------------------------------------------------------------
  // Whole sessions
  // ---------------------------------------------------------------------------

  /** Reading a declared plan, then result lines ended by TEST_DONE. */
  lemma PlannedLines(n: int, ms: seq<Option<TestMsg>>, lines: seq<string>, decode: string -> Result<TestMsg>)
    requires n > 0 && IsResults(ms)
    requires |lines| == 1 + SpanOf(ms + [Some(DoneMsg)])
    requires Reads(decode, lines[0], Some(PlanMsg(n)))
    requires ReadsAll(decode, lines[1..], ms + [Some(DoneMsg)])
    ensures Consume(Initial, lines, decode) == (Counted(Reader(true, n, 0, 0, []), ms), Stopped)
  {
    var declared := Reader(true, n, 0, 0, []);
    ConsumeHead(Initial, lines, Some(PlanMsg(n)), decode);
    assert Step(Initial, PlanMsg(n)) == (declared, false);
    ConsumeResults(declared, ms, lines[1..], decode);
  }

  /** Every statement of a planned program prints a line the runner can read. */
  lemma PlannedReadable(n: int, body: seq<Stmt>)
    requires GoInt(n) && IsBody(body)
    ensures forall k :: 0 <= k < |[TestPlan(n)] + body + [TestDone]| ==> Readable(([TestPlan(n)] + body + [TestDone])[k])
  {
    var p := [TestPlan(n)] + body + [TestDone];
    forall k | 0 <= k < |p| ensures Readable(p[k]) {
      if 0 < k < |p| - 1 {
        assert p[k] == body[k - 1];
      }
    }
  }

  /** A planned program means the plan, the body's messages and the end. */
  lemma PlannedMeanings(n: int, body: seq<Stmt>)
    ensures Meanings([TestPlan(n)] + body + [TestDone], FileField)[0] == Some(PlanMsg(n))
    ensures Meanings([TestPlan(n)] + body + [TestDone], FileField)[1..] == Meanings(body, FileField) + [Some(DoneMsg)]
  {
    var q := body + [TestDone];
    var p := [TestPlan(n)] + q;
    assert [TestPlan(n)] + body + [TestDone] == p;
    MeaningsTail(p, FileField);
    assert p[1..] == q;
    MeaningsAppend(body, [TestDone], FileField);
    assert Meanings([TestDone], FileField) == [Some(DoneMsg)];
  }

  /** The output of a planned program reads as the plan, the body's messages and the end. */
  lemma PlannedReads(n: int, body: seq<Stmt>)
    requires GoInt(n) && IsBody(body)
    ensures var lines := Output([TestPlan(n)] + body + [TestDone]);
      && |lines| == 1 + SpanOf(Meanings(body, FileField) + [Some(DoneMsg)])
      && Reads(Json, lines[0], Some(PlanMsg(n)))
      && ReadsAll(Json, lines[1..], Meanings(body, FileField) + [Some(DoneMsg)])
  {
    var p := [TestPlan(n)] + body + [TestDone];
    var lines := Output(p);
    var mp := Meanings(p, FileField);
    PlannedReadable(n, body);
    OutputReads(p);
    SpanMeanings(p, FileField);
    PlannedMeanings(n, body);
    assert Reads(Json, lines[0], mp[0]);
    ReadsTail(mp, lines, Json);
  }

  /**
   * A sketch that declares a plan of n > 0, runs its checks and ends with
   * TEST_DONE: the runner counts exactly the checks that ran (all of them,
   * or those up to the failed REQUIRE that halted the board), counts the
   * failed ones among them, and logs one PASS/FAIL line for each.
   */
  lemma PlannedSession(n: int, body: seq<Stmt>)
    requires 0 < n && GoInt(n) && IsBody(body)
    ensures Consume(Initial, Output([TestPlan(n)] + body + [TestDone]), Json)
      == (Reader(true, n, Ran(body), Failed(body), Entries(body, FileField)), Stopped)
  {
    var ms := Meanings(body, FileField);
    BodyResults(body, FileField);
    CountsMeanings(body, FileField);
    PlannedReads(n, body);
    PlannedLines(n, ms, Output([TestPlan(n)] + body + [TestDone]), Json);
    assert [] + Entries(body, FileField) == Entries(body, FileField);
  }

  /**
   * Hence the test fails exactly when a check that ran failed, and the log
   * holds the PASS/FAIL lines, a count error exactly when the plan differs
   * from the checks that ran, and the result line.
   */
  lemma PlannedOutcome(n: int, body: seq<Stmt>)
    requires 0 < n && GoInt(n) && IsBody(body)
    ensures var o := Session(Output([TestPlan(n)] + body + [TestDone]), Json);
      && o.Finished?
      && (o.status == StatusFailure <==> Failed(body) > 0)
      && o.log == Entries(body, FileField) + (if n != Ran(body) then [MismatchError(n, Ran(body))] else []) + [StatusLine(o.status)]
  {
    PlannedSession(n, body);
  }

  /**
   * TEST_NOPLAN does not declare a plan: the first check is an error that
   * stops reading, and the test still passes, whatever the check said.
   */
  lemma NoPlanLines(m: TestMsg, lines: seq<string>, decode: string -> Result<TestMsg>)
    requires IsResult(m)
    requires |lines| >= 2 && Reads(decode, lines[0], Some(PlanMsg(-1))) && Reads(decode, lines[1], Some(m))
    ensures Session(lines, decode) == Finished(StatusSuccess, [NoPlanError, StatusLine(StatusSuccess)])
  {
    ConsumeHead(Initial, lines, Some(PlanMsg(-1)), decode);
    assert Step(Initial, PlanMsg(-1)) == (Initial, false);
    assert lines[1..][0] == lines[1];
    ConsumeHead(Initial, lines[1..], Some(m), decode);
    assert Initial.log + [NoPlanError] == [NoPlanError];
    assert Step(Initial, m) == (Initial.(log := [NoPlanError]), true);
    assert Consume(Initial, lines, decode) == (Initial.(log := [NoPlanError]), Stopped);
  }

  /** A program opening with TEST_NOPLAN() and a check prints at least those two lines. */
  lemma NoPlanSpan(s: Stmt, rest: seq<Stmt>)
    requires IsCheck(s)
    ensures var p := [TestNoPlan, s] + rest; p[0] == TestNoPlan && p[1] == s && 2 <= Span(p)
  {
    var p := [TestNoPlan, s] + rest;
    assert p[1..] == [s] + rest;
  }

  /** The first two lines of a program opening with TEST_NOPLAN() and a check. */
  lemma NoPlanFirstLines(p: seq<Stmt>)
    requires 2 <= Span(p) && p[0] == TestNoPlan && IsCheck(p[1]) && Readable(p[1])
    ensures |Output(p)| >= 2 && Reads(Json, Output(p)[0], Some(PlanMsg(-1)))
    ensures Reads(Json, Output(p)[1], Some(MsgOf(p[1], FileField)))
  {
    NoPlanLineReads(p);
    CheckLineReads(p, 1);
  }

  lemma NoPlanLineReads(p: seq<Stmt>)
    requires 0 < Span(p) && p[0] == TestNoPlan
    ensures |Output(p)| == Span(p) && Reads(Json, Output(p)[0], Some(PlanMsg(-1)))
  {
    OutputReadsAt(p, 0);
  }

  lemma CheckLineReads(p: seq<Stmt>, k: nat)
    requires k < Span(p) && IsCheck(p[k]) && Readable(p[k])
    ensures |Output(p)| == Span(p) && Reads(Json, Output(p)[k], Some(MsgOf(p[k], FileField)))
  {
    OutputReadsAt(p, k);
  }

  lemma NoPlanSession(s: Stmt, rest: seq<Stmt>)
    requires IsCheck(s) && s.exprText != "" && Readable(s)
    ensures Session(Output([TestNoPlan, s] + rest), Json) == Finished(StatusSuccess, [NoPlanError, StatusLine(StatusSuccess)])
  {
    var p := [TestNoPlan, s] + rest;
    NoPlanSpan(s, rest);
    NoPlanFirstLines(p);
    NoPlanLines(MsgOf(s, FileField), Output(p), Json);
  }

  /** A second positive plan is an error that stops reading; the count check then fails. */
  lemma DuplicatePlanLines(n: int, m: int, lines: seq<string>, decode: string -> Result<TestMsg>)
    requires n > 0 && m > 0
    requires |lines| >= 2 && Reads(decode, lines[0], Some(PlanMsg(n))) && Reads(decode, lines[1], Some(PlanMsg(m)))
    ensures Session(lines, decode) == Finished(StatusSuccess, [DuplicatePlanError, MismatchError(n, 0), StatusLine(StatusSuccess)])
  {
    var declared := Reader(true, n, 0, 0, []);
    ConsumeHead(Initial, lines, Some(PlanMsg(n)), decode);
    assert Step(Initial, PlanMsg(n)) == (declared, false);
    assert lines[1..][0] == lines[1];
    ConsumeHead(declared, lines[1..], Some(PlanMsg(m)), decode);
    assert declared.log + [DuplicatePlanError] == [DuplicatePlanError];
    assert Step(declared, PlanMsg(m)) == (declared.(log := [DuplicatePlanError]), true);
    assert Consume(Initial, lines, decode) == (declared.(log := [DuplicatePlanError]), Stopped);
  }

  lemma DuplicatePlanSession(n: int, m: int, rest: seq<Stmt>)
    requires n > 0 && m > 0 && GoInt(n) && GoInt(m)
    ensures Session(Output([TestPlan(n), TestPlan(m)] + rest), Json)
      == Finished(StatusSuccess, [DuplicatePlanError, MismatchError(n, 0), StatusLine(StatusSuccess)])
  {
    var p := [TestPlan(n), TestPlan(m)] + rest;
    assert p[0] == TestPlan(n) && p[1] == TestPlan(m) && p[1..] == [TestPlan(m)] + rest;
    assert Span(p) >= 2;
    OutputReadsAt(p, 0);
    OutputReadsAt(p, 1);
    DuplicatePlanLines(n, m, Output(p), Json);
  }
}

=== FILE: requirements.dfy ===
/**
 * Test requirements as read from a test's cino.yml (lib/test.go): what wiring a
 * test needs globally and, for each of its sketches, which board (FQBN),
 * architecture and features the device running that sketch must have.
 * An empty FQBN or architecture means "unconstrained"; "*" means "any one".
 */
module Requirements {

  import opened Wrappers
  import StringOrder

  datatype SketchRequirements = SketchRequirements(
    requireFQBN: string,
    requireArchitecture: string,
    requireFeatures: seq<string>)

  datatype TestRequirements = TestRequirements(
    requireWiring: seq<string>,
    sketches: seq<SketchRequirements>)

  /** A job-matrix entry: the requirements as written and those the job uses. */
  datatype TestRequirementsMatrix = TestRequirementsMatrix(
    original: TestRequirements,
    effective: TestRequirements)

  /** One `sketches:` entry of cino.yml. */
  datatype TestSketch = TestSketch(
    dir: string,
    libraries: seq<string>,
    requirements: SketchRequirements)

  /** The parsed cino.yml of a test. */
  datatype TestYml = TestYml(
    requireWiring: seq<string>,
    sketches: seq<TestSketch>)

  const NoRequirements := SketchRequirements("", "", [])

  const MissingDirError := "Missing sketch directory (dir) for multi-sketch test\n"

  function MissingSketchError(dir: string): string
  {
    "Sketch referenced in cino.yml does not exist: " + dir + "\n"
  }

  // ---------------------------------------------------------------------------
  // NewTest: sketch-count normalisation
  // ---------------------------------------------------------------------------

  /**
   * The sketch list `NewTest` keeps for a test. No sketch gives one default
   * sketch in the test's own directory; a single sketch is moved to that
   * directory; with several, each must name a directory, and it must exist
   * (`dirExists` stands for the `os.Stat` probe under the test's path).
   */
  function NormalizeSketches(sketches: seq<TestSketch>, dirExists: string -> bool): (r: Result<seq<TestSketch>>)
    ensures |sketches| == 0 ==> r == Success([TestSketch(".", [], NoRequirements)])
    ensures |sketches| == 1 ==> r == Success([sketches[0].(dir := ".")])
    ensures |sketches| > 1 && r.Success? ==> r.value == sketches
    ensures |sketches| > 1 ==> (r.Success? <==> AllPresent(sketches, dirExists))
    ensures |sketches| > 1 && r.Failure? ==> Some(r.error) == CheckSketchDirs(sketches, dirExists)
  {
    if |sketches| == 0 then Success([TestSketch(".", [], NoRequirements)])
    else if |sketches| == 1 then Success([sketches[0].(dir := ".")])
    else
      match CheckSketchDirs(sketches, dirExists)
      case None => Success(sketches)
      case Some(e) => Failure(e)
  }

  /** Every sketch names a directory that exists. */
  predicate AllPresent(sketches: seq<TestSketch>, dirExists: string -> bool)
  {
    forall k :: 0 <= k < |sketches| ==> sketches[k].dir != "" && dirExists(sketches[k].dir)
  }

  /** The first problem met walking the sketches in order, if any. */
  function CheckSketchDirs(sketches: seq<TestSketch>, dirExists: string -> bool): (r: Option<string>)
    ensures r.None? <==> AllPresent(sketches, dirExists)
    ensures forall k :: 0 <= k < |sketches| && sketches[k].dir == "" && AllPresent(sketches[..k], dirExists) ==>
              r == Some(MissingDirError)
    ensures forall k ::
              0 <= k < |sketches| && sketches[k].dir != "" && !dirExists(sketches[k].dir) && AllPresent(sketches[..k], dirExists)
              ==> r == Some(MissingSketchError(sketches[k].dir))
    decreases |sketches|
  {
    if |sketches| == 0 then None
    else if sketches[0].dir == "" then Some(MissingDirError)
    else if !dirExists(sketches[0].dir) then Some(MissingSketchError(sketches[0].dir))
    else
      var r := CheckSketchDirs(sketches[1..], dirExists);
      assert forall k :: 1 <= k <= |sketches| && AllPresent(sketches[..k], dirExists) ==>
        AllPresent(sketches[1..][..k - 1], dirExists) by {
        forall k | 1 <= k <= |sketches| && AllPresent(sketches[..k], dirExists)
          ensures AllPresent(sketches[1..][..k - 1], dirExists)
        {
          assert sketches[1..][..k - 1] == sketches[..k][1..];
        }
      }
      r
  }

  // ---------------------------------------------------------------------------
  // GetRequirements, Clone
  // ---------------------------------------------------------------------------

  /**
   * The requirements of a test: its global wiring and one entry per sketch,
   * in sketch order, built as `GetRequirements` does by appending each
   * sketch's requirements to an initially empty list.
   */
  function GetRequirements(yml: TestYml): (tr: TestRequirements)
    ensures tr.requireWiring == yml.requireWiring
    ensures |tr.sketches| == |yml.sketches|
    ensures forall k :: 0 <= k < |yml.sketches| ==> tr.sketches[k] == yml.sketches[k].requirements
  {
    TestRequirements(yml.requireWiring, AppendRequirements([], yml.sketches))
  }

  /** The `append` loop: `acc`, then the requirements of each of `sketches` in turn. */
  function AppendRequirements(acc: seq<SketchRequirements>, sketches: seq<TestSketch>): (out: seq<SketchRequirements>)
    ensures |out| == |acc| + |sketches|
    ensures out[..|acc|] == acc
    ensures forall k :: 0 <= k < |sketches| ==> out[|acc| + k] == sketches[k].requirements
    decreases |sketches|
  {
    if |sketches| == 0 then acc
    else
      var next := acc + [sketches[0].requirements];
      var out := AppendRequirements(next, sketches[1..]);
      assert out[..|acc|] == next[..|acc|];
      assert out[|acc|] == next[|acc|];
      out
  }

  /** A field-by-field copy of the requirements (Go copies every slice). */
  function Clone(tr: TestRequirements): (out: TestRequirements)
    ensures out == tr
  {
    var sketches := seq(|tr.sketches|, k requires 0 <= k < |tr.sketches| =>
      SketchRequirements(tr.sketches[k].requireFQBN, tr.sketches[k].requireArchitecture,
                         tr.sketches[k].requireFeatures + []));
    assert forall k :: 0 <= k < |tr.sketches| ==> tr.sketches[k].requireFeatures + [] == tr.sketches[k].requireFeatures;
    assert sketches == tr.sketches;
    assert tr.requireWiring + [] == tr.requireWiring;
    TestRequirements(tr.requireWiring + [], sketches)
  }

  // ---------------------------------------------------------------------------
  // Equals
  // ---------------------------------------------------------------------------

  /** The requirements with wiring and every feature list sorted. */
  function Normalize(tr: TestRequirements): (n: TestRequirements)
    ensures |n.sketches| == |tr.sketches|
  {
    TestRequirements(
      StringOrder.Sort(tr.requireWiring),
      seq(|tr.sketches|, k requires 0 <= k < |tr.sketches| =>
        tr.sketches[k].(requireFeatures := StringOrder.Sort(tr.sketches[k].requireFeatures))))
  }

  /** `TestRequirements.Equals`: sort the lists on both sides, then compare. */
  predicate Equals(a: TestRequirements, b: TestRequirements)
  {
    Normalize(a) == Normalize(b)
  }

  /** Sketch requirements equal up to the order of their features. */
  predicate SameSketch(s: SketchRequirements, t: SketchRequirements)
  {
    && s.requireFQBN == t.requireFQBN
    && s.requireArchitecture == t.requireArchitecture
    && multiset(s.requireFeatures) == multiset(t.requireFeatures)
  }

  /** Reference meaning of `Equals`: same everything, lists compared as multisets. */
  predicate SameUpToOrder(a: TestRequirements, b: TestRequirements)
  {
    && multiset(a.requireWiring) == multiset(b.requireWiring)
    && |a.sketches| == |b.sketches|
    && forall k :: 0 <= k < |a.sketches| ==> SameSketch(a.sketches[k], b.sketches[k])
  }

  /**
   * `Equals` holds exactly when the two requirements agree on sketch count and
   * order, on every FQBN and architecture, and on the multisets of wiring and
   * of each sketch's features.
   */
  lemma EqualsIffSameUpToOrder(a: TestRequirements, b: TestRequirements)
    ensures Equals(a, b) <==> SameUpToOrder(a, b)
  {
    var na, nb := Normalize(a), Normalize(b);
    StringOrder.SortEqualIffSameElements(a.requireWiring, b.requireWiring);
    if Equals(a, b) {
      forall k | 0 <= k < |a.sketches| ensures SameSketch(a.sketches[k], b.sketches[k]) {
        assert na.sketches[k] == nb.sketches[k];
        StringOrder.SortEqualIffSameElements(a.sketches[k].requireFeatures, b.sketches[k].requireFeatures);
      }
    }
    if SameUpToOrder(a, b) {
      forall k | 0 <= k < |a.sketches| ensures na.sketches[k] == nb.sketches[k] {
        StringOrder.SortEqualIffSameElements(a.sketches[k].requireFeatures, b.sketches[k].requireFeatures);
      }
    }
  }

  lemma EqualsReflexive(a: TestRequirements)
    ensures Equals(a, a)
  {
  }

  lemma EqualsSymmetric(a: TestRequirements, b: TestRequirements)
    ensures Equals(a, b) <==> Equals(b, a)
  {
  }

  lemma EqualsTransitive(a: TestRequirements, b: TestRequirements, c: TestRequirements)
    requires Equals(a, b) && Equals(b, c)
    ensures Equals(a, c)
  {
  }

  /** A clone is `Equals` to its original. */
  lemma CloneEquals(tr: TestRequirements)
    ensures Equals(Clone(tr), tr)
  {
  }

  /** Reordering the wiring list and any sketch's feature list keeps `Equals`. */
  lemma EqualsIgnoresOrder(a: TestRequirements, wiring: seq<string>, features: seq<seq<string>>)
    requires multiset(wiring) == multiset(a.requireWiring)
    requires |features| == |a.sketches|
    requires forall k :: 0 <= k < |a.sketches| ==> multiset(features[k]) == multiset(a.sketches[k].requireFeatures)
    ensures Equals(a, TestRequirements(wiring,
      seq(|a.sketches|, k requires 0 <= k < |a.sketches| => a.sketches[k].(requireFeatures := features[k]))))
  {
    var b := TestRequirements(wiring,
      seq(|a.sketches|, k requires 0 <= k < |a.sketches| => a.sketches[k].(requireFeatures := features[k])));
    assert SameUpToOrder(a, b);
    EqualsIffSameUpToOrder(a, b);
  }

  /** A different sketch count or a different wiring multiset breaks `Equals`, whatever the sketches hold. */
  lemma EqualsNeedsSameShape(a: TestRequirements, b: TestRequirements)
    requires |a.sketches| != |b.sketches| || multiset(a.requireWiring) != multiset(b.requireWiring)
    ensures !Equals(a, b)
  {
    EqualsIffSameUpToOrder(a, b);
  }

  /** Any difference in one sketch other than order breaks `Equals`. */
  lemma EqualsStrict(a: TestRequirements, b: TestRequirements, k: nat)
    requires k < |a.sketches| && k < |b.sketches|
    requires
      || |a.sketches| != |b.sketches|
      || a.sketches[k].requireFQBN != b.sketches[k].requireFQBN
      || a.sketches[k].requireArchitecture != b.sketches[k].requireArchitecture
      || multiset(a.sketches[k].requireFeatures) != multiset(b.sketches[k].requireFeatures)
      || multiset(a.requireWiring) != multiset(b.requireWiring)
    ensures !Equals(a, b)
  {
    EqualsIffSameUpToOrder(a, b);
  }
}

=== FILE: results.dfy ===
/**
 * The pure fragments of the results handler in cino-server/server/results.go:
 * how a picked job's status is settled, how it maps onto a GitHub check-run
 * status and conclusion, and the title, summary and text of the check-run
 * output.
 */
module CheckRuns {

  import opened Wrappers
  import opened Requirements
  import opened Jobs
  import Text

  const StatusQueued := "queued"
  const StatusInProgress := "in_progress"
  const StatusCompleted := "completed"

  // ---------------------------------------------------------------------------
  // Settling the status of a picked job
  // ---------------------------------------------------------------------------

  /**
   * A job still queued when picked was skipped by every runner; any other
   * status stays. The status is then recorded as the one reported to GitHub.
   */
  function Settle(j: Job): (p: Job)
    ensures p.status == (if j.status == StatusQueued then StatusSkipped else j.status)
    ensures p.status != StatusQueued
    ensures p.githubStatus == Some(p.status)
    ensures p.runner == j.runner && p.requirements == j.requirements && p.tests == j.tests
  {
    var status := if j.status == StatusQueued then StatusSkipped else j.status;
    j.(status := status, githubStatus := Some(status))
  }

  /** Settling a settled job changes nothing. */
  lemma SettleIdempotent(j: Job)
    ensures Settle(Settle(j)) == Settle(j)
  {
  }

  // ---------------------------------------------------------------------------
  // Check-run status and conclusion
  // ---------------------------------------------------------------------------

  /** The `Status` and `Conclusion` of the check-run update; None leaves them unset. */
  datatype CheckRunState = CheckRunState(status: Option<string>, conclusion: Option<string>)

  /** The job statuses that end a check run. */
  predicate Terminal(status: string)
  {
    status == StatusSuccess || status == StatusFailure || status == StatusSkipped
  }

  /**
   * The check-run state for the status reported to GitHub: a status is sent
   * for in-progress and terminal jobs only, it is one of GitHub's two run
   * statuses, a conclusion comes exactly with "completed" and is a terminal
   * job status, and the job status can be read back from what is sent.
   */
  function StateOf(githubStatus: string): (st: CheckRunState)
    ensures st.status.Some? <==> githubStatus == StatusInProgress || Terminal(githubStatus)
    ensures st.status.Some? ==> st.status.value == StatusInProgress || st.status.value == StatusCompleted
    ensures st.conclusion.Some? <==> st.status == Some(StatusCompleted)
    ensures st.conclusion.Some? ==> Terminal(st.conclusion.value)
    ensures st.status.Some? ==> githubStatus == (if st.conclusion.Some? then st.conclusion.value else StatusInProgress)
  {
    if githubStatus == StatusInProgress then CheckRunState(Some(githubStatus), None)
    else if Terminal(githubStatus) then CheckRunState(Some(StatusCompleted), Some(githubStatus))
    else CheckRunState(None, None)
  }

  /**
   * A conclusion is set exactly when the run is completed, and it is then the
   * job status; a status is set exactly for in-progress and terminal jobs.
   */
  lemma StateShape(githubStatus: string)
    ensures StateOf(githubStatus).conclusion.Some? <==> StateOf(githubStatus).status == Some(StatusCompleted)
    ensures StateOf(githubStatus).conclusion.Some? ==> StateOf(githubStatus).conclusion.value == githubStatus
    ensures StateOf(githubStatus).status.Some? <==> githubStatus == StatusInProgress || Terminal(githubStatus)
  {
  }

  /** Different reportable statuses give different check-run states. */
  lemma StateInjective(a: string, b: string)
    requires StateOf(a).status.Some? && StateOf(a) == StateOf(b)
    ensures a == b
  {
  }

  // ---------------------------------------------------------------------------
  // Output
  // ---------------------------------------------------------------------------

  /** The check-run output: title, summary (Markdown) and optional text. */
  datatype Output = Output(title: string, summary: string, text: Option<string>)

  const NoDeviceTitle := "No suitable device"
  const NoDeviceHeader := "No suitable runners matching the following features:\n\n"
  const PassedTitle := "All tests passed"
  const FailedTitle := "Tests failed"

  /** One line per item: `pre`, the item, `post`. */
  function Lines(pre: string, items: seq<string>, post: string): (text: string)
    decreases |items|
  {
    if |items| == 0 then "" else pre + items[0] + post + Lines(pre, items[1..], post)
  }

  /** A line `caption` + `value` + line break when `present`, nothing otherwise. */
  function FieldLine(present: bool, caption: string, value: string): (line: string)
    ensures present <==> line != ""
    ensures present ==> line[|line| - 1] == '\n'
  {
    if present then caption + value + "\n" else ""
  }

  /** The bullet for the wiring, present only when there is wiring. */
  function WiringBullet(wiring: seq<string>): (text: string)
    ensures |wiring| == 0 <==> text == ""
  {
    FieldLine(|wiring| > 0, "* ", Text.Join(wiring, ", "))
  }

  const DeviceHead := "* Device:\n"

  /** The "* Device:" line of a sketch and a sub-bullet per non-empty field. */
  function DeviceBlock(s: SketchRequirements): (block: string)
    ensures Text.StartsWith(block, DeviceHead)
  {
    var arch := FieldLine(s.requireArchitecture != "", "   * Architecture: ", s.requireArchitecture);
    var board := FieldLine(s.requireFQBN != "", "   * Board: ", s.requireFQBN);
    var features := FieldLine(|s.requireFeatures| > 0, "   * Features: ", Text.Join(s.requireFeatures, ", "));
    assert (DeviceHead + (arch + board + features))[..|DeviceHead|] == DeviceHead;
    DeviceHead + (arch + board + features)
  }

  function DeviceBlocks(sketches: seq<SketchRequirements>): string
    decreases |sketches|
  {
    if |sketches| == 0 then "" else DeviceBlock(sketches[0]) + DeviceBlocks(sketches[1..])
  }

  /** The summary of a job no runner could take. */
  function SkippedSummary(tr: TestRequirements): (summary: string)
    ensures Text.StartsWith(summary, NoDeviceHeader)
  {
    var rest := WiringBullet(tr.requireWiring) + DeviceBlocks(tr.sketches);
    assert (NoDeviceHeader + rest)[..|NoDeviceHeader|] == NoDeviceHeader;
    NoDeviceHeader + rest
  }

  /** The summary of a job whose tests ran on the boards of `runner`. */
  function ResultsSummary(tests: seq<TestRun>, runner: string, fqbns: seq<string>): (summary: string)
    ensures Text.StartsWith(summary, Text.NatToDecimal(|tests|) + " test(s) were run:\n\n")
  {
    var head := Text.NatToDecimal(|tests|) + " test(s) were run:\n\n";
    var testLines := Lines("* `", seq(|tests|, i requires 0 <= i < |tests| => tests[i].relPath), "`\n");
    var middle := "\n" + "using the following board(s) attached to **" + runner + "**:\n" + "\n";
    var boardLines := Lines("* ", fqbns, "\n");
    assert (head + testLines + middle + boardLines)[..|head|] == head;
    head + testLines + middle + boardLines
  }

  /**
   * The output of the check-run update for a settled job: for a skipped job
   * the missing-device report; for a job with tests the results; none
   * otherwise. The runner is read only in the second case (the source
   * dereferences it there).
   */
  function OutputOf(j: Job): (o: Option<Output>)
    requires j.status != StatusSkipped && |j.tests| > 0 ==> j.runner.Some?
    ensures j.status == StatusSkipped ==>
      && o.Some?
      && o.value.title == NoDeviceTitle
      && o.value.summary == SkippedSummary(j.requirements.effective)
      && Text.StartsWith(o.value.summary, NoDeviceHeader)
      && o.value.text.None?
    ensures j.status != StatusSkipped && |j.tests| > 0 ==>
      && o.Some?
      && (o.value.title == PassedTitle <==> j.status == StatusSuccess)
      && (o.value.title == FailedTitle <==> j.status != StatusSuccess)
      && o.value.summary == ResultsSummary(j.tests, j.runner.value, DeviceFQBNs(j))
      && o.value.text == Some(Report(j.tests))
    ensures j.status != StatusSkipped && |j.tests| == 0 ==> o.None?
  {
    if j.status == StatusSkipped then
      Some(Output(NoDeviceTitle, SkippedSummary(j.requirements.effective), None))
    else if |j.tests| > 0 then
      var title := if j.status == StatusSuccess then PassedTitle else FailedTitle;
      Some(Output(title, ResultsSummary(j.tests, j.runner.value, DeviceFQBNs(j)), Some(Report(j.tests))))
    else None
  }

  // ---------------------------------------------------------------------------
  // Line counts of the summaries
  // ---------------------------------------------------------------------------

  /** The number of line breaks in `s`. */
  function NewlineCount(s: string): nat
    decreases |s|
  {
    if |s| == 0 then 0 else (if s[0] == '\n' then 1 else 0) + NewlineCount(s[1..])
  }

  lemma {:induction false} NewlineCountAppend(a: string, b: string)
    ensures NewlineCount(a + b) == NewlineCount(a) + NewlineCount(b)
    decreases |a|
  {
    if |a| > 0 {
      assert (a + b)[0] == a[0] && (a + b)[1..] == a[1..] + b;
      NewlineCountAppend(a[1..], b);
    } else {
      assert a + b == b;
    }
  }

  /** Counting over four consecutive pieces. */
  lemma NewlineCountAppend4(a: string, b: string, c: string, d: string)
    ensures NewlineCount(a + b + c + d) == NewlineCount(a) + NewlineCount(b) + NewlineCount(c) + NewlineCount(d)
  {
    NewlineCountAppend(a, b);
    NewlineCountAppend(a + b, c);
    NewlineCountAppend(a + b + c, d);
  }

  lemma {:induction false} NewlineCountAbsent(s: string)
    requires '\n' !in s
    ensures NewlineCount(s) == 0
    decreases |s|
  {
    if |s| > 0 {
      assert forall k :: 0 <= k < |s| - 1 ==> s[1..][k] == s[k + 1];
      NewlineCountAbsent(s[1..]);
    }
  }

  /** A line-break-free text followed by a line break is one line. */
  lemma OneLine(x: string)
    requires '\n' !in x
    ensures NewlineCount(x + "\n") == 1
  {
    NewlineCountAppend(x, "\n");
    NewlineCountAbsent(x);
  }

  function Indicator(b: bool): nat
  {
    if b then 1 else 0
  }

  /** How many lines a sketch gets: its "* Device:" line and one per non-empty field. */
  function SketchLineCount(s: SketchRequirements): nat
  {
    1 + Indicator(s.requireArchitecture != "") + Indicator(s.requireFQBN != "") + Indicator(|s.requireFeatures| > 0)
  }

  function SketchesLineCount(sketches: seq<SketchRequirements>): nat
    decreases |sketches|
  {
    if |sketches| == 0 then 0 else SketchLineCount(sketches[0]) + SketchesLineCount(sketches[1..])
  }

  /** Reference: the header's two lines, the wiring line if any, the sketches' lines. */
  function SkippedLineCount(tr: TestRequirements): nat
  {
    2 + Indicator(|tr.requireWiring| > 0) + SketchesLineCount(tr.sketches)
  }

  lemma {:induction false} LinesCount(pre: string, items: seq<string>, post: string)
    requires forall k :: 0 <= k < |items| ==> '\n' !in items[k]
    ensures NewlineCount(Lines(pre, items, post)) == |items| * (NewlineCount(pre) + NewlineCount(post))
    decreases |items|
  {
    if |items| > 0 {
      var n := NewlineCount(pre) + NewlineCount(post);
      var line := pre + items[0] + post;
      var rest := Lines(pre, items[1..], post);
      LinesCount(pre, items[1..], post);
      assert NewlineCount(line) == n by {
        NewlineCountAbsent(items[0]);
        NewlineCountAppend(pre, items[0]);
        NewlineCountAppend(pre + items[0], post);
      }
      NewlineCountAppend(line, rest);
      assert |items| * n == n + (|items| - 1) * n;
    }
  }

  /** A labelled line `label` + `value` + line break, for a line-break-free value. */
  lemma LabelLine(caption: string, value: string)
    requires '\n' !in caption && '\n' !in value
    ensures NewlineCount(caption + value + "\n") == 1
  {
    OneLine(caption + value);
  }

  /** The fixed texts are line-break free (checked in short pieces). */
  lemma FixedTextsPlain()
    ensures '\n' !in "* Device:"
    ensures '\n' !in "   * Architecture: " && '\n' !in "   * Board: " && '\n' !in "   * Features: "
    ensures '\n' !in "* " && '\n' !in "* `" && '\n' !in "`" && '\n' !in "**:"
    ensures '\n' !in " test(s) were run:"
  {
  }

  lemma ChunksPlain()
    ensures '\n' !in "No suitable runners " && '\n' !in "matching the " && '\n' !in "following features:"
    ensures '\n' !in "using the " && '\n' !in "following board(s) " && '\n' !in "attached to **"
  {
  }

  lemma HeaderChunks()
    ensures "No suitable runners " + "matching the " + "following features:"
         == "No suitable runners matching the following features:"
  {
  }

  lemma UsingChunks()
    ensures "using the " + "following board(s) " + "attached to **" == "using the following board(s) attached to **"
  {
  }

  lemma HeaderPlain()
    ensures '\n' !in "No suitable runners matching the following features:"
  {
    ChunksPlain();
    HeaderChunks();
  }

  lemma UsingPlain()
    ensures '\n' !in "using the following board(s) attached to **"
  {
    ChunksPlain();
    UsingChunks();
  }

  /** A line for a field: present (one line) exactly when the field is set. */
  lemma FieldLineCount(present: bool, caption: string, value: string)
    requires '\n' !in caption && '\n' !in value
    ensures NewlineCount(FieldLine(present, caption, value)) == Indicator(present)
  {
    if present {
      LabelLine(caption, value);
    } else {
      assert FieldLine(present, caption, value) == "";
    }
  }

  /** Whatever follows the "* Device:" line, that line adds one. */
  lemma DeviceHeadPrefixCount(rest: string)
    ensures NewlineCount(DeviceHead + rest) == 1 + NewlineCount(rest)
  {
    assert NewlineCount(DeviceHead) == 1 by {
      assert '\n' !in "* Device:" by { FixedTextsPlain(); }
      assert DeviceHead == "* Device:" + "\n";
      OneLine("* Device:");
    }
    NewlineCountAppend(DeviceHead, rest);
  }

  /** The three optional sub-bullets of a device block, one line each when present. */
  lemma DeviceFieldsCount(s: SketchRequirements)
    requires '\n' !in s.requireFQBN && '\n' !in s.requireArchitecture
    requires forall k :: 0 <= k < |s.requireFeatures| ==> '\n' !in s.requireFeatures[k]
    ensures NewlineCount(FieldLine(s.requireArchitecture != "", "   * Architecture: ", s.requireArchitecture))
            == Indicator(s.requireArchitecture != "")
    ensures NewlineCount(FieldLine(s.requireFQBN != "", "   * Board: ", s.requireFQBN)) == Indicator(s.requireFQBN != "")
    ensures NewlineCount(FieldLine(|s.requireFeatures| > 0, "   * Features: ", Text.Join(s.requireFeatures, ", ")))
            == Indicator(|s.requireFeatures| > 0)
  {
    FixedTextsPlain();
    Text.JoinAvoids(s.requireFeatures, ", ", '\n');
    FieldLineCount(s.requireArchitecture != "", "   * Architecture: ", s.requireArchitecture);
    FieldLineCount(s.requireFQBN != "", "   * Board: ", s.requireFQBN);
    FieldLineCount(|s.requireFeatures| > 0, "   * Features: ", Text.Join(s.requireFeatures, ", "));
  }

  lemma DeviceBlockCount(s: SketchRequirements)
    requires '\n' !in s.requireFQBN && '\n' !in s.requireArchitecture
    requires forall k :: 0 <= k < |s.requireFeatures| ==> '\n' !in s.requireFeatures[k]
    ensures NewlineCount(DeviceBlock(s)) == SketchLineCount(s)
  {
    var arch := FieldLine(s.requireArchitecture != "", "   * Architecture: ", s.requireArchitecture);
    var board := FieldLine(s.requireFQBN != "", "   * Board: ", s.requireFQBN);
    var features := FieldLine(|s.requireFeatures| > 0, "   * Features: ", Text.Join(s.requireFeatures, ", "));
    assert DeviceBlock(s) == DeviceHead + (arch + board + features);
    DeviceFieldsCount(s);
    NewlineCountAppend(arch, board);
    NewlineCountAppend(arch + board, features);
    DeviceHeadPrefixCount(arch + board + features);
  }

  lemma {:induction false} DeviceBlocksCount(sketches: seq<SketchRequirements>)
    requires forall i :: 0 <= i < |sketches| ==>
      && '\n' !in sketches[i].requireFQBN
      && '\n' !in sketches[i].requireArchitecture
      && forall k :: 0 <= k < |sketches[i].requireFeatures| ==> '\n' !in sketches[i].requireFeatures[k]
    ensures NewlineCount(DeviceBlocks(sketches)) == SketchesLineCount(sketches)
    decreases |sketches|
  {
    if |sketches| > 0 {
      DeviceBlockCount(sketches[0]);
      DeviceBlocksCount(sketches[1..]);
      NewlineCountAppend(DeviceBlock(sketches[0]), DeviceBlocks(sketches[1..]));
    }
  }

  lemma HeaderCount()
    ensures NewlineCount(NoDeviceHeader) == 2
  {
    var line := "No suitable runners matching the following features:";
    assert '\n' !in line by { HeaderPlain(); }
    assert NoDeviceHeader == line + "\n\n";
    TwoBreaks(line);
  }

  /** Whatever follows the header, the header adds its two lines. */
  lemma HeaderPrefixCount(rest: string)
    ensures NewlineCount(NoDeviceHeader + rest) == 2 + NewlineCount(rest)
  {
    HeaderCount();
    NewlineCountAppend(NoDeviceHeader, rest);
  }

  /** A line-break-free text followed by two line breaks: a line and an empty line. */
  lemma TwoBreaks(x: string)
    requires '\n' !in x
    ensures NewlineCount(x + "\n\n") == 2
  {
    assert NewlineCount("\n") == 1 by {
      OneLine("");
      assert "" + "\n" == "\n";
    }
    assert x + "\n\n" == (x + "\n") + "\n";
    OneLine(x);
    NewlineCountAppend(x + "\n", "\n");
  }

  lemma WiringBulletCount(wiring: seq<string>)
    requires forall k :: 0 <= k < |wiring| ==> '\n' !in wiring[k]
    ensures NewlineCount(WiringBullet(wiring)) == Indicator(|wiring| > 0)
  {
    FixedTextsPlain();
    Text.JoinAvoids(wiring, ", ", '\n');
    FieldLineCount(|wiring| > 0, "* ", Text.Join(wiring, ", "));
  }

  /**
   * When no name contains a line break, the skipped summary has the two
   * header lines, a wiring line exactly when there is wiring, and per sketch
   * one "* Device:" line plus one line per non-empty field.
   */
  lemma SkippedSummaryLines(tr: TestRequirements)
    requires Avoids(tr, '\n')
    ensures NewlineCount(SkippedSummary(tr)) == SkippedLineCount(tr)
  {
    var wiring := WiringBullet(tr.requireWiring);
    var blocks := DeviceBlocks(tr.sketches);
    assert SkippedSummary(tr) == NoDeviceHeader + (wiring + blocks);
    assert NewlineCount(wiring) == Indicator(|tr.requireWiring| > 0) by { WiringBulletCount(tr.requireWiring); }
    assert NewlineCount(blocks) == SketchesLineCount(tr.sketches) by { DeviceBlocksCount(tr.sketches); }
    NewlineCountAppend(wiring, blocks);
    HeaderPrefixCount(wiring + blocks);
  }

  lemma ResultsHeadCount(n: nat)
    ensures NewlineCount(Text.NatToDecimal(n) + " test(s) were run:\n\n") == 2
  {
    var digits := Text.NatToDecimal(n);
    var caption := " test(s) were run:";
    assert '\n' !in digits by {
      assert forall k :: 0 <= k < |digits| ==> Text.IsDigit(digits[k]);
    }
    assert '\n' !in caption by { FixedTextsPlain(); }
    assert digits + " test(s) were run:\n\n" == (digits + caption) + "\n\n";
    TwoBreaks(digits + caption);
  }

  lemma Regroup<T>(nl: seq<T>, a: seq<T>, b: seq<T>, c: seq<T>)
    ensures nl + a + b + (c + nl) + nl == (nl + ((a + b + c) + nl)) + nl
  {
  }

  /** A line framed by empty lines: three line breaks. */
  lemma FramedLine(caption: string, runner: string, close: string)
    requires '\n' !in caption && '\n' !in runner && '\n' !in close
    ensures NewlineCount("\n" + caption + runner + (close + "\n") + "\n") == 3
  {
    var line := caption + runner + close;
    assert NewlineCount(line + "\n") == 1 by { OneLine(line); }
    assert NewlineCount("\n") == 1 by {
      OneLine("");
      assert "" + "\n" == "\n";
    }
    Regroup("\n", caption, runner, close);
    NewlineCountAppend("\n", line + "\n");
    NewlineCountAppend("\n" + (line + "\n"), "\n");
  }

  lemma ResultsMiddleCount(runner: string)
    requires '\n' !in runner
    ensures NewlineCount("\n" + "using the following board(s) attached to **" + runner + "**:\n" + "\n") == 3
  {
    assert '\n' !in "using the following board(s) attached to **" by { UsingPlain(); }
    assert '\n' !in "**:" by { FixedTextsPlain(); }
    assert "**:" + "\n" == "**:\n";
    FramedLine("using the following board(s) attached to **", runner, "**:");
  }

  lemma ItemLinesCount(pre: string, items: seq<string>, post: string)
    requires '\n' !in pre && '\n' !in post
    requires forall k :: 0 <= k < |items| ==> '\n' !in items[k]
    ensures NewlineCount(Lines(pre, items, post + "\n")) == |items|
  {
    NewlineCountAbsent(pre);
    OneLine(post);
    LinesCount(pre, items, post + "\n");
  }

  /**
   * When no path, runner or board name contains a line break, the results
   * summary has five fixed lines, one per test and one per board.
   */
  lemma ResultsSummaryLines(tests: seq<TestRun>, runner: string, fqbns: seq<string>)
    requires forall i :: 0 <= i < |tests| ==> '\n' !in tests[i].relPath
    requires '\n' !in runner
    requires forall k :: 0 <= k < |fqbns| ==> '\n' !in fqbns[k]
    ensures NewlineCount(ResultsSummary(tests, runner, fqbns)) == 5 + |tests| + |fqbns|
  {
    var paths := seq(|tests|, i requires 0 <= i < |tests| => tests[i].relPath);
    var head := Text.NatToDecimal(|tests|) + " test(s) were run:\n\n";
    var testLines := Lines("* `", paths, "`\n");
    var middle := "\n" + "using the following board(s) attached to **" + runner + "**:\n" + "\n";
    var boardLines := Lines("* ", fqbns, "\n");
    assert ResultsSummary(tests, runner, fqbns) == head + testLines + middle + boardLines;
    assert NewlineCount(head) == 2 by { ResultsHeadCount(|tests|); }
    assert NewlineCount(middle) == 3 by { ResultsMiddleCount(runner); }
    assert NewlineCount(testLines) == |tests| by {
      assert '\n' !in "* `" && '\n' !in "`" by { FixedTextsPlain(); }
      assert "`" + "\n" == "`\n";
      ItemLinesCount("* `", paths, "`");
    }
    assert NewlineCount(boardLines) == |fqbns| by {
      assert '\n' !in "* " by { FixedTextsPlain(); }
      assert "" + "\n" == "\n";
      ItemLinesCount("* ", fqbns, "");
    }
    NewlineCountAppend4(head, testLines, middle, boardLines);
  }
}

=== FILE: runner.dfy ===
/**
 * The runner side of a hardware test in cino-runner/runner/run.go: the
 * device-count guard, the per-sketch prefixing of log lines, and the loop
 * that reads one board's serial output, counts planned, run and failed
 * tests, and settles the test status. The lines are taken as already read
 * (up to end of input or timeout), and JSON decoding is a parameter.
 */
module Runner {

  import opened Wrappers
  import Text

  /** `testMsg`: one decoded line; absent JSON fields are zero. */
  datatype TestMsg = TestMsg(plan: int, result: bool, expr: string, file: string, line: int, fatal: bool, done: bool)

  const StatusSuccess := "success"
  const StatusFailure := "failure"

  // ---------------------------------------------------------------------------
  // The device-count guard
  // ---------------------------------------------------------------------------

  const CountErrorStart := "number of assigned devices ("
  const CountErrorMiddle := " does not match the number of sketches defined in test ("

  /** The error `RunTest` returns, before doing anything, on a count mismatch. */
  function CheckDeviceCount(devices: nat, sketches: nat): (err: Option<string>)
    ensures err.None? <==> devices == sketches
    ensures err.Some? ==> Text.StartsWith(err.value, CountErrorStart + Text.NatToDecimal(devices) + ")")
  {
    if devices != sketches then
      var head := CountErrorStart + Text.NatToDecimal(devices) + ")";
      var msg := head + CountErrorMiddle + Text.NatToDecimal(sketches) + ")";
      assert msg[..|head|] == head;
      Some(msg)
    else None
  }

  /** The number of leading digits of `s`. */
  function DigitPrefixLength(s: string): (n: nat)
    ensures n <= |s|
    decreases |s|
  {
    if |s| == 0 || !Text.IsDigit(s[0]) then 0 else 1 + DigitPrefixLength(s[1..])
  }

  /** A numeral followed by a non-digit is exactly the leading digits. */
  lemma {:induction false} DigitPrefixOfNumeral(d: string, rest: string)
    requires forall k :: 0 <= k < |d| ==> Text.IsDigit(d[k])
    requires |rest| > 0 && !Text.IsDigit(rest[0])
    ensures DigitPrefixLength(d + rest) == |d|
    decreases |d|
  {
    if |d| == 0 {
      assert d + rest == rest;
    } else {
      assert (d + rest)[0] == d[0] && (d + rest)[1..] == d[1..] + rest;
      DigitPrefixOfNumeral(d[1..], rest);
    }
  }

  /** Equal strings that start with a numeral and a non-digit share the numeral. */
  lemma LeadingNumeral(d1: string, r1: string, d2: string, r2: string)
    requires forall k :: 0 <= k < |d1| ==> Text.IsDigit(d1[k])
    requires forall k :: 0 <= k < |d2| ==> Text.IsDigit(d2[k])
    requires |r1| > 0 && !Text.IsDigit(r1[0]) && |r2| > 0 && !Text.IsDigit(r2[0])
    requires d1 + r1 == d2 + r2
    ensures d1 == d2 && r1 == r2
  {
    DigitPrefixOfNumeral(d1, r1);
    DigitPrefixOfNumeral(d2, r2);
    assert d1 == (d1 + r1)[..|d1|] && d2 == (d2 + r2)[..|d2|];
    assert r1 == (d1 + r1)[|d1|..] && r2 == (d2 + r2)[|d2|..];
  }

  lemma NatToDecimalInjective(m: nat, n: nat)
    requires Text.NatToDecimal(m) == Text.NatToDecimal(n)
    ensures m == n
  {
    Text.NatDecimalRoundTrip(m);
    Text.NatDecimalRoundTrip(n);
  }

  /** Two numerals in a fixed frame are read back from the framed text. */
  lemma FramedNumerals(start: string, mid: string, a1: string, b1: string, a2: string, b2: string)
    requires forall k :: 0 <= k < |a1| ==> Text.IsDigit(a1[k])
    requires forall k :: 0 <= k < |a2| ==> Text.IsDigit(a2[k])
    requires start + a1 + ")" + mid + b1 + ")" == start + a2 + ")" + mid + b2 + ")"
    ensures a1 == a2 && b1 == b2
  {
    var x1, x2 := ")" + mid + b1 + ")", ")" + mid + b2 + ")";
    var e1, e2 := start + a1 + ")" + mid + b1 + ")", start + a2 + ")" + mid + b2 + ")";
    assert e1 == start + (a1 + x1) && e2 == start + (a2 + x2);
    assert e1[|start|..] == a1 + x1;
    assert e2[|start|..] == a2 + x2;
    assert x1[0] == ')' && x2[0] == ')';
    LeadingNumeral(a1, x1, a2, x2);
    var c1, c2 := b1 + ")", b2 + ")";
    assert x1[1 + |mid|..] == c1 && x2[1 + |mid|..] == c2;
    assert b1 == c1[..|c1| - 1] && b2 == c2[..|c2| - 1];
  }

  /** The error names both counts: different counts give different messages. */
  lemma CountErrorInjective(d1: nat, s1: nat, d2: nat, s2: nat)
    requires d1 != s1 && d2 != s2
    requires CheckDeviceCount(d1, s1) == CheckDeviceCount(d2, s2)
    ensures d1 == d2 && s1 == s2
  {
    FramedNumerals(CountErrorStart, CountErrorMiddle,
      Text.NatToDecimal(d1), Text.NatToDecimal(s1), Text.NatToDecimal(d2), Text.NatToDecimal(s2));
    NatToDecimalInjective(d1, d2);
    NatToDecimalInjective(s1, s2);
  }

  // ---------------------------------------------------------------------------
  // appendOutput
  // ---------------------------------------------------------------------------

  /**
   * A log line as `appendOutput` records it: tagged with the sketch directory
   * when the test has several sketches and the line belongs to one of them
   * (index -1 is the test as a whole).
   */
  function Tagged(dirs: seq<string>, idx: int, s: string): (out: string)
    requires -1 <= idx < |dirs|
    ensures |out| >= |s| && out[|out| - |s|..] == s
    ensures out == s <==> !(|dirs| > 1 && idx >= 0)
  {
    if |dirs| > 1 && idx > -1 then
      var tag := "[" + dirs[idx] + "] ";
      assert (tag + s)[|tag|..] == s;
      tag + s
    else s
  }

  /** Reads the tag back: the directory and the line, when the text starts with "[". */
  function Untag(out: string): Option<(string, string)>
  {
    if |out| > 0 && out[0] == '[' then
      var i := Text.IndexOf(out, ']');
      if i > 0 && i + 1 < |out| && out[i + 1] == ' ' then Some((out[1..i], out[i + 2..])) else None
    else None
  }

  /** A tag around a directory without "]" is read back exactly. */
  lemma UntagTagged(dirs: seq<string>, idx: int, s: string)
    requires 0 <= idx < |dirs| && |dirs| > 1
    requires ']' !in dirs[idx]
    ensures Untag(Tagged(dirs, idx, s)) == Some((dirs[idx], s))
  {
    var d := dirs[idx];
    var out := "[" + d + "] " + s;
    assert out == "[" + d + ("] " + s);
    assert ']' !in "[" + d;
    Text.IndexAfterFree("[" + d, "] " + s, ']');
    assert out[1..|d| + 1] == d;
    assert out[|d| + 3..] == s;
  }

  // ---------------------------------------------------------------------------
  // The message loop
  // ---------------------------------------------------------------------------

  const DuplicatePlanError := "Error: duplicate TEST_PLAN() directive\n"
  const NoPlanError := "Error: no test plan declared\n"

  /** The PASS/FAIL line logged for a result. */
  function ResultLine(m: TestMsg): string
  {
    (if m.result then "PASS: " else "FAIL: ") + m.file + ":" + Text.IntToDecimal(m.line) + ": " + m.expr + "\n"
  }

  /** The loop variables: plan declared, planned count (-1 if none), run and failed counts, log. */
  datatype Reader = Reader(declared: bool, planned: int, total: nat, failed: nat, log: seq<string>)

  const Initial := Reader(false, -1, 0, 0, [])

  /** How reading ended: input exhausted, `break`, or an error sent to `errs`. */
  datatype Halt = Exhausted | Stopped | Broken(err: string)

  /** The invariant the loop keeps between its variables. */
  predicate Consistent(r: Reader)
  {
    && r.failed <= r.total
    && (r.declared <==> r.planned != -1)
    && (r.declared ==> r.planned > 0)
    && (!r.declared ==> r.total == 0)
  }

  /**
   * One decoded message: a positive plan declares (a second one is an error
   * that stops); a result before any plan is an error that stops, after one
   * it is counted and logged; then `done` or `fatal` stop. Returns the new
   * state and whether the loop stops.
   */
  function Step(r: Reader, m: TestMsg): (res: (Reader, bool))
    ensures Consistent(r) ==> Consistent(res.0)
    ensures res.0.total == r.total + (if r.declared && m.plan <= 0 && m.expr != "" then 1 else 0)
    ensures res.0.failed == r.failed + (if r.declared && m.plan <= 0 && m.expr != "" && !m.result then 1 else 0)
    ensures m.done || m.fatal ==> res.1
    ensures res.1 <==> m.done || m.fatal || (m.plan > 0 && r.declared) || (m.plan <= 0 && m.expr != "" && !r.declared)
  {
    if m.plan > 0 then
      if r.declared then (r.(log := r.log + [DuplicatePlanError]), true)
      else (r.(declared := true, planned := m.plan), m.done || m.fatal)
    else if m.expr != "" then
      if !r.declared then (r.(log := r.log + [NoPlanError]), true)
      else
        var failed := if m.result then r.failed else r.failed + 1;
        (r.(total := r.total + 1, failed := failed, log := r.log + [ResultLine(m)]), m.done || m.fatal)
    else (r, m.done || m.fatal)
  }

  /** A line the loop looks at: one starting with "{". */
  predicate IsJsonLine(line: string)
  {
    |line| > 0 && line[0] == '{'
  }

  /** The loop from state `r` over the remaining lines. */
  function Consume(r: Reader, lines: seq<string>, decode: string -> Result<TestMsg>): (res: (Reader, Halt))
    ensures Consistent(r) ==> Consistent(res.0)
    ensures res.0.total >= r.total && res.0.failed >= r.failed
    decreases |lines|
  {
    if |lines| == 0 then (r, Exhausted)
    else if !IsJsonLine(lines[0]) then Consume(r, lines[1..], decode)
    else match decode(lines[0])
      case Failure(e) => (r, Broken(e))
      case Success(m) =>
        var (next, stop) := Step(r, m);
        if stop then (next, Stopped) else Consume(next, lines[1..], decode)
  }

  /** What reading one board yields: an error, or the status and the log. */
  datatype Outcome = Errored(err: string) | Finished(status: string, log: seq<string>)

  function MismatchError(planned: int, total: nat): string
  {
    "Error: expected " + Text.IntToDecimal(planned) + " tests but run " + Text.NatToDecimal(total) + "\n"
  }

  /** The last log line of a session. */
  function StatusLine(status: string): string
  {
    "Test result: " + status + "\n"
  }

  /** After the loop: the count check, the status and its log line. */
  function Finish(r: Reader): (o: Outcome)
    requires Consistent(r)
    ensures o.Finished?
    ensures o.status == StatusFailure <==> r.failed > 0
    ensures o.status == StatusSuccess <==> r.failed == 0
    ensures |o.log| == |r.log| + 1 + (if r.declared && r.planned != r.total then 1 else 0)
    ensures o.log[..|r.log|] == r.log
    ensures r.declared && r.planned != r.total ==> o.log[|r.log|] == MismatchError(r.planned, r.total)
    ensures o.log[|o.log| - 1] == StatusLine(o.status)
  {
    var mismatch := if r.planned != -1 && r.planned != r.total then [MismatchError(r.planned, r.total)] else [];
    var status := if r.failed > 0 then StatusFailure else StatusSuccess;
    Finished(status, r.log + mismatch + [StatusLine(status)])
  }

  /** One board's session: the loop from the initial state, then `Finish`. */
  function Session(lines: seq<string>, decode: string -> Result<TestMsg>): (o: Outcome)
  {
    var (r, halt) := Consume(Initial, lines, decode);
    if halt.Broken? then Errored(halt.err) else Finish(r)
  }

  /** The loop as run.go writes it. */
  method ReadSession(lines: seq<string>, decode: string -> Result<TestMsg>) returns (o: Outcome)
    ensures o == Session(lines, decode)
    ensures o.Finished? ==> (o.status == StatusFailure <==> Consume(Initial, lines, decode).0.failed > 0)
  {
    var declared, planned, total, failed, log := false, -1, 0, 0, [];
    var k := 0;
    var stopped := false;
    while k < |lines| && !stopped
      invariant 0 <= k <= |lines|
      invariant Consistent(Reader(declared, planned, total, failed, log))
      invariant !stopped ==>
        Consume(Reader(declared, planned, total, failed, log), lines[k..], decode) == Consume(Initial, lines, decode)
      invariant stopped ==> Consume(Initial, lines, decode) == (Reader(declared, planned, total, failed, log), Stopped)
      decreases |lines| - k, if stopped then 0 else 1
    {
      var line := lines[k];
      assert lines[k..][0] == line && lines[k..][1..] == lines[k + 1..];
      k := k + 1;
      if |line| == 0 || line[0] != '{' {
        continue;
      }
      var msg: TestMsg;
      match decode(line) {
        case Failure(e) =>
          return Errored(e);
        case Success(m) =>
          msg := m;
      }
      if msg.plan > 0 {
        if declared {
          log := log + [DuplicatePlanError];
          stopped := true;
          continue;
        }
        declared := true;
        planned := msg.plan;
      } else if msg.expr != "" {
        if !declared {
          log := log + [NoPlanError];
          stopped := true;
          continue;
        }
        total := total + 1;
        log := log + [ResultLine(msg)];
        if !msg.result {
          failed := failed + 1;
        }
      }
      if msg.done || msg.fatal {
        stopped := true;
      }
    }
    if k == |lines| && !stopped {
      assert lines[k..] == [];
    }
    var mismatch := if planned != -1 && planned != total then [MismatchError(planned, total)] else [];
    var status := if failed > 0 then StatusFailure else StatusSuccess;
    o := Finished(status, log + mismatch + [StatusLine(status)]);
  }

  // ---------------------------------------------------------------------------
  // Properties of the loop
  // ---------------------------------------------------------------------------

  /** The lines the loop looks at, in order. */
  function JsonLines(lines: seq<string>): (json: seq<string>)
    ensures forall k :: 0 <= k < |json| ==> IsJsonLine(json[k])
    ensures |json| <= |lines|
    decreases |lines|
  {
    if |lines| == 0 then []
    else if IsJsonLine(lines[0]) then [lines[0]] + JsonLines(lines[1..])
    else JsonLines(lines[1..])
  }

  /** Lines that do not start with "{" make no difference. */
  lemma {:induction false} NoiseIgnored(r: Reader, lines: seq<string>, decode: string -> Result<TestMsg>)
    ensures Consume(r, JsonLines(lines), decode) == Consume(r, lines, decode)
    decreases |lines|
  {
    if |lines| > 0 {
      var json := JsonLines(lines);
      if IsJsonLine(lines[0]) {
        assert json[0] == lines[0] && json[1..] == JsonLines(lines[1..]);
        match decode(lines[0])
        case Failure(_) =>
        case Success(m) =>
          NoiseIgnored(Step(r, m).0, lines[1..], decode);
      } else {
        NoiseIgnored(r, lines[1..], decode);
      }
    }
  }

  /**
   * Reading is compositional: once the loop has stopped nothing later is
   * read; otherwise it carries on from where the first part left it.
   */
  lemma {:induction false} ConsumeAppend(r: Reader, a: seq<string>, b: seq<string>, decode: string -> Result<TestMsg>)
    ensures Consume(r, a, decode).1 != Exhausted ==> Consume(r, a + b, decode) == Consume(r, a, decode)
    ensures Consume(r, a, decode).1 == Exhausted ==> Consume(r, a + b, decode) == Consume(Consume(r, a, decode).0, b, decode)
    decreases |a|
  {
    if |a| == 0 {
      assert a + b == b;
    } else {
      assert (a + b)[0] == a[0] && (a + b)[1..] == a[1..] + b;
      if !IsJsonLine(a[0]) {
        ConsumeAppend(r, a[1..], b, decode);
      } else {
        match decode(a[0])
        case Failure(_) =>
        case Success(m) =>
          ConsumeAppend(Step(r, m).0, a[1..], b, decode);
      }
    }
  }

  /** A line decoding to a `done` or `fatal` message ends reading: what follows is never read. */
  lemma StopsAtDoneOrFatal(r: Reader, line: string, rest: seq<string>, decode: string -> Result<TestMsg>)
    requires IsJsonLine(line) && decode(line).Success?
    requires decode(line).value.done || decode(line).value.fatal
    ensures Consume(r, [line] + rest, decode) == (Step(r, decode(line).value).0, Stopped)
  {
    assert ([line] + rest)[0] == line;
  }

}

=== FILE: scanner.dfy ===
/**
 * Job-matrix expansion and deduplication of cino-server/server/scanner.go.
 * A library is tested once per architecture tuple, a core once per board
 * tuple: every test is repeated for every assignment of values to its
 * sketches, filling in only the sketches that left that field empty. Entries
 * that end up with `Equals` effective requirements are then merged.
 */
module Scanner {

  import opened Requirements
  import opened Permutations
  import Classes
  import Text

  // ---------------------------------------------------------------------------
  // getBoardsFromCore: the `^([^.]+)\.name$` key filter
  // ---------------------------------------------------------------------------

  const NameSuffix := ".name"

  /** `key` is `X.name` for a non-empty, dot-free board id X. */
  predicate IsBoardNameKey(key: string)
  {
    |key| > |NameSuffix| && key[|key| - |NameSuffix|..] == NameSuffix && '.' !in key[..|key| - |NameSuffix|]
  }

  /** The board ids of the `X.name` keys of boards.txt, in key order. */
  function BoardsFromKeys(keys: seq<string>): (boards: seq<string>)
    ensures |boards| <= |keys|
    ensures forall b :: b in boards ==> b != "" && '.' !in b && b + NameSuffix in keys
    ensures forall key :: key in keys && IsBoardNameKey(key) ==> key[..|key| - |NameSuffix|] in boards
    decreases |keys|
  {
    if |keys| == 0 then []
    else
      var rest := BoardsFromKeys(keys[1..]);
      var key := keys[0];
      assert keys == [key] + keys[1..];
      if IsBoardNameKey(key) then
        var board := key[..|key| - |NameSuffix|];
        assert board + NameSuffix == key;
        [board] + rest
      else rest
  }

  /** Keys built from board ids give those ids back, in order. */
  lemma {:induction false} BoardsFromNameKeys(boards: seq<string>, keys: seq<string>)
    requires |keys| == |boards|
    requires forall k :: 0 <= k < |boards| ==> boards[k] != "" && '.' !in boards[k] && keys[k] == boards[k] + NameSuffix
    ensures BoardsFromKeys(keys) == boards
    decreases |boards|
  {
    if |boards| > 0 {
      var key := keys[0];
      assert key[..|key| - |NameSuffix|] == boards[0];
      assert key[|key| - |NameSuffix|..] == NameSuffix;
      BoardsFromNameKeys(boards[1..], keys[1..]);
      assert boards == [boards[0]] + boards[1..];
    }
  }

  /** Keys of any other form (`uno.build.mcu`, `menu.cpu`) contribute nothing. */
  lemma BoardsIgnoreOtherKeys(keys: seq<string>, other: string)
    requires !IsBoardNameKey(other)
    ensures BoardsFromKeys([other] + keys) == BoardsFromKeys(keys)
  {
    assert ([other] + keys)[1..] == keys;
  }

  /** A single `X.name` key gives X. */
  lemma BoardsFromNameKey(key: string)
    requires IsBoardNameKey(key)
    ensures BoardsFromKeys([key]) == [key[..|key| - |NameSuffix|]]
  {
    assert [key][1..] == [];
  }

  /** The first key contributes its board, if any, ahead of the rest. */
  lemma BoardsFromKeysCons(key: string, rest: seq<string>)
    ensures BoardsFromKeys([key] + rest) == BoardsFromKeys([key]) + BoardsFromKeys(rest)
  {
    assert ([key] + rest)[0] == key && ([key] + rest)[1..] == rest;
    assert [key][1..] == [];
  }

  /** The boards of two key lists in a row are those of the first, then those of the second. */
  lemma {:induction false} BoardsFromKeysAppend(a: seq<string>, b: seq<string>)
    ensures BoardsFromKeys(a + b) == BoardsFromKeys(a) + BoardsFromKeys(b)
    decreases |a|
  {
    if |a| == 0 {
      assert a + b == b;
    } else {
      var head, tail := BoardsFromKeys([a[0]]), a[1..];
      assert BoardsFromKeys(a + b) == head + BoardsFromKeys(tail + b) by {
        assert a + b == [a[0]] + (tail + b);
        BoardsFromKeysCons(a[0], tail + b);
      }
      assert BoardsFromKeys(a) == head + BoardsFromKeys(tail) by {
        assert a == [a[0]] + tail;
        BoardsFromKeysCons(a[0], tail);
      }
      BoardsFromKeysAppend(tail, b);
      Text.AppendAssoc(head, BoardsFromKeys(tail), BoardsFromKeys(b));
    }
  }

  // ---------------------------------------------------------------------------
  // RepeatByArchitectures / RepeatByFQBNs
  // ---------------------------------------------------------------------------

  /** The per-sketch field a repetition fills in. */
  datatype Field = FQBN | Architecture

  function GetField(s: SketchRequirements, f: Field): string
  {
    match f
    case FQBN => s.requireFQBN
    case Architecture => s.requireArchitecture
  }

  /**
   * The sketch after one repetition: the field takes `value` when it was
   * empty ("test on every value"); "*" and concrete values stay.
   */
  function FillSketch(s: SketchRequirements, f: Field, value: string): (s2: SketchRequirements)
    ensures GetField(s2, f) == (if GetField(s, f) == "" then value else GetField(s, f))
    ensures s2.requireFeatures == s.requireFeatures
    ensures f == FQBN ==> s2.requireArchitecture == s.requireArchitecture
    ensures f == Architecture ==> s2.requireFQBN == s.requireFQBN
  {
    if GetField(s, f) != "" then s
    else match f
      case FQBN => s.(requireFQBN := value)
      case Architecture => s.(requireArchitecture := value)
  }

  /** A clone of `r` with sketch j filled from `tuple[j]`. */
  function Fill(r: TestRequirements, f: Field, tuple: seq<string>): (r2: TestRequirements)
    requires |tuple| == |r.sketches|
    ensures r2.requireWiring == r.requireWiring
    ensures |r2.sketches| == |r.sketches|
    ensures forall j :: 0 <= j < |r.sketches| ==> r2.sketches[j] == FillSketch(r.sketches[j], f, tuple[j])
  {
    var c := Clone(r);
    TestRequirements(c.requireWiring,
      seq(|c.sketches|, j requires 0 <= j < |c.sketches| => FillSketch(c.sketches[j], f, tuple[j])))
  }

  /** The entries one template contributes, one per `Perm` tuple, in tuple order. */
  function RepeatOne(r: TestRequirements, f: Field, values: seq<string>): (out: seq<TestRequirementsMatrix>)
    ensures |out| == Pow(|values|, |r.sketches|)
  {
    var tuples := Perm(values, |r.sketches|);
    seq(|tuples|, t requires 0 <= t < |tuples| => TestRequirementsMatrix(r, Fill(r, f, tuples[t])))
  }

  /** The loop of `RepeatByArchitectures`/`RepeatByFQBNs` over the templates. */
  function Repeat(tmpl: seq<TestRequirements>, f: Field, values: seq<string>): seq<TestRequirementsMatrix>
    decreases |tmpl|
  {
    if |tmpl| == 0 then [] else RepeatOne(tmpl[0], f, values) + Repeat(tmpl[1..], f, values)
  }

  function RepeatByArchitectures(tmpl: seq<TestRequirements>, architectures: seq<string>): seq<TestRequirementsMatrix>
  {
    Repeat(tmpl, Architecture, architectures)
  }

  function RepeatByFQBNs(tmpl: seq<TestRequirements>, fqbns: seq<string>): seq<TestRequirementsMatrix>
  {
    Repeat(tmpl, FQBN, fqbns)
  }

  /** The number of entries: |values|^(sketch count), summed over the templates. */
  function MatrixSize(tmpl: seq<TestRequirements>, n: nat): nat
    decreases |tmpl|
  {
    if |tmpl| == 0 then 0 else Pow(n, |tmpl[0].sketches|) + MatrixSize(tmpl[1..], n)
  }

  lemma {:induction false} RepeatSize(tmpl: seq<TestRequirements>, f: Field, values: seq<string>)
    ensures |Repeat(tmpl, f, values)| == MatrixSize(tmpl, |values|)
    decreases |tmpl|
  {
    if |tmpl| > 0 {
      RepeatSize(tmpl[1..], f, values);
    }
  }

  /** Templates are expanded one after the other. */
  lemma {:induction false} RepeatAppend(a: seq<TestRequirements>, b: seq<TestRequirements>, f: Field, values: seq<string>)
    ensures Repeat(a + b, f, values) == Repeat(a, f, values) + Repeat(b, f, values)
    decreases |a|
  {
    if |a| == 0 {
      assert a + b == b;
    } else {
      assert (a + b)[1..] == a[1..] + b;
      RepeatAppend(a[1..], b, f, values);
    }
  }

  /**
   * Entry t of a template's block: its original is the template; sketch j
   * takes the j-th element of tuple t when its field was empty and keeps it
   * otherwise; the other field, the features and the wiring are unchanged.
   */
  lemma RepeatOneEntry(r: TestRequirements, f: Field, values: seq<string>, t: nat)
    requires t < Pow(|values|, |r.sketches|)
    ensures RepeatOne(r, f, values)[t].original == r
    ensures var e := RepeatOne(r, f, values)[t].effective;
      && e.requireWiring == r.requireWiring
      && |e.sketches| == |r.sketches|
      && forall j :: 0 <= j < |r.sketches| ==>
        && GetField(e.sketches[j], f) ==
             (if GetField(r.sketches[j], f) == "" then Tuple(values, |r.sketches|, t)[j] else GetField(r.sketches[j], f))
        && e.sketches[j].requireFeatures == r.sketches[j].requireFeatures
        && (f == FQBN ==> e.sketches[j].requireArchitecture == r.sketches[j].requireArchitecture)
        && (f == Architecture ==> e.sketches[j].requireFQBN == r.sketches[j].requireFQBN)
  {
  }

  /** Every entry comes from a template and differs from it only in the filled field. */
  lemma {:induction false} RepeatEntriesFromTemplates(tmpl: seq<TestRequirements>, f: Field, values: seq<string>, x: TestRequirementsMatrix)
    requires x in Repeat(tmpl, f, values)
    ensures x.original in tmpl
    ensures x.effective.requireWiring == x.original.requireWiring
    ensures |x.effective.sketches| == |x.original.sketches|
    ensures forall j :: 0 <= j < |x.original.sketches| ==>
      var s, s2 := x.original.sketches[j], x.effective.sketches[j];
      && (GetField(s, f) != "" ==> GetField(s2, f) == GetField(s, f))
      && (GetField(s, f) == "" ==> GetField(s2, f) in values)
      && s2.requireFeatures == s.requireFeatures
    decreases |tmpl|
  {
    var head := RepeatOne(tmpl[0], f, values);
    if x in head {
      var t :| 0 <= t < |head| && head[t] == x;
      RepeatOneEntry(tmpl[0], f, values, t);
    } else {
      RepeatEntriesFromTemplates(tmpl[1..], f, values, x);
    }
  }

  // ---------------------------------------------------------------------------
  // uniqRequirements
  // ---------------------------------------------------------------------------

  /** Two matrix entries ask for `Equals` effective requirements. */
  predicate SameEffective(a: TestRequirementsMatrix, b: TestRequirementsMatrix)
  {
    Equals(a.effective, b.effective)
  }

  /** `uniqRequirements(tr)`. */
  function UniqRequirements(tr: seq<TestRequirementsMatrix>): seq<TestRequirementsMatrix>
  {
    Classes.Uniq(tr, SameEffective)
  }

  lemma SameEffectiveIsEquivalence()
    ensures Classes.Equivalence(SameEffective)
  {
    forall a, b, c | SameEffective(a, b) && SameEffective(b, c) ensures SameEffective(a, c) {
      EqualsTransitive(a.effective, b.effective, c.effective);
    }
  }

  /**
   * `uniqRequirements` keeps, in input order, exactly the entries whose
   * effective requirements are not `Equals` to those of an earlier entry.
   */
  lemma UniqIsFirsts(tr: seq<TestRequirementsMatrix>)
    ensures UniqRequirements(tr) == Classes.Firsts(tr, SameEffective)
  {
    SameEffectiveIsEquivalence();
    Classes.UniqIsFirsts(tr, SameEffective);
  }

  /**
   * The output is an order-preserving selection from the input, no two of its
   * entries have `Equals` effective requirements, every input entry has an
   * `Equals` one among them, and deduplicating again changes nothing.
   */
  lemma UniqProperties(tr: seq<TestRequirementsMatrix>)
    ensures Classes.IsSubsequence(UniqRequirements(tr), tr)
    ensures forall i, j :: 0 <= i < j < |UniqRequirements(tr)| ==>
      !Equals(UniqRequirements(tr)[i].effective, UniqRequirements(tr)[j].effective)
    ensures forall i :: 0 <= i < |tr| ==>
      exists k :: 0 <= k < |UniqRequirements(tr)| && Equals(tr[i].effective, UniqRequirements(tr)[k].effective)
    ensures UniqRequirements(UniqRequirements(tr)) == UniqRequirements(tr)
  {
    SameEffectiveIsEquivalence();
    Classes.UniqProperties(tr, SameEffective);
    Classes.UniqIdempotent(tr, SameEffective);
    var u := UniqRequirements(tr);
    assert forall i :: 0 <= i < |tr| ==> Classes.Seen(u, tr[i], SameEffective);
  }
}

=== FILE: strorder.dfy ===
/**
 * Go's `sort.Strings`: the byte-wise lexicographic order on strings (on Unicode
 * scalar values it coincides with the order of their UTF-8 encodings) and the
 * sorted rearrangement of a list, which is unique whatever algorithm produces it.
 */
module StringOrder {

  /** `a <= b` in lexicographic order. */
  predicate Le(a: string, b: string)
    decreases |a|
  {
    if |a| == 0 then true
    else if |b| == 0 then false
    else if a[0] != b[0] then a[0] < b[0]
    else Le(a[1..], b[1..])
  }

  lemma {:induction false} LeReflexive(a: string)
    ensures Le(a, a)
    decreases |a|
  {
    if |a| > 0 {
      LeReflexive(a[1..]);
    }
  }

  lemma {:induction false} LeTotal(a: string, b: string)
    ensures Le(a, b) || Le(b, a)
    decreases |a|
  {
    if |a| > 0 && |b| > 0 && a[0] == b[0] {
      LeTotal(a[1..], b[1..]);
    }
  }

  lemma {:induction false} LeAntisymmetric(a: string, b: string)
    requires Le(a, b) && Le(b, a)
    ensures a == b
    decreases |a|
  {
    if |a| > 0 {
      LeAntisymmetric(a[1..], b[1..]);
      assert a == [a[0]] + a[1..] && b == [b[0]] + b[1..];
    }
  }

  lemma {:induction false} LeTransitive(a: string, b: string, c: string)
    requires Le(a, b) && Le(b, c)
    ensures Le(a, c)
    decreases |a|
  {
    if |a| > 0 && a[0] == b[0] && b[0] == c[0] {
      LeTransitive(a[1..], b[1..], c[1..]);
    }
  }

  /** Every element is at most every later one. */
  predicate Sorted(s: seq<string>)
  {
    forall i, j :: 0 <= i < j < |s| ==> Le(s[i], s[j])
  }

  /** Inserts `x` into the sorted list `s` before the first element above it. */
  function Insert(x: string, s: seq<string>): (r: seq<string>)
    requires Sorted(s)
    ensures Sorted(r)
    ensures multiset(r) == multiset(s) + multiset{x}
    ensures |r| == |s| + 1
    decreases |s|
  {
    if |s| == 0 then [x]
    else if Le(x, s[0]) then
      InsertFront(x, s);
      [x] + s
    else
      LeTotal(x, s[0]);
      var rest := Insert(x, s[1..]);
      InsertBehind(s[0], rest, x, s[1..]);
      assert s == [s[0]] + s[1..];
      [s[0]] + rest
  }

  lemma InsertFront(x: string, s: seq<string>)
    requires Sorted(s) && |s| > 0 && Le(x, s[0])
    ensures Sorted([x] + s)
  {
    var r := [x] + s;
    forall i, j | 0 <= i < j < |r| ensures Le(r[i], r[j]) {
      if i == 0 && j > 1 {
        LeTransitive(x, s[0], s[j - 1]);
      }
    }
  }

  lemma InsertBehind(h: string, rest: seq<string>, x: string, t: seq<string>)
    requires Sorted(rest) && Sorted([h] + t)
    requires Le(h, x)
    requires multiset(rest) == multiset(t) + multiset{x}
    ensures Sorted([h] + rest)
  {
    var r := [h] + rest;
    forall i, j | 0 <= i < j < |r| ensures Le(r[i], r[j]) {
      var y := rest[j - 1];
      assert r[j] == y;
      if i == 0 {
        assert y in multiset(rest);
        if y != x {
          assert y in multiset(t);
          var k :| 0 <= k < |t| && t[k] == y;
          assert ([h] + t)[k + 1] == y;
          assert Le(([h] + t)[0], ([h] + t)[k + 1]);
        }
      } else {
        assert r[i] == rest[i - 1];
      }
    }
  }

  /** `sort.Strings(s)`: the sorted rearrangement of `s`. */
  function Sort(s: seq<string>): (r: seq<string>)
    ensures Sorted(r)
    ensures multiset(r) == multiset(s)
    ensures |r| == |s|
    decreases |s|
  {
    if |s| == 0 then []
    else
      assert s == s[..|s| - 1] + [s[|s| - 1]];
      Insert(s[|s| - 1], Sort(s[..|s| - 1]))
  }

  /** The head of a sorted list is at most any of its elements. */
  lemma SortedHeadLe(a: seq<string>, x: string)
    requires Sorted(a) && x in multiset(a)
    ensures Le(a[0], x)
  {
    var i :| 0 <= i < |a| && a[i] == x;
    LeReflexive(a[0]);
    if i > 0 {
      assert Le(a[0], a[i]);
    }
  }

  lemma TailMultiset<T>(a: seq<T>)
    requires |a| > 0
    ensures multiset(a[1..]) == multiset(a) - multiset{a[0]}
  {
    assert a == [a[0]] + a[1..];
  }

  /**
   * Two sorted lists with the same elements are equal: the result of sorting
   * depends only on the multiset sorted, not on the algorithm or the input order.
   */
  lemma {:induction false} SortedUnique(a: seq<string>, b: seq<string>)
    requires Sorted(a) && Sorted(b)
    requires multiset(a) == multiset(b)
    ensures a == b
    decreases |a|
  {
    assert |a| == |multiset(a)| == |b|;
    if |a| > 0 {
      assert a[0] == b[0] by {
        assert a[0] in multiset(b) && b[0] in multiset(a);
        SortedHeadLe(a, b[0]);
        SortedHeadLe(b, a[0]);
        LeAntisymmetric(a[0], b[0]);
      }
      TailMultiset(a);
      TailMultiset(b);
      assert Sorted(a[1..]) && Sorted(b[1..]);
      SortedUnique(a[1..], b[1..]);
      assert a == [a[0]] + a[1..] && b == [b[0]] + b[1..];
    }
  }

  /** Sorted lists are equal exactly when they are rearrangements of each other. */
  lemma SortEqualIffSameElements(a: seq<string>, b: seq<string>)
    ensures Sort(a) == Sort(b) <==> multiset(a) == multiset(b)
  {
    if multiset(a) == multiset(b) {
      SortedUnique(Sort(a), Sort(b));
    }
  }
}

=== FILE: text.dfy ===
/**
 * String helpers the system takes from Go's `strings`/`fmt` packages, from
 * go-funk and from Arduino's `String`, each given the meaning the callers rely on.
 */
module Text {

  import opened Wrappers

  // ---------------------------------------------------------------------------
  // Joining and splitting (Go's strings.Join and strings.Split)
  // ---------------------------------------------------------------------------

  /** `strings.Join(parts, sep)`: the parts with `sep` between neighbours. */
  function Join(parts: seq<string>, sep: string): (r: string)
    ensures |parts| == 0 ==> r == ""
    ensures |parts| == 1 ==> r == parts[0]
    ensures |parts| > 0 ==> |r| >= |parts[0]| && r[..|parts[0]|] == parts[0]
    decreases |parts|
  {
    if |parts| == 0 then ""
    else if |parts| == 1 then parts[0]
    else parts[0] + sep + Join(parts[1..], sep)
  }

  /** First index of `c` in `s`, or -1 when `c` does not occur. */
  function IndexOf(s: string, c: char): (r: int)
    ensures -1 <= r < |s|
    ensures r == -1 <==> c !in s
    ensures r >= 0 ==> s[r] == c && c !in s[..r]
  {
    if |s| == 0 then -1
    else if s[0] == c then 0
    else
      var k := IndexOf(s[1..], c);
      assert s[1..][..if k < 0 then 0 else k] == s[1..1 + (if k < 0 then 0 else k)];
      if k < 0 then -1 else k + 1
  }

  /** Last index of `c` in `s`, or -1 when `c` does not occur (Arduino's `lastIndexOf`). */
  function LastIndexOf(s: string, c: char): (r: int)
    ensures -1 <= r < |s|
    ensures r == -1 <==> c !in s
    ensures r >= 0 ==> s[r] == c
    ensures c !in s[r + 1..]
  {
    if |s| == 0 then -1
    else if s[|s| - 1] == c then |s| - 1
    else
      var init := s[..|s| - 1];
      var k := LastIndexOf(init, c);
      assert s == init + [s[|s| - 1]];
      assert s[k + 1..] == init[k + 1..] + [s[|s| - 1]];
      k
  }

  /** `strings.Split(s, [c])`: the maximal `c`-free pieces of `s`, never empty. */
  function Split(s: string, c: char): (r: seq<string>)
    ensures |r| >= 1
    ensures forall p :: p in r ==> c !in p
    decreases |s|
  {
    var i := IndexOf(s, c);
    if i < 0 then [s] else [s[..i]] + Split(s[i + 1..], c)
  }

  /** A join of two or more parts: the first, the separator, the join of the rest. */
  lemma JoinCons(p: string, rest: seq<string>, sep: string)
    requires |rest| > 0
    ensures Join([p] + rest, sep) == p + sep + Join(rest, sep)
  {
    assert ([p] + rest)[0] == p && ([p] + rest)[1..] == rest;
  }

  /** Joining what `Split` cut restores the string. */
  lemma {:induction false} JoinSplit(s: string, c: char)
    ensures Join(Split(s, c), [c]) == s
    decreases |s|
  {
    var i := IndexOf(s, c);
    if i >= 0 {
      var rest := s[i + 1..];
      var tail := Split(rest, c);
      JoinSplit(rest, c);
      assert Split(s, c) == [s[..i]] + tail;
      JoinCons(s[..i], tail, [c]);
      CutAt(s, i);
    }
  }

  /** A sequence is what precedes position i, its element there, and what follows. */
  lemma CutAt<T>(s: seq<T>, i: nat)
    requires i < |s|
    ensures s == s[..i] + [s[i]] + s[i + 1..]
  {
  }

  /** Splitting a join of `c`-free parts recovers the parts. */
  lemma {:induction false} SplitJoin(parts: seq<string>, c: char)
    requires |parts| > 0
    requires forall k :: 0 <= k < |parts| ==> c !in parts[k]
    ensures Split(Join(parts, [c]), c) == parts
    decreases |parts|
  {
    if |parts| == 1 {
      assert IndexOf(parts[0], c) == -1;
    } else {
      var p := parts[0];
      var tail := Join(parts[1..], [c]);
      var s := p + [c] + tail;
      assert parts == [p] + parts[1..];
      JoinCons(p, parts[1..], [c]);
      assert s == p + ([c] + tail);
      IndexAfterFree(p, [c] + tail, c);
      assert s[..|p|] == p && s[|p| + 1..] == tail;
      assert Split(s, c) == [p] + Split(tail, c);
      SplitJoin(parts[1..], c);
    }
  }

  /** The first `c` in `a + b` lies in `b` when `a` is `c`-free. */
  lemma IndexAfterFree(a: string, b: string, c: char)
    requires c !in a
    requires |b| > 0 && b[0] == c
    ensures IndexOf(a + b, c) == |a|
  {
    var s := a + b;
    assert s[|a|] == c;
    assert s[..|a|] == a;
  }

  /** A join of `c`-free parts with a `c`-free separator is `c`-free. */
  lemma {:induction false} JoinAvoids(parts: seq<string>, sep: string, c: char)
    requires c !in sep
    requires forall k :: 0 <= k < |parts| ==> c !in parts[k]
    ensures c !in Join(parts, sep)
    decreases |parts|
  {
    if |parts| > 1 {
      JoinAvoids(parts[1..], sep, c);
    }
  }

  // ---------------------------------------------------------------------------
  // Decimal numerals (Go's %d, Arduino's Serial.print(int))
  // ---------------------------------------------------------------------------

  predicate IsDigit(c: char) { '0' <= c <= '9' }

  function DigitChar(d: nat): (c: char)
    requires d < 10
    ensures IsDigit(c)
  {
    "0123456789"[d]
  }

  function DigitValue(c: char): (d: nat)
    requires IsDigit(c)
    ensures d < 10
  {
    (c as int - '0' as int) as nat
  }

  lemma DigitRoundTrip(d: nat)
    requires d < 10
    ensures DigitValue(DigitChar(d)) == d
  {
    assert "0123456789"[d] as int == '0' as int + d by {
      assert "0123456789"[0] == '0' && "0123456789"[9] == '9';
    }
  }

  /** The decimal numeral of `n`: digits only, no leading zero. */
  function NatToDecimal(n: nat): (r: string)
    ensures |r| > 0
    ensures forall k :: 0 <= k < |r| ==> IsDigit(r[k])
    ensures |r| > 1 ==> r[0] != '0'
    decreases n
  {
    if n < 10 then [DigitChar(n)] else NatToDecimal(n / 10) + [DigitChar(n % 10)]
  }

  /** The decimal numeral of `i`, with a leading '-' when negative. */
  function IntToDecimal(i: int): (r: string)
    ensures |r| > 0
    ensures i < 0 <==> r[0] == '-'
  {
    if i < 0 then "-" + NatToDecimal(-i) else NatToDecimal(i)
  }

  /** `s` consists of digits only. */
  predicate AllDigits(s: string)
  {
    forall k :: 0 <= k < |s| ==> IsDigit(s[k])
  }

  /** The value of a string of digits. */
  function DecimalValue(s: string): (n: nat)
    requires AllDigits(s)
    decreases |s|
  {
    if |s| == 0 then 0 else 10 * DecimalValue(s[..|s| - 1]) + DigitValue(s[|s| - 1])
  }

  /** Reads an optionally signed decimal numeral back; None when `s` is not one. */
  function ParseInt(s: string): (r: Option<int>)
  {
    if |s| > 1 && s[0] == '-' && AllDigits(s[1..]) then
      var magnitude: int := DecimalValue(s[1..]);
      Some(-magnitude)
    else if |s| > 0 && AllDigits(s) then
      Some(DecimalValue(s))
    else None
  }

  lemma {:induction false} NatDecimalRoundTrip(n: nat)
    ensures DecimalValue(NatToDecimal(n)) == n
    decreases n
  {
    DigitRoundTrip(n % 10);
    if n >= 10 {
      NatDecimalRoundTrip(n / 10);
      var s := NatToDecimal(n);
      assert s[..|s| - 1] == NatToDecimal(n / 10);
    }
  }

  /** Printing a number in decimal and reading it back gives the number. */
  lemma IntDecimalRoundTrip(i: int)
    ensures ParseInt(IntToDecimal(i)) == Some(i)
  {
    var s := IntToDecimal(i);
    if i < 0 {
      var digits := NatToDecimal(-i);
      NatDecimalRoundTrip(-i);
      assert s == "-" + digits && s[1..] == digits;
      assert AllDigits(digits);
      var magnitude: int := DecimalValue(digits);
      assert ParseInt(s) == Some(-magnitude);
    } else {
      NatDecimalRoundTrip(i);
      assert AllDigits(s);
      assert s[0] != '-' by { assert IsDigit(s[0]); }
      assert ParseInt(s) == Some(DecimalValue(s));
    }
  }

  /** Different numbers print differently. */
  lemma IntToDecimalInjective(i: int, j: int)
    requires IntToDecimal(i) == IntToDecimal(j)
    ensures i == j
  {
    IntDecimalRoundTrip(i);
    IntDecimalRoundTrip(j);
  }

  // ---------------------------------------------------------------------------
  // Character removal and basenames (Arduino String.replace / substring)
  // ---------------------------------------------------------------------------

  /** `s` with every occurrence of `c` removed, the rest in order. */
  function RemoveChar(s: string, c: char): (r: string)
    ensures c !in r
    ensures |r| <= |s|
    ensures c !in s ==> r == s
    decreases |s|
  {
    if |s| == 0 then ""
    else
      var rest := RemoveChar(s[1..], c);
      assert s == [s[0]] + s[1..];
      if s[0] == c then rest else [s[0]] + rest
  }

  /** Only `c` is removed: every other character keeps its number of occurrences. */
  lemma {:induction false} RemoveCharKeeps(s: string, c: char, x: char)
    requires x != c
    ensures multiset(RemoveChar(s, c))[x] == multiset(s)[x]
    decreases |s|
  {
    if |s| > 0 {
      RemoveCharKeeps(s[1..], c, x);
      assert s == [s[0]] + s[1..];
    }
  }

  /** What follows the last `sep` in `s`; the whole of `s` when there is none. */
  function AfterLast(s: string, sep: char): (r: string)
    ensures sep !in r
    ensures sep !in s ==> r == s
  {
    s[LastIndexOf(s, sep) + 1..]
  }

  /** `AfterLast` is a suffix, preceded by `sep` when `sep` occurs at all. */
  lemma AfterLastSuffix(s: string, sep: char)
    ensures var r := AfterLast(s, sep);
      && |r| <= |s| && r == s[|s| - |r|..]
      && (sep in s ==> s[|s| - |r| - 1] == sep)
  {
  }


  // ---------------------------------------------------------------------------
  // Collections of strings (go-funk SubtractString, UniqString)
  // ---------------------------------------------------------------------------

  /** The elements of `a` that do not occur in `b`, in their order in `a`. */
  function Subtract<T(==,!new)>(a: seq<T>, b: seq<T>): (r: seq<T>)
    ensures |r| <= |a|
    decreases |a|
  {
    if |a| == 0 then []
    else
      var rest := Subtract(a[1..], b);
      if a[0] in b then rest else [a[0]] + rest
  }

  /** The elements left are those of `a` missing from `b`. */
  lemma {:induction false} SubtractMembers<T(!new)>(a: seq<T>, b: seq<T>)
    ensures forall x :: x in Subtract(a, b) <==> x in a && x !in b
    decreases |a|
  {
    if |a| > 0 {
      SubtractMembers(a[1..], b);
      assert a == [a[0]] + a[1..];
    }
  }

  /** Go's `len(funk.Subtract(a, b)) > 0` test is a failed subset test. */
  lemma SubtractEmptyIffSubset<T(!new)>(a: seq<T>, b: seq<T>)
    ensures |Subtract(a, b)| == 0 <==> forall x :: x in a ==> x in b
  {
    SubtractMembers(a, b);
    if |Subtract(a, b)| > 0 {
      assert Subtract(a, b)[0] in Subtract(a, b);
    }
  }

  lemma AppendAssoc<T>(a: seq<T>, b: seq<T>, c: seq<T>)
    ensures (a + b) + c == a + (b + c)
  {
  }

  /** No element occurs twice. */
  predicate NoDuplicates<T(==)>(s: seq<T>)
  {
    forall i, j :: 0 <= i < j < |s| ==> s[i] != s[j]
  }

  /** The first occurrence of each element of `s`, in order (`funk.UniqString`). */
  function Dedup<T(==,!new)>(s: seq<T>): (r: seq<T>)
    ensures forall x :: x in r <==> x in s
    ensures NoDuplicates(r)
    ensures NoDuplicates(s) ==> r == s
    decreases |s|
  {
    if |s| == 0 then []
    else
      var init := Dedup(s[..|s| - 1]);
      var last := s[|s| - 1];
      assert s == s[..|s| - 1] + [last];
      if last in s[..|s| - 1] then init else init + [last]
  }

  /** How often `x` occurs in `s`. */
  function Count<T(==)>(s: seq<T>, x: T): (n: nat)
    ensures n == multiset(s)[x]
  {
    if |s| == 0 then 0
    else
      assert s == [s[0]] + s[1..];
      (if s[0] == x then 1 else 0) + Count(s[1..], x)
  }

  /** Concatenation of a sequence of strings. */
  function Concat(parts: seq<string>): (r: string)
    ensures |parts| == 1 ==> r == parts[0]
    decreases |parts|
  {
    if |parts| == 0 then "" else parts[0] + Concat(parts[1..])
  }

  lemma {:induction false} ConcatAppend(a: seq<string>, b: seq<string>)
    ensures Concat(a + b) == Concat(a) + Concat(b)
    decreases |a|
  {
    if |a| > 0 {
      assert (a + b)[1..] == a[1..] + b;
      ConcatAppend(a[1..], b);
    } else {
      assert a + b == b;
    }
  }

  lemma ConcatPrefix(parts: seq<string>)
    requires |parts| > 0
    ensures |Concat(parts)| >= |parts[0]| && Concat(parts)[..|parts[0]|] == parts[0]
  {
  }

  /** `p` is a prefix of `s`. */
  predicate StartsWith(s: string, p: string)
  {
    |p| <= |s| && s[..|p|] == p
  }

  /** `p` is a suffix of `s`. */
  predicate EndsWith(s: string, p: string)
  {
    |p| <= |s| && s[|s| - |p|..] == p
  }
}

=== FILE: uniq.dfy ===
/**
 * Deduplication up to an equivalence, as done by the labelled loop of
 * `uniqRequirements` in cino-server/server/scanner.go: an entry is kept when no
 * entry kept before it is equivalent to it.
 */
module Classes {

  import Text

  /** `eq` is reflexive, symmetric and transitive. */
  ghost predicate Equivalence<T(!new)>(eq: (T, T) -> bool)
  {
    && (forall a :: eq(a, a))
    && (forall a, b :: eq(a, b) ==> eq(b, a))
    && (forall a, b, c :: eq(a, b) && eq(b, c) ==> eq(a, c))
  }

  /** Some entry of `out` is equivalent to `x` (tested as `eq(x, out[k])`). */
  predicate Seen<T>(out: seq<T>, x: T, eq: (T, T) -> bool)
  {
    exists k :: 0 <= k < |out| && eq(x, out[k])
  }

  /** The loop from the remaining input `rest` on, `out` being kept so far. */
  function UniqFrom<T>(out: seq<T>, rest: seq<T>, eq: (T, T) -> bool): seq<T>
    decreases |rest|
  {
    if |rest| == 0 then out
    else if Seen(out, rest[0], eq) then UniqFrom(out, rest[1..], eq)
    else UniqFrom(out + [rest[0]], rest[1..], eq)
  }

  function Uniq<T>(xs: seq<T>, eq: (T, T) -> bool): seq<T>
  {
    UniqFrom([], xs, eq)
  }

  /** Entry i has no equivalent entry before it. */
  predicate FirstOfClass<T>(xs: seq<T>, i: nat, eq: (T, T) -> bool)
    requires i < |xs|
  {
    forall j :: 0 <= j < i ==> !eq(xs[j], xs[i])
  }

  /** Reference: the entries that are first of their class, in input order. */
  function Firsts<T>(xs: seq<T>, eq: (T, T) -> bool): seq<T>
    decreases |xs|
  {
    if |xs| == 0 then []
    else
      var n := |xs| - 1;
      Firsts(xs[..n], eq) + (if FirstOfClass(xs, n, eq) then [xs[n]] else [])
  }

  /** `a` is obtained from `b` by deleting entries. */
  predicate IsSubsequence<T(==)>(a: seq<T>, b: seq<T>)
    decreases |b|
  {
    if |a| == 0 then true
    else if |b| == 0 then false
    else
      || (a[|a| - 1] == b[|b| - 1] && IsSubsequence(a[..|a| - 1], b[..|b| - 1]))
      || IsSubsequence(a, b[..|b| - 1])
  }

  /** No two entries are equivalent. */
  predicate Distinct<T>(out: seq<T>, eq: (T, T) -> bool)
  {
    forall i, j :: 0 <= i < j < |out| ==> !eq(out[i], out[j])
  }

  /** Every entry of `xs` has an equivalent in `out`. */
  predicate Covers<T>(out: seq<T>, xs: seq<T>, eq: (T, T) -> bool)
  {
    forall i :: 0 <= i < |xs| ==> Seen(out, xs[i], eq)
  }

  lemma {:induction false} FirstsSubsequence<T>(xs: seq<T>, eq: (T, T) -> bool)
    ensures IsSubsequence(Firsts(xs, eq), xs)
    decreases |xs|
  {
    if |xs| > 0 {
      var n := |xs| - 1;
      var f := Firsts(xs[..n], eq);
      FirstsSubsequence(xs[..n], eq);
      assert xs[..|xs| - 1] == xs[..n];
      if FirstOfClass(xs, n, eq) {
        var g := f + [xs[n]];
        assert g[..|g| - 1] == f;
        assert g[|g| - 1] == xs[|xs| - 1];
      } else {
        assert Firsts(xs, eq) == f;
      }
    }
  }

  lemma {:induction false} FirstsMembers<T>(xs: seq<T>, eq: (T, T) -> bool)
    ensures forall x :: x in Firsts(xs, eq) ==> x in xs
    decreases |xs|
  {
    if |xs| > 0 {
      var n := |xs| - 1;
      FirstsMembers(xs[..n], eq);
      assert forall x :: x in xs[..n] ==> x in xs;
    }
  }

  lemma {:induction false} FirstsDistinct<T(!new)>(xs: seq<T>, eq: (T, T) -> bool)
    requires Equivalence(eq)
    ensures Distinct(Firsts(xs, eq), eq)
    decreases |xs|
  {
    if |xs| > 0 {
      var n := |xs| - 1;
      var f := Firsts(xs[..n], eq);
      FirstsDistinct(xs[..n], eq);
      FirstsMembers(xs[..n], eq);
      if FirstOfClass(xs, n, eq) {
        var g := f + [xs[n]];
        forall i, j | 0 <= i < j < |g| ensures !eq(g[i], g[j]) {
          if j == |g| - 1 {
            assert g[i] in xs[..n];
            var m :| 0 <= m < n && xs[..n][m] == g[i];
            assert !eq(xs[m], xs[n]);
          } else {
            assert g[i] == f[i] && g[j] == f[j];
          }
        }
      }
    }
  }

  lemma {:induction false} FirstsCover<T(!new)>(xs: seq<T>, eq: (T, T) -> bool)
    requires Equivalence(eq)
    ensures Covers(Firsts(xs, eq), xs, eq)
    decreases |xs|
  {
    if |xs| > 0 {
      var n := |xs| - 1;
      var init := xs[..n];
      var f := Firsts(init, eq);
      FirstsCover(init, eq);
      var g := Firsts(xs, eq);
      assert forall k :: 0 <= k < |f| ==> g[k] == f[k];
      forall i | 0 <= i < |xs| ensures Seen(g, xs[i], eq) {
        if i < n {
          assert init[i] == xs[i];
          var k :| 0 <= k < |f| && eq(xs[i], f[k]);
          assert g[k] == f[k];
        } else if FirstOfClass(xs, n, eq) {
          assert g[|g| - 1] == xs[i];
        } else {
          var m :| 0 <= m < n && eq(xs[m], xs[n]);
          assert init[m] == xs[m];
          var k :| 0 <= k < |f| && eq(xs[m], f[k]);
          assert g[k] == f[k];
        }
      }
    }
  }

  /**
   * The loop keeps exactly the first entry of each class: an entry is seen
   * among those kept so far exactly when some earlier entry is equivalent.
   */
  lemma {:induction false} UniqFromIsFirsts<T(!new)>(xs: seq<T>, i: nat, eq: (T, T) -> bool)
    requires Equivalence(eq)
    requires i <= |xs|
    ensures UniqFrom(Firsts(xs[..i], eq), xs[i..], eq) == Firsts(xs, eq)
    decreases |xs| - i
  {
    if i == |xs| {
      assert xs[..i] == xs;
    } else {
      var f := Firsts(xs[..i], eq);
      FirstsMembers(xs[..i], eq);
      FirstsCover(xs[..i], eq);
      assert xs[i..][0] == xs[i] && xs[i..][1..] == xs[i + 1..];
      assert xs[..i + 1][..i] == xs[..i];
      assert Seen(f, xs[i], eq) <==> !FirstOfClass(xs[..i + 1], i, eq) by {
        if Seen(f, xs[i], eq) {
          var k :| 0 <= k < |f| && eq(xs[i], f[k]);
          assert f[k] in xs[..i];
          var m :| 0 <= m < i && xs[..i][m] == f[k];
          assert xs[..i + 1][m] == f[k];
        }
        if !FirstOfClass(xs[..i + 1], i, eq) {
          var m :| 0 <= m < i && eq(xs[..i + 1][m], xs[..i + 1][i]);
          assert xs[..i][m] == xs[m];
          var k :| 0 <= k < |f| && eq(xs[m], f[k]);
        }
      }
      assert xs[..i + 1][i] == xs[i];
      var next := if Seen(f, xs[i], eq) then f else f + [xs[i]];
      assert Firsts(xs[..i + 1], eq) == next;
      assert UniqFrom(f, xs[i..], eq) == UniqFrom(next, xs[i + 1..], eq);
      UniqFromIsFirsts(xs, i + 1, eq);
    }
  }

  /** The loop computes the reference. */
  lemma UniqIsFirsts<T(!new)>(xs: seq<T>, eq: (T, T) -> bool)
    requires Equivalence(eq)
    ensures Uniq(xs, eq) == Firsts(xs, eq)
  {
    UniqFromIsFirsts(xs, 0, eq);
    assert xs[..0] == [] && xs[0..] == xs;
  }

  /**
   * The result is an order-preserving selection of the input, no two of its
   * entries are equivalent, and every input entry has an equivalent in it.
   */
  lemma UniqProperties<T(!new)>(xs: seq<T>, eq: (T, T) -> bool)
    requires Equivalence(eq)
    ensures IsSubsequence(Uniq(xs, eq), xs)
    ensures Distinct(Uniq(xs, eq), eq)
    ensures Covers(Uniq(xs, eq), xs, eq)
  {
    UniqIsFirsts(xs, eq);
    FirstsSubsequence(xs, eq);
    FirstsDistinct(xs, eq);
    FirstsCover(xs, eq);
  }

  lemma {:induction false} FirstsOfDistinct<T>(xs: seq<T>, eq: (T, T) -> bool)
    requires Distinct(xs, eq)
    ensures Firsts(xs, eq) == xs
    decreases |xs|
  {
    if |xs| > 0 {
      var n := |xs| - 1;
      assert Distinct(xs[..n], eq);
      FirstsOfDistinct(xs[..n], eq);
      assert FirstOfClass(xs, n, eq);
      assert xs[..n] + [xs[n]] == xs;
    }
  }

  /** Deduplicating twice changes nothing. */
  lemma UniqIdempotent<T(!new)>(xs: seq<T>, eq: (T, T) -> bool)
    requires Equivalence(eq)
    ensures Uniq(Uniq(xs, eq), eq) == Uniq(xs, eq)
  {
    var u := Uniq(xs, eq);
    UniqProperties(xs, eq);
    UniqIsFirsts(u, eq);
    FirstsOfDistinct(u, eq);
  }

  /** Plain equality, the equivalence `funk.UniqString` deduplicates by. */
  predicate Same<T(==)>(a: T, b: T)
  {
    a == b
  }

  /** `funk.UniqString` keeps exactly the first occurrence of each string, in input order. */
  lemma {:induction false} DedupIsFirsts<T(!new)>(xs: seq<T>)
    ensures Text.Dedup(xs) == Firsts(xs, Same)
    decreases |xs|
  {
    if |xs| > 0 {
      var n := |xs| - 1;
      DedupIsFirsts(xs[..n]);
      assert FirstOfClass(xs, n, Same) <==> xs[n] !in xs[..n] by {
        if xs[n] in xs[..n] {
          var j :| 0 <= j < n && xs[..n][j] == xs[n];
          assert Same(xs[j], xs[n]);
        }
      }
    }
  }
}

=== FILE: wrappers.dfy ===
/** Failure-carrying result types shared by the model. */
module Wrappers {

  /** A value that may be absent: Go's nil slice or nil pointer. */
  datatype Option<+T> = None | Some(value: T)

  /** Either a value or an error message: Go's `(T, error)` pair. */
  datatype Result<+T> = Success(value: T) | Failure(error: string)
}
